=== FILE: README.md ===
# md_editor, modelled in Dafny

md_editor is a browser Markdown editor. Text typed in a CodeMirror editor is converted
to HTML. The preview is then post-processed in a fixed order: code highlighting,
Mermaid diagrams, ABC music notation and MathJax formulas. Finally an outline sidebar
is rebuilt from the headings. Around this pipeline sit:

- a toolbar: download, upload, PDF export, clear, and loading a demo document;
- a modal dialog with a focus trap;
- a log-level gate;
- a heading-colour settings panel;
- a theme toggle and view-mode switch.

This project models that core as pure functions over immutable datatypes and proves
what the scripts promise about it. The modules follow the scripts:

| module | file | models |
|---|---|---|
| `Text` | text.dfy | the JavaScript string primitives the scripts use: `trim` (the ECMAScript whitespace set), ASCII `toLowerCase`, `startsWith`/`endsWith`, `replace` with a string pattern (first occurrence only), global replace of one character, and class-token membership as a `.class` selector tests it |
| `HeadingId` | heading_id.dfy | the heading slug: lower-case, then every maximal run of characters outside `[A-Za-z0-9_]` becomes one `-` |
| `CustomRenderer` | custom_renderer.dfy | the code-fence and heading transforms, each paired with a reader that recovers the transform's inputs from its HTML |
| `Preview` | preview.dfy | `updatePreview` and its stages, over a sequence of abstract nodes. The Markdown engine and the four libraries are function parameters that may fail |
| `FileHandler` | file_handler.dfy | download, upload, PDF export, clear and demo loading. Dialog answers, the picked file and the fetch reply are inputs |
| `ModalManager` | modal_manager.dfy | the dialog as a state machine: focusables, Tab arithmetic, the `{confirmed, value}` results and cleanup |
| `Logger` | logger.dfy | the rank table and per-method gating |
| `SettingsManager` | settings_manager.dfy | heading-colour resolution, the palette, and the load, save and reset handlers |
| `UiManager` | ui_manager.dfy | the theme toggle and the view-mode mapping |
| `Wrappers` | wrappers.dfy | `Option` and `Result` |

The heading slug keeps leading and trailing hyphens: `Hello, World!` becomes
`hello-world-`, which `HeadingId.HelloWorldSlug` proves: the code at
scripts/markdownRenderer.js:34 strips nothing.

## Model

| member | source | states |
|---|---|---|
| `CustomRenderer.CodeHtml` | scripts/markdownRenderer.js:16-26 | The code-fence transform is total in the tag. `mermaid` gives `<div class="mermaid">` + code + `</div>`. Every other tag, `abc` included, gives the generic `pre > code.language-<tag>` shell. The code body appears verbatim |
| `CustomRenderer.CodeHtmlRoundTrip` | scripts/markdownRenderer.js:16-26 | For a tag without a double quote, the emitted HTML reads back as the branch taken, with the tag and the unescaped code body |
| `CustomRenderer.ShellRoundTrip` | scripts/markdownRenderer.js:20-25 | The generic shell of any tag other than `mermaid` reads back as a shell with that tag and code body, never as a diagram container |
| `CustomRenderer.QuoteSplit` | scripts/markdownRenderer.js:25 | A quote-free class value or id is read back up to the double quote that closes the attribute |
| `CustomRenderer.LevelDigit` | scripts/markdownRenderer.js:35 | The `h<level>` tag digit is the level, from 1 to 6 |
| `CustomRenderer.HeadingOpen` | scripts/markdownRenderer.js:35 | The start tag up to the id's opening quote is `<h`, the level digit, then ` id="`, eight characters in all |
| `CustomRenderer.HeadingElementRoundTrip` | scripts/markdownRenderer.js:35 | An `h<level>` element with a quote-free id gives back its level, id and raw text |
| `CustomRenderer.HeadingHtmlRoundTrip` | scripts/markdownRenderer.js:33-36 | The heading transform emits `h<level>` with the slug of the text as id and the raw text as content |
| `CustomRenderer.EqualTextsShareId` | scripts/markdownRenderer.js:34-35 | Equal heading texts get equal ids at any levels: no de-duplication |
| `HeadingId.SkipNonWord` | scripts/markdownRenderer.js:34 | Skipping a maximal non-word run leaves a suffix that is empty or starts with a word character |
| `HeadingId.CollapseNonWordRuns` | scripts/markdownRenderer.js:34 | Collapsing runs never lengthens the string and leaves it empty iff it was empty |
| `HeadingId.CollapseShape` | scripts/markdownRenderer.js:34 | Collapsing emits only hyphens and word characters, never two hyphens in a row, and starts with `-` iff the input starts with a non-word character |
| `HeadingId.ConsShape` | scripts/markdownRenderer.js:34 | A word character, or a hyphen not followed by a hyphen, can be put in front of a collapsed string without breaking its shape |
| `HeadingId.CollapseKeepsWordChars` | scripts/markdownRenderer.js:34 | Collapsing keeps exactly the word characters of the input, in order |
| `HeadingId.SkippedRunHasNoWordChars` | scripts/markdownRenderer.js:34 | A skipped non-word run holds no word characters |
| `HeadingId.CollapseKeepsLowerCase` | scripts/markdownRenderer.js:34 | Collapsing a string without upper-case letters introduces none |
| `HeadingId.NoUpperSuffix` | scripts/markdownRenderer.js:34 | A suffix of a lower-cased string has no upper-case letter |
| `HeadingId.NoUpperCons` | scripts/markdownRenderer.js:34 | Putting a non-upper-case character in front keeps a string free of upper-case letters |
| `HeadingId.Slug` | scripts/markdownRenderer.js:34 | The slug holds only lower-case ASCII letters, digits, `_` and `-`, with no double hyphen. It is no longer than the text, empty iff the text is empty, and keeps the lower-cased text's word characters in order |
| `HeadingId.CollapseFixesIdForm` | scripts/markdownRenderer.js:34 | Collapsing a string already in slug form changes nothing |
| `HeadingId.SlugIdempotent` | scripts/markdownRenderer.js:34 | `slug(slug(t)) == slug(t)` |
| `HeadingId.CollapseIsSqueezedDashes` | scripts/markdownRenderer.js:34 | The run-collapsing slug equals an independent two-step definition: each non-word character becomes `-`, then hyphen runs are squeezed to one |
| `HeadingId.CollapseWordPrefix` | scripts/markdownRenderer.js:34 | A leading block of word characters passes through collapsing unchanged |
| `HeadingId.CollapseWordStep` | scripts/markdownRenderer.js:34 | One leading word character passes through collapsing unchanged |
| `HeadingId.CollapseNonWordPrefix` | scripts/markdownRenderer.js:34 | A leading non-word run before a word character collapses to one `-` |
| `HeadingId.SkipNonWordPrefix` | scripts/markdownRenderer.js:34 | Skipping a non-word prefix lands on what follows it |
| `HeadingId.CollapseWordThenRun` | scripts/markdownRenderer.js:34 | A word followed by a trailing non-word run ends in one hyphen: the end is not trimmed |
| `HeadingId.CollapseTwoWords` | scripts/markdownRenderer.js:34 | Word, non-word run, word, non-word run collapses to word, `-`, word, `-` |
| `HeadingId.HelloWorldSlug` | scripts/markdownRenderer.js:34 | `Hello, World!` becomes `hello-world-`: the trailing hyphen is kept |
| `HeadingId.NonAsciiLettersCollapse` | scripts/markdownRenderer.js:34 | Non-ASCII letters are non-word characters: `Café` becomes `caf-` |
| `Preview.HighlightCodeBlocks` | scripts/markdownRenderer.js:77-90 | The pass keeps the number of nodes, and each node is either unchanged or, if its class with the first `language-` removed is not `abc`, highlighted |
| `Preview.HighlightCompletes` | scripts/markdownRenderer.js:79-86 | A pass that does not stop has highlighted every reaching block, and every highlighter call returned |
| `Preview.HighlightStops` | scripts/markdownRenderer.js:78-89 | The first throw ends the pass at a reaching block whose call threw that message. Reaching blocks before it are highlighted; it and all later blocks are unchanged |
| `Preview.HighlightStopsAt` | scripts/markdownRenderer.js:80-83 | The block a pass stops at reaches the highlighter, and its call threw that message |
| `Preview.HighlightStopsAround` | scripts/markdownRenderer.js:78-89 | The reaching blocks before the stop are highlighted, and the stopping block and every later one are unchanged |
| `Preview.StripLanguagePrefix` | scripts/markdownRenderer.js:81 | Removing the first `language-` from `language-<lang>` gives `<lang>` |
| `Preview.DrawAll` | scripts/markdownRenderer.js:98 | Every diagram container is drawn and every other node is untouched |
| `Preview.RenderMermaidCharts` | scripts/markdownRenderer.js:96-104 | One initialisation over all diagram sources. On success every diagram is drawn; on a throw the tree is unchanged and the message is reported. Non-diagram nodes never change |
| `Preview.AbcBoxFor` | scripts/markdownRenderer.js:116-135 | A notation block becomes one `abc-notation` container. It holds the engraved score iff rendering returned, and otherwise only the error panel with the exception's message |
| `Preview.RenderAbcBlocks` | scripts/markdownRenderer.js:111-141 | Every `pre code.language-abc` block is replaced in place by its container, keeping count and order. Other nodes are untouched, and later blocks are still rendered after a failure. The failures are the messages of the failing notation blocks, one per block, in block order |
| `Preview.NotationFailuresMembers` | scripts/markdownRenderer.js:116-134 | A message is among the notation failures iff some notation block's engraving throws with it |
| `Preview.NotationFailuresKept` | scripts/markdownRenderer.js:62-64 | Trees that agree on which positions hold notation blocks, and on those blocks' text, give the same failure list |
| `Preview.RunNotationFailures` | scripts/markdownRenderer.js:62-64 | In a run, the notation stage's failures are those of the converted document's notation blocks, in order |
| `Preview.RenderMathFormulas` | scripts/markdownRenderer.js:147-156 | A diagnostic is reported iff MathJax is loaded and starting the typesetter throws, and it carries that exception's message |
| `Preview.HeadingsOf` | scripts/markdownRenderer.js:167 | The list holds only heading nodes and is never longer than the tree |
| `Preview.HeadingsOfComplete` | scripts/markdownRenderer.js:167 | Every heading node of the tree is in the list |
| `Preview.UpdateSidebar` | scripts/markdownRenderer.js:166-180 | The outline is rebuilt from empty with exactly one entry per heading, in order. Each entry has the heading's level and text, href `#` + id, the theme's link colour, and indent `(level-1)*15` px within [0, 75] |
| `Preview.SameHeadingsSameList` | scripts/markdownRenderer.js:62-68 | Stages that leave every heading node alone leave the heading list, and so the outline, unchanged |
| `Preview.Notify` | scripts/markdownRenderer.js:102-134 | The dialogs are at most one for the diagram failure, then one per entry of the failure list, in that order and with that message; the notation dialogs come last |
| `Preview.NotifyKinds` | scripts/markdownRenderer.js:102-134 | A diagram dialog carries a message iff the diagram stage failed with it, and a notation dialog iff the message is in the failure list |
| `Preview.NotationNotices` | scripts/markdownRenderer.js:134 | One notation dialog per failure, in order, and no dialog of any other kind |
| `Preview.StagesPlaceNodes` | scripts/markdownRenderer.js:62-65 | Through highlighting, diagrams and notation every node keeps its place. Notation blocks become their own containers, none is left, and headings and other nodes no stage looks at are untouched |
| `Preview.NodeThroughStages` | scripts/markdownRenderer.js:62-65 | One node through the three stages: a notation block becomes its container, a heading or any other node no stage looks at stays as it is, and nothing else becomes a heading |
| `Preview.UpdatePreview` | scripts/markdownRenderer.js:53-70 | A conversion error escapes and leaves the screen as it was. Otherwise every node that no stage looks at (markup, headings, code blocks the highlight filter skips) is shown as converted. With no throwing highlighter call, every reaching non-notation code block is shown highlighted and no highlighting error is logged. When some call throws, the reaching blocks before the first throwing one are shown highlighted, it and every later code block are shown as converted, and the first console error carries its message. Diagram containers are drawn iff initialisation over the document's diagram sources returns, and its message is both logged and shown iff it throws. Every notation block becomes its own container in place. Each failing notation block gets one dialog and one console error with its message, in block order: the dialogs after the diagram one, the errors after the highlighting and diagram ones. A message is shown or logged as a notation failure iff some notation block throws with it. A math error is logged, with its message, iff the typesetter is loaded and throws on the final tree. The console errors are exactly these, in this order: at most one highlighting error, at most one diagram error, one per failing notation block, and at most one math error. Headings pass through untouched and the outline describes the converted document's headings |
| `Preview.RunSteps` | scripts/markdownRenderer.js:62-64 | Each of the three tree-changing stages keeps the node count and changes each node only as its stage allows |
| `Preview.RenderedLayout` | scripts/markdownRenderer.js:57-68 | After a conversion every node keeps its place, notation blocks become their containers, nodes no stage looks at are untouched, and the outline describes the headings |
| `Preview.RenderedHighlighting` | scripts/markdownRenderer.js:77-90 | Within a run, every reaching block is shown highlighted and nothing is logged when no call throws. Otherwise the display stops at the first throwing block and its message is the first console error |
| `Preview.RenderedHighlightAll` | scripts/markdownRenderer.js:78-86 | Within a run with no throwing call, every reaching non-notation code block is shown highlighted and no highlighting error is logged |
| `Preview.RenderedHighlightStop` | scripts/markdownRenderer.js:78-89 | Within a run where some call throws, there is a first throwing block. The reaching blocks before it are shown highlighted, it and every later code block are shown as converted, and the first console error carries its message |
| `Preview.StopShownInRun` | scripts/markdownRenderer.js:78-89 | After the pass stops at a block, the final tree shows the reaching blocks before it highlighted and the code blocks from it on as converted |
| `Preview.StopLoggedInRun` | scripts/markdownRenderer.js:87-88 | After the pass stops at a block, the run's first console error is the highlighting error carrying that block's message |
| `Preview.ShownAfterPass` | scripts/markdownRenderer.js:62-64 | If the later stages keep highlighted and unvisited code blocks, the final tree shows highlighting exactly as the pass left it around the split point |
| `Preview.RenderedErrors` | scripts/markdownRenderer.js:87-154 | Within a run, the number of console errors is the number of failing stages plus the number of failing notation blocks. The highlighting error comes first, the diagram error next and the math error last |
| `Preview.OneHighlightError` | scripts/markdownRenderer.js:87-88 | When the first console error is the first throwing block's highlighting error, the slot layout of a run allows no other highlighting error |
| `Preview.OneHighlightErrorShown` | scripts/markdownRenderer.js:78-89 | From the run's properties alone: when some call throws, a highlighting error carries a message iff it is the first throwing call's |
| `Preview.FirstErrorOfStop` | scripts/markdownRenderer.js:87-88 | From the run's highlighting property: the first console error carries the first throwing call's message |
| `Preview.OnlyFirstSlotHighlights` | scripts/markdownRenderer.js:87-154 | An error list laid out as highlighting, diagram, notation and math errors holds exactly one highlighting error |
| `Preview.DiagnoseSlots` | scripts/markdownRenderer.js:87-154 | The highlighting error, carrying the stop's message, is the first console error. The diagram error follows it and the math error is last |
| `Preview.RenderedDiagrams` | scripts/markdownRenderer.js:96-104 | Within a run, the diagram library sees the converted document's diagram sources; containers are drawn iff it returns, and its message is logged and shown iff it throws |
| `Preview.RenderedNotation` | scripts/markdownRenderer.js:111-141 | Within a run, some notation dialog appears iff some engraving throws, and a notation dialog or console error carries a message iff some notation block throws with it |
| `Preview.RenderedNotationOrder` | scripts/markdownRenderer.js:87-141 | Within a run, the notation dialogs and console errors are one per failing notation block of the converted document, in block order, placed after the diagram dialog and after the highlighting and diagram errors |
| `Preview.ReportsInOrder` | scripts/markdownRenderer.js:87-141 | The notation dialogs are the last dialogs, and the notation errors follow the highlighting and diagram errors, each in failure-list order |
| `Preview.RenderedMath` | scripts/markdownRenderer.js:147-156 | Within a run, a math error is logged iff the typesetter is loaded and throws on the final tree, and it carries that exception's message |
| `Preview.HighlightOutcome` | scripts/markdownRenderer.js:78-89 | The highlighting pass stops iff some call on a reaching block throws |
| `Preview.HighlightStopsFirst` | scripts/markdownRenderer.js:80-84 | Every call on a reaching block before the stop returned |
| `Preview.HighlightStopIsFirst` | scripts/markdownRenderer.js:78-89 | The pass stops at the first reaching block whose call throws |
| `Preview.FirstHighlightThrowUnique` | scripts/markdownRenderer.js:78-89 | There is at most one first throwing block |
| `Preview.DiagramSourcesKept` | scripts/markdownRenderer.js:62-63 | Highlighting leaves the diagram sources the diagram stage reads unchanged |
| `Preview.NotationOutcome` | scripts/markdownRenderer.js:62-64 | The notation stage records failures iff some notation block of the converted document fails to engrave |
| `Preview.NotationBlockKept` | scripts/markdownRenderer.js:113 | Highlighting and diagrams neither create nor remove a notation block, and keep its text |
| `Preview.StagesKeepCodeAndDiagrams` | scripts/markdownRenderer.js:62-64 | A highlighted non-notation code block stays highlighted, a non-notation code block the pass left alone stays as converted, and a diagram container is changed only by the diagram stage |
| `Preview.CodeAndDiagramThroughStages` | scripts/markdownRenderer.js:62-64 | The same, for one node |
| `Preview.Diagnose` | scripts/markdownRenderer.js:87-154 | The console errors are at most one for the highlighting stop and one for the diagram failure, then one per entry of the failure list in order, then at most one for math |
| `Preview.DiagnoseKinds` | scripts/markdownRenderer.js:87-154 | Each kind of console error carries a message iff its stage failed with it: the highlighting stop's message, the diagram failure, exactly the entries of the failure list, and the math failure |
| `Preview.DiagnosticKinds` | scripts/markdownRenderer.js:87-154 | The same, kind by kind, for the three parts the errors are assembled from |
| `Preview.NotationErrorsPlaced` | scripts/markdownRenderer.js:133 | The notation errors sit right after the highlighting and diagram errors, in failure-list order |
| `Preview.StageDiagnostics` | scripts/markdownRenderer.js:87-101 | The highlighting and diagram stages log at most one error each, with the stage's message, and nothing else |
| `Preview.NotationDiagnostics` | scripts/markdownRenderer.js:133 | One notation error per failure, in order, and no error of any other kind |
| `Preview.FenceRouting` | scripts/markdownRenderer.js:16-26 | For HTML produced by the custom transform, a fenced block with a one-token, quote-free tag reaches exactly one consumer, chosen by its tag: `mermaid` the diagram stage, `abc` the notation stage, anything else the highlighter |
| `Preview.ShellRouting` | scripts/markdownRenderer.js:80-83 | A `language-<lang>` block with a one-token tag is a notation block iff the tag is `abc`, and reaches the highlighter iff it is not |
| `Preview.TwoWordAbcTagReachesBoth` | scripts/markdownRenderer.js:81-83 | The class `language-abc x` matches the notation selector and also passes the highlight filter |
| `Text.TrimStart` | scripts/fileHandler.js:12 | Only leading whitespace is dropped, and the result is a suffix |
| `Text.TrimEnd` | scripts/fileHandler.js:12 | Only trailing whitespace is dropped, and the result is a prefix |
| `Text.Trim` | scripts/fileHandler.js:12 | `trim` gives an infix of the input with no whitespace at either end, and everything before and after that infix is whitespace. It is empty iff the input is all whitespace |
| `Text.TrimPlaced` | scripts/fileHandler.js:12 | Trimming the end of the start-trimmed string gives a trimmed string that sits right after the leading whitespace with only whitespace behind it, and is empty iff the input is all whitespace |
| `Text.TrimOfTrimmed` | scripts/fileHandler.js:12 | Trimming a trimmed string changes nothing |
| `Text.TrimIdempotent` | scripts/fileHandler.js:12 | `trim` is idempotent |
| `Text.LowerChar` | scripts/markdownRenderer.js:34 | ASCII upper-case letters shift down by 32; every other character is kept |
| `Text.AsciiLower` | scripts/fileHandler.js:15 | Lower-casing is pointwise and keeps the length |
| `Text.IndexOfFromSpec` | scripts/markdownRenderer.js:81 | Finds the first occurrence of the pattern at or after the start, or reports that there is none |
| `Text.ReplaceFirstSpec` | scripts/markdownRenderer.js:81 | `replace` with a string pattern rewrites only the first occurrence, and leaves a string without the pattern alone |
| `Text.ReplaceEachChar` | scripts/fileHandler.js:98 | A global one-character replace grows the length by `count * (|rep| - 1)` |
| `Text.ReplaceCharByItself` | scripts/fileHandler.js:98 | Replacing a character by itself is the identity |
| `Text.SingleTokenClass` | scripts/markdownRenderer.js:113 | A class attribute without whitespace lists a token iff it equals that token |
| `FileHandler.NormaliseFilename` | scripts/fileHandler.js:12-17 | The name is trimmed and never empty, with `document.md` for a blank answer. It ends with `.md` case-insensitively; `.md` is appended iff the trimmed name does not already end so |
| `FileHandler.DefaultIsMarkdownName` | scripts/fileHandler.js:14 | `document.md` is trimmed and ends with `.md` |
| `FileHandler.AppendedSuffixIsMarkdownName` | scripts/fileHandler.js:15-16 | Appending `.md` to a trimmed name keeps it trimmed and makes it end with `.md` |
| `FileHandler.NormaliseIdempotent` | scripts/fileHandler.js:12-17 | Normalising twice equals normalising once |
| `FileHandler.UpperCaseSuffixKept` | scripts/fileHandler.js:15 | `notes.MD` is kept unchanged |
| `FileHandler.DefaultFilenameIsNormal` | scripts/fileHandler.js:14 | `document.md` is already normalised |
| `FileHandler.Download` | scripts/fileHandler.js:4-24 | Blank content is refused. A file is produced iff the content is not blank and the prompt is confirmed; it holds the whole buffer as `text/markdown` under the normalised name |
| `FileHandler.PromptDefaultsToDocumentMd` | scripts/fileHandler.js:10-17 | With the dialog opened as written, accepting the name prompt at once saves `document.md`; Escape saves nothing |
| `FileHandler.ConfirmedDefaultSaves` | scripts/fileHandler.js:10-20 | Confirming `document.md` for non-blank content saves the content as `text/markdown` under that name |
| `FileHandler.Upload` | scripts/fileHandler.js:25-44 | The size notice appears iff a file over `10*1024*1024` bytes is picked. The editor changes iff a file within the limit is read, and then holds the file's text with one update |
| `FileHandler.UploadLimitInclusive` | scripts/fileHandler.js:31 | Exactly 10 MiB (10485760 bytes) loads; one byte more is refused |
| `FileHandler.PrintLayout` | scripts/fileHandler.js:62-65 | During printing only the preview shows: editor flex `0`, preview flex `1`, unrelated classes, `view-mode-both`, buttons and sidebar untouched |
| `FileHandler.RestoreLayout` | scripts/fileHandler.js:71-80 | The saved mode comes back. Only the both-panels mode gets `view-mode-both` and its saved widths; the other modes keep the print widths and leave `view-mode-both` as it was |
| `FileHandler.ExportPdf` | scripts/fileHandler.js:45-81 | Blank content is refused. Otherwise the preview prints alone, and afterwards the original view mode is shown again. Widths are restored only in the both-panels mode. In the single-panel modes a leftover `view-mode-both` survives, since only the two single-panel classes are removed. Buttons, sidebar and other classes are unchanged |
| `FileHandler.ExportAfterSetViewMode` | scripts/fileHandler.js:71-80 | Exporting from a layout set by `setViewMode` gives that layout back. The both-panels mode also gains `view-mode-both`; single-panel modes keep the print widths |
| `FileHandler.ConfirmClear` | scripts/fileHandler.js:82-89 | A confirmed answer empties the buffer and runs the update once; otherwise the editor is unchanged |
| `FileHandler.ClearDialogDecides` | scripts/fileHandler.js:84-88 | In the clear dialog, OK clears and Cancel keeps the buffer |
| `FileHandler.LoadDemo` | scripts/fileHandler.js:90-106 | A notice appears iff the fetch fails, the status is not 2xx, the body cannot be read, or the update callback throws. In the first three cases the editor is unchanged. On a usable reply the editor gets the processed body and the callback runs once, even when it then throws |
| `FileHandler.AsWrittenDoublesNothing` | scripts/fileHandler.js:98 | The replace as written leaves the demo text unchanged, so no backslash is doubled |
| `FileHandler.DoubleBackslashes` | scripts/fileHandler.js:97 | Doubling grows the text by one character per backslash |
| `FileHandler.DoubleRoundTrip` | scripts/fileHandler.js:97 | Undoubling the doubled text gives the original back |
| `FileHandler.InsertDemoContent` | scripts/fileHandler.js:90-106 | With the intended doubling, a loaded demo undoubles to the fetched body. A failed fetch, an HTTP error or an unreadable body leaves the editor alone; every failure, a throwing callback included, shows a notice |
| `FileHandler.OneBackslashExample` | scripts/fileHandler.js:98 | `a\b` loads as `a\b` as written, and as `a\\b` with doubling |
| `ModalManager.Focusables` | scripts/modalManager.js:27 | The focusables are OK, then Cancel iff confirmation, then Close, then Input iff shown. They are distinct, with length 2 to 4 |
| `ModalManager.NextIndex` | scripts/modalManager.js:60 | Tab moves to the next index and wraps from the last to 0; Shift+Tab moves back and wraps from 0 to the last; the index stays in [0, n) |
| `ModalManager.TabThenShiftTab` | scripts/modalManager.js:60 | Tab then Shift+Tab, in either order, restores the index |
| `ModalManager.TabTimes` | scripts/modalManager.js:60 | Repeated Tabs keep the index in range |
| `ModalManager.TabTimesAdvances` | scripts/modalManager.js:60 | Up to n Tabs advance the index by their count, wrapping once |
| `ModalManager.TabRoundTrip` | scripts/modalManager.js:60 | n consecutive Tabs return to the start |
| `ModalManager.Finish` | scripts/modalManager.js:32-45 | Resolving hides the dialog, detaches its listeners, gives focus back to the previously focused element, then resolves `{confirmed, value}` |
| `ModalManager.Step` | scripts/modalManager.js:47-65 | OK resolves `{true, input value}`. Cancel, Close and Escape resolve `{false, ''}`. Enter resolves iff the input is the target. Tab moves the trap index and focuses the control it names. Every resolution runs cleanup first |
| `ModalManager.EnterInInputIsOk` | scripts/modalManager.js:62-63 | Enter in the input is exactly OK |
| `ModalManager.DismissalsAgree` | scripts/modalManager.js:48-55 | Cancel, Close and Escape give the same outcome |
| `ModalManager.TabKeepsAlignment` | scripts/modalManager.js:57-61 | Tab keeps the trap index naming the focused control |
| `ModalManager.AlignedTabMovesFocus` | scripts/modalManager.js:57-61 | When the index names the focused control, every Tab moves focus to another control |
| `ModalManager.StepKeepsAlignment` | scripts/modalManager.js:57-65 | No event breaks that alignment |
| `ModalManager.Run` | scripts/modalManager.js:18-45 | Along any sequence of events the dialog stays well-formed, and a resolution gives focus back |
| `ModalManager.RunSettlesOnce` | scripts/modalManager.js:42-45 | After the resolution, further events change nothing |
| `ModalManager.OpenAsWritten` | scripts/modalManager.js:27-30 | As written, the trap index starts at 0 while focus starts on the input or OK |
| `ModalManager.FirstShiftTabStaysOnInput` | scripts/modalManager.js:28-30 | As written, with the input shown, the first Shift+Tab leaves focus on the input |
| `ModalManager.Open` | scripts/modalManager.js:27-30 | The corrected opening starts the trap index at the focused control |
| `ModalManager.OpenStaysAligned` | scripts/modalManager.js:57-65 | From the corrected opening, the index keeps naming the focused control along any run |
| `ModalManager.OpeningsAgreeWithoutInput` | scripts/modalManager.js:28-30 | Without an input, both openings are the same |
| `Logger.Rank` | scripts/logger.js:5 | Ranks lie in 0..3 |
| `Logger.RanksStrictlyOrdered` | scripts/logger.js:5 | error 0 < warn 1 < info 2 < debug 3, and the table is injective |
| `Logger.LevelNamed` | scripts/logger.js:5 | A recognised key is the name of its level |
| `Logger.LevelNamesRoundTrip` | scripts/logger.js:5 | Each level's name looks up that level |
| `Logger.ConfiguredKey` | scripts/logger.js:6 | The key is the stored value lower-cased, or `info` when nothing or `''` is stored |
| `Logger.CurrentLevel` | scripts/logger.js:7 | The level is the rank of a recognised key, and 2 for any other key |
| `Logger.ErrorAlwaysEmitted` | scripts/logger.js:18 | `error` is emitted under every configuration |
| `Logger.GatingMonotone` | scripts/logger.js:18-24 | If a level emits, every lower-ranked level emits |
| `Logger.EmitsExactlyUpTo` | scripts/logger.js:18-24 | A method emits iff its rank is at most the configured level's |
| `Logger.DefaultConfiguration` | scripts/logger.js:6-7 | With nothing stored, error, warn and info emit and debug does not |
| `Logger.UpperCaseKeyAccepted` | scripts/logger.js:6 | `DEBUG` enables every level |
| `Logger.LevelRankAsWritten` | scripts/logger.js:7 | The object lookup as written gives a rank for the four keys and an inherited non-number for `Object.prototype` names |
| `Logger.ConstructorSilencesErrors` | scripts/logger.js:7 | As written, a stored `constructor` silences even `error` |
| `Logger.ProtoSilencesEveryLevel` | scripts/logger.js:7 | As written, a stored `__proto__` silences every level |
| `Logger.AsWrittenAgreesOffPrototype` | scripts/logger.js:7 | For keys other than the inherited names, the lookup as written and the intended lookup gate alike |
| `SettingsManager.ColorFor` | scripts/settingsManager.js:6-13 | Every palette entry is a `#rrggbb` colour in lower-case hexadecimal digits |
| `SettingsManager.KeyOfColorIn` | scripts/settingsManager.js:6-13 | Decoding finds a key whose colour is the given one, or reports that none has it |
| `SettingsManager.ColorDecodeRoundTrip` | scripts/settingsManager.js:6-13 | Within a theme the six colours are distinct, so a colour decodes to its key |
| `SettingsManager.ThemesDisagreeOnEveryKey` | scripts/settingsManager.js:6-13 | Each key has different light and dark colours |
| `SettingsManager.StorageNamesDistinct` | scripts/settingsManager.js:27-29 | The three storage names are distinct |
| `SettingsManager.ResolvedKey` | scripts/settingsManager.js:16-29 | The key is the stored key when non-empty, else the default: h1 `blue`, h2 `blue`, h3 `green` |
| `SettingsManager.ResolvedKeys` | scripts/settingsManager.js:27-29 | Each level's entry is its resolved key |
| `SettingsManager.ColorsFor` | scripts/settingsManager.js:31-33 | Each applied colour decodes to its level's key |
| `SettingsManager.ApplyHeadingColors` | scripts/settingsManager.js:22-34 | Each heading colour is the colour of that level's resolved key in the body's theme (light iff the body has `light-mode`) |
| `SettingsManager.ThemeChangeRecolours` | scripts/settingsManager.js:24-33 | Re-applying the heading colours under the other theme changes every heading colour |
| `SettingsManager.LoadSettings` | scripts/settingsManager.js:36-41 | Each selector shows the same resolved key that the applied colour was taken from |
| `SettingsManager.OpenPanel` | scripts/settingsManager.js:47-49 | The settings button shows the panel and changes nothing else |
| `SettingsManager.Select` | scripts/settingsManager.js:52-54 | Choosing a key changes only that level's selector |
| `SettingsManager.StoredKeysReadBack` | scripts/settingsManager.js:56-58 | The persisted keys are what the store then resolves to, and no other entry changes |
| `SettingsManager.Save` | scripts/settingsManager.js:51-63 | The selected keys are persisted and resolve back. The colours are applied before the update callback, so the re-render sees them. Then the panel is hidden, and no other stored entry changes |
| `SettingsManager.RemovedKeysFallBack` | scripts/settingsManager.js:66-68 | Removing the three entries puts every level back on its default key and touches no other entry |
| `SettingsManager.StoreKeysTwice` | scripts/settingsManager.js:56-58 | Writing the same keys twice stores what writing them once does |
| `SettingsManager.Reset` | scripts/settingsManager.js:65-73 | The three entries are removed. Selectors and colours return to the defaults, the callback runs with the default colours, the panel is hidden, and the body class is left as it was |
| `SettingsManager.ResetMatchesFreshStart` | scripts/settingsManager.js:65-73 | After a reset the colours are those of a page with nothing stored |
| `SettingsManager.SaveTwiceSameState` | scripts/settingsManager.js:51-63 | Saving twice with unchanged selectors stores and shows the same |
| `UiManager.ToggleTheme` | scripts/uiManager.js:2-20 | `light-mode` flips. The stored theme is `light` iff the new state is light. Stylesheet (`github.min.css` or `atom-one-dark.min.css`), editor theme (`eclipse` or `material-darker`) and button follow, and other body classes are kept |
| `UiManager.ToggleThemeInvolutive` | scripts/uiManager.js:2-20 | From a page whose stored theme, stylesheet, editor theme and button agree with the class, toggling twice restores all of them |
| `UiManager.SetViewMode` | scripts/uiManager.js:21-40 | `editor-only` gives the editor-only class, `view-editor` active and the sidebar hidden. `preview-only` gives the preview-only class, `view-preview` and the sidebar shown. Any other mode gives neither class, `view-both` and the sidebar hidden. Exactly one button is active and other classes are kept |
| `UiManager.SetViewModeIdempotent` | scripts/uiManager.js:21-40 | Applying a mode twice equals applying it once |
| `UiManager.SetViewModeLastWins` | scripts/uiManager.js:21-40 | Of two calls, only the last one matters |

## Left out

- scripts/main.js is not part of this model: it is event wiring and start-up. Its calls to renderer functions that do not exist and its shifted `updateAll` arguments are not modelled as working behaviour.
- scripts/config.js is not part of this model: it only repeats the colour table and defaults of scripts/settingsManager.js.
- A debounced refresh, a proportional scroll synchroniser and a diagram-theme cache are not part of this model: the scripts modelled contain no code for them, and `mermaid.init()` takes no theme.
- The internals of `marked.parse`, `hljs.highlightElement`, `mermaid.init`, `ABCJS.renderAbc` and `MathJax.typesetPromise` are opaque. Each is a function parameter that returns or throws.
- The live DOM is flattened into a sequence of nodes in document order. Element identity, nesting and `innerHTML` are not modelled.
- Preview.NodeOf: the code body is taken to be the block's `textContent`. This holds when the code contains no markup.
- The custom transforms are never registered with the Markdown engine in these scripts. So they are modelled as standalone functions, and `Preview.UpdatePreview` takes the converted tree from the engine parameter.
- Preview.RenderMermaidCharts: the diagram call either draws every container or changes nothing. Partial drawing before a throw is not modelled.
- Preview.RenderAbcBlocks: the outer `try` around the notation stage catches DOM failures (selector or `replaceChild` throwing), and the model has none.
- Preview.RenderMathFormulas: the typesetter runs asynchronously; its later rejection and the typeset result are not observed.
- `toLowerCase` is ASCII-only. For the three places that lower-case, the result is the same as full Unicode case mapping in what the code then tests. A level key or a `.md` suffix can only come from ASCII characters. In the slug the result is the same for every non-ASCII character whose lower case is again non-ASCII, since it is a non-word character either way.
- HeadingId.Slug: the two non-ASCII characters whose full lower case contains ASCII letters slug differently. U+212A KELVIN SIGN lower-cases to `k`, so `\u212Aelvin` gives `kelvin` in the browser and `-elvin` here. U+0130 lower-cases to `i` followed by U+0307, so `İstanbul` gives `i-stanbul` there and `-stanbul` here.
- Preview.Notify: the dialog calls at scripts/markdownRenderer.js:102 and :134 are not awaited. Each call rewrites the one shared dialog's text and adds its own listeners (scripts/modalManager.js:46-56). With several failures the user sees only the last message, and one OK click resolves every pending call. The model lists one notice per failure and does not model that overlap.
- UiManager.ToggleThemeInvolutive: requires the page's theme state to agree with its class. On a fresh page with no stored theme, two toggles leave `dark` stored, so they do not restore the state exactly.
- The text and formatting of `console` messages, timestamps and the logger's badge colours are not modelled. Which `console.error` calls a preview update makes is modelled. Its `console.log` progress lines (scripts/markdownRenderer.js:54, 59, 69, 86, 99, 114, 137, 151) are not.
- Switching the theme does not re-apply the heading colours: `toggleTheme` (scripts/uiManager.js:2-20) and its click handler (scripts/main.js:82-85) never call `applyHeadingColors`. After a toggle the headings keep the old theme's colours until a save, a reset or a reload. `SettingsManager.ThemeChangeRecolours` is about what re-applying would give.
- `localStorage` is a `map` from names to strings. Its persistence across page loads is not modelled.
- SettingsManager.ApplyHeadingColors requires every resolved key to be one of the six palette keys. For any other stored key the source either throws a `TypeError`, or, for a name inherited from `Object.prototype` (`constructor`, `toString`, `valueOf`, `__proto__`), passes `undefined` to `setProperty` without throwing (scripts/settingsManager.js:31-33). Neither case is modelled.
- SettingsManager.Save requires the selectors to hold palette keys: the settings page's markup, which is not part of this model, offers only those.
- The modal's message text, the OK button's label and the Cancel button's visibility are display only.
- ModalManager.Step: focusing a control with the mouse, and the browser's own activation of a focused button by Enter or Space, are not modelled. The trap index moves only with Tab, as in the source.
- `Blob`, `URL.createObjectURL`, the anchor click, `FileReader` and `window.print` are not modelled. A download is the `Saved` outcome, a read is the picked file's contents, and printing is the layout between the two restorations.
- The notices' text and the console message of a failed demo load are not modelled: the model records only that a notice is shown.

## Findings

| source | as written | input that shows it | evidently intended | confidence | as-written member | corrected member |
|---|---|---|---|---|---|---|
| scripts/logger.js:7 | `levelRank[key] ?? 2` reads the key through an ordinary object literal, so names inherited from `Object.prototype` are found as well. They give a function or object, not `undefined`, so `?? 2` does not apply, and every `>=` against them is false | `log:level` set to `constructor`, or to `__proto__` | any key other than the four levels falls back to rank 2, so `error` is always written | high; not executed | `Logger.ConstructorSilencesErrors` | `Logger.ErrorAlwaysEmitted` |
| scripts/fileHandler.js:98 | `replace(/\\/g, '\\')` replaces each backslash by the one-character string `'\\'`, which is a single backslash, so nothing changes | a demo text `a\b` is loaded as `a\b` | each backslash doubled, as the comment on line 97 says (`a\b` becomes `a\\b`) | medium; not executed | `FileHandler.AsWrittenDoublesNothing` | `FileHandler.InsertDemoContent` |
| scripts/modalManager.js:28-30 | the trap index starts at 0 (OK), while focus starts on the input when it is shown | the download name prompt: the first Shift+Tab computes the last index, which is the input already focused, so focus does not move | the trap index starts at the control that has focus, so every Tab and Shift+Tab moves focus | high; not executed | `ModalManager.FirstShiftTabStaysOnInput` | `ModalManager.OpenStaysAligned` |

=== FILE: custom_renderer.dfy ===
/** The two custom output transforms meant for the Markdown engine: the code-fence
    dispatch and the heading transform. Each is paired with a reader that recovers
    its inputs from the HTML it emits, which is how the contracts below say what the
    emitted HTML carries. */
module CustomRenderer {
  import opened Wrappers
  import opened Text
  import opened HeadingId

  /** A heading depth as the Markdown engine reports it. */
  type HeadingLevel = l: int | 1 <= l <= 6 witness 1

  const DiagramOpen: string := "<div class=\"mermaid\">"
  const DiagramClose: string := "</div>"
  const ShellOpen: string := "<pre><code class=\"language-"
  const ShellClose: string := "</code></pre>"

  /** What a fenced code block becomes. */
  datatype CodeShape =
    | DiagramSource(code: string)                 // `div.mermaid`, for the diagram engine
    | CodeShell(lang: string, code: string)       // `pre > code.language-<lang>`

  /** The code-fence transform. Total in the tag: `mermaid` gives a diagram container;
      every other tag, `abc` included, gives the generic code shell classed with the tag.
      The code body is inserted verbatim, without HTML escaping. */
  function CodeHtml(code: string, lang: string): (r: string)
    ensures lang == "mermaid" ==> r == DiagramOpen + code + DiagramClose
    ensures lang != "mermaid" ==> r == ShellOpen + lang + "\">" + code + ShellClose
  {
    if lang == "mermaid" then "<div class=\"mermaid\">" + code + "</div>"
    else if lang == "abc" then "<pre><code class=\"language-abc\">" + code + "</code></pre>"
    else "<pre><code class=\"language-" + lang + "\">" + code + "</code></pre>"
  }

  /** The first index of `c` in `s`, or `|s|` when there is none. */
  function IndexOfChar(s: string, c: char): (k: nat)
    ensures k <= |s|
    ensures k < |s| ==> s[k] == c
    ensures forall i :: 0 <= i < k ==> s[i] != c
  {
    if s == [] then 0 else if s[0] == c then 0 else 1 + IndexOfChar(s[1..], c)
  }

  /** Reads a code block back out of the HTML of the code-fence transform. The class
      value of a shell runs up to the first double quote. */
  function ReadCodeHtml(h: string): Option<CodeShape> {
    if StartsWith(h, DiagramOpen) && |h| >= |DiagramOpen| + |DiagramClose| && EndsWith(h, DiagramClose) then
      Some(DiagramSource(h[|DiagramOpen|..|h| - |DiagramClose|]))
    else if StartsWith(h, ShellOpen) then
      var rest := h[|ShellOpen|..];
      var q := IndexOfChar(rest, '"');
      var body := rest[q..];
      if StartsWith(body, "\">") && |body| >= 2 + |ShellClose| && EndsWith(body, ShellClose) then
        Some(CodeShell(rest[..q], body[2..|body| - |ShellClose|]))
      else None
    else None
  }

  /** Round trip of the code-fence transform: the emitted HTML determines the branch
      taken and carries the tag and the code body unchanged. A tag containing a double
      quote would end the class attribute early, so it is excluded. */
  lemma CodeHtmlRoundTrip(code: string, lang: string)
    requires NoQuote(lang)
    ensures lang == "mermaid" ==> ReadCodeHtml(CodeHtml(code, lang)) == Some(DiagramSource(code))
    ensures lang != "mermaid" ==> ReadCodeHtml(CodeHtml(code, lang)) == Some(CodeShell(lang, code))
  {
    if lang == "mermaid" {
      Framed(DiagramOpen, code, DiagramClose);
    } else {
      ShellRoundTrip(code, lang);
    }
  }

  lemma ShellRoundTrip(code: string, lang: string)
    requires NoQuote(lang) && lang != "mermaid"
    ensures ReadCodeHtml(CodeHtml(code, lang)) == Some(CodeShell(lang, code))
  {
    var tail := "\">" + code + ShellClose;
    var h := ShellOpen + (lang + tail);
    Regroup(ShellOpen, lang, "\">", code, ShellClose);
    assert CodeHtml(code, lang) == h;
    PrefixSplit(ShellOpen, lang + tail);
    assert !StartsWith(h, DiagramOpen) by {
      assert h[1] == 'p';
      assert DiagramOpen[1] == 'd';
    }
    QuoteSplit(lang, tail);
    Framed("\">", code, ShellClose);
  }

  /** Concatenation regrouped to the right. */
  lemma Regroup(a: string, b: string, c: string, d: string, e: string)
    ensures a + b + c + d + e == a + (b + (c + d + e))
  {
  }

  /** No double quote anywhere. */
  predicate NoQuote(s: string) {
    forall i :: 0 <= i < |s| ==> s[i] != '"'
  }

  /** A quote-free field followed by a quote is read back up to that quote. */
  lemma QuoteSplit(field: string, tail: string)
    requires NoQuote(field) && tail != [] && tail[0] == '"'
    ensures IndexOfChar(field + tail, '"') == |field|
    ensures (field + tail)[..|field|] == field && (field + tail)[|field|..] == tail
  {
    var s := field + tail;
    assert s[|field|] == '"';
    assert forall i :: 0 <= i < |field| ==> s[i] == field[i];
    assert s[..|field|] == field;
  }

  /** The decimal digit of a heading level. */
  function LevelDigit(level: HeadingLevel): (d: char)
    ensures '1' <= d <= '6'
    ensures d as int - '0' as int == level
  {
    ('0' as int + level) as char
  }

  /** An `h<level>` element with the given id and raw content. */
  function HeadingElement(level: HeadingLevel, id: string, text: string): string {
    HeadingOpen(level) + (id + ("\">" + text + HeadingClose(level)))
  }

  /** The start tag up to the opening quote of the id. */
  function HeadingOpen(level: HeadingLevel): (r: string)
    ensures |r| == 8 && r[..2] == "<h" && r[2] == LevelDigit(level) && r[3..8] == " id=\""
  {
    "<h" + [LevelDigit(level)] + " id=\""
  }

  /** The end tag, naming the same level. */
  function HeadingClose(level: HeadingLevel): string {
    "</h" + [LevelDigit(level)] + ">"
  }

  /** The heading transform: an `h<level>` element whose id is the slug of the text and
      whose content is the raw text. */
  function HeadingHtml(text: string, level: HeadingLevel): string {
    HeadingElement(level, Slug(text), text)
  }

  /** What the heading transform puts into its element. */
  datatype HeadingParts = HeadingParts(level: HeadingLevel, id: string, text: string)

  /** Reads level, id and text back out of a heading element. The id runs up to the
      first double quote; the closing tag must name the same level. */
  function ReadHeadingHtml(h: string): Option<HeadingParts> {
    if |h| < 8 || h[..2] != "<h" || !('1' <= h[2] <= '6') || h[3..8] != " id=\"" then None
    else
      var level: HeadingLevel := h[2] as int - '0' as int;
      var rest := h[8..];
      var q := IndexOfChar(rest, '"');
      var body := rest[q..];
      var close := "</h" + [h[2]] + ">";
      if StartsWith(body, "\">") && |body| >= 2 + |close| && EndsWith(body, close) then
        Some(HeadingParts(level, rest[..q], body[2..|body| - |close|]))
      else None
  }

  /** A heading element whose id has no double quote gives back its level, id and text. */
  lemma HeadingElementRoundTrip(level: HeadingLevel, id: string, text: string)
    requires NoQuote(id)
    ensures ReadHeadingHtml(HeadingElement(level, id, text)) == Some(HeadingParts(level, id, text))
  {
    var tail := "\">" + text + HeadingClose(level);
    var h := HeadingElement(level, id, text);
    var o := HeadingOpen(level);
    PrefixSplit(o, id + tail);
    assert h[..8] == o;
    assert h[..2] == "<h" && h[2] == LevelDigit(level) && h[3..8] == " id=\"" by {
      assert h[..2] == o[..2] && h[3..8] == o[3..8];
    }
    assert "</h" + [h[2]] + ">" == HeadingClose(level);
    QuoteSplit(id, tail);
    Framed("\">", text, HeadingClose(level));
  }

  /** Round trip of the heading transform: the element carries the level, the slug of
      the text as its id, and the raw text. */
  lemma HeadingHtmlRoundTrip(text: string, level: HeadingLevel)
    ensures ReadHeadingHtml(HeadingHtml(text, level)) == Some(HeadingParts(level, Slug(text), text))
  {
    var id := Slug(text);
    assert NoQuote(id) by {
      forall i | 0 <= i < |id| ensures id[i] != '"' {
        assert IsIdChar(id[i]);
      }
    }
    HeadingElementRoundTrip(level, id, text);
  }

  /** Two headings with the same text get the same id, whatever their levels: ids are
      not de-duplicated. */
  lemma EqualTextsShareId(text: string, level1: HeadingLevel, level2: HeadingLevel)
    ensures ReadHeadingHtml(HeadingHtml(text, level1)).Some?
    ensures ReadHeadingHtml(HeadingHtml(text, level2)).Some?
    ensures ReadHeadingHtml(HeadingHtml(text, level1)).value.id
         == ReadHeadingHtml(HeadingHtml(text, level2)).value.id
  {
    HeadingHtmlRoundTrip(text, level1);
    HeadingHtmlRoundTrip(text, level2);
  }
}

=== FILE: file_handler.dfy ===
/** The toolbar's file actions: download with a prompted file name, upload with a size
    limit, export to PDF through the print dialog with the view mode saved and
    restored, clearing after confirmation, and loading the demo document. Dialog
    answers, the picked file, the fetch reply and the print dialog are inputs. */
module FileHandler {
  import opened Wrappers
  import opened Text
  import ModalManager
  import opened UiManager

  /** The editor buffer and how many times the update callback has run. */
  datatype Editor = Editor(buffer: string, updates: nat)

  // ----- Download -----

  const DefaultFilename: string := "document.md"
  const MarkdownMime: string := "text/markdown"

  /** The name ends with `.md`, ignoring case. */
  predicate EndsWithMd(name: string) {
    EndsWith(AsciiLower(name), ".md")
  }

  /** The prompt's answer made into a file name: trimmed, `document.md` when nothing is
      left, and `.md` appended exactly when the name does not already end with it in
      some case. */
  function NormaliseFilename(answer: string): (r: string)
    ensures r != [] && IsTrimmed(r) && EndsWithMd(r)
    ensures Trim(answer) == [] ==> r == DefaultFilename
    ensures Trim(answer) != [] && EndsWithMd(Trim(answer)) ==> r == Trim(answer)
    ensures Trim(answer) != [] && !EndsWithMd(Trim(answer)) ==> r == Trim(answer) + ".md"
  {
    var t := Trim(answer);
    if t == [] then
      DefaultIsMarkdownName();
      DefaultFilename
    else if EndsWithMd(t) then t
    else
      AppendedSuffixIsMarkdownName(t);
      t + ".md"
  }

  /** The default name is trimmed and ends with `.md`. */
  lemma DefaultIsMarkdownName()
    ensures IsTrimmed(DefaultFilename) && EndsWithMd(DefaultFilename)
  {
    assert AsciiLower(DefaultFilename)[8..] == ".md";
  }

  /** Appending `.md` to a trimmed, non-empty name keeps it trimmed and gives it the suffix. */
  lemma AppendedSuffixIsMarkdownName(t: string)
    requires t != [] && IsTrimmed(t)
    ensures IsTrimmed(t + ".md") && EndsWithMd(t + ".md")
  {
    var r := t + ".md";
    assert r[0] == t[0] && r[|r| - 1] == 'd';
    var l := AsciiLower(r);
    assert l[|r| - 3] == '.' && l[|r| - 2] == 'm' && l[|r| - 1] == 'd';
    assert l[|l| - 3..] == ".md";
  }

  /** Normalising a normalised name changes nothing. */
  lemma NormaliseIdempotent(answer: string)
    ensures NormaliseFilename(NormaliseFilename(answer)) == NormaliseFilename(answer)
  {
    TrimOfTrimmed(NormaliseFilename(answer));
  }

  /** A suffix of `.MD` counts as `.md`, so `notes.MD` is kept as it is. */
  lemma UpperCaseSuffixKept()
    ensures NormaliseFilename("notes.MD") == "notes.MD"
  {
    assert Trim("notes.MD") == "notes.MD" by {
      TrimOfTrimmed("notes.MD");
    }
    assert AsciiLower("notes.MD")[5..] == ".md";
  }

  datatype DownloadOutcome =
    | RefusedEmpty                                   // notice shown, no file
    | NotSaved                                       // the name prompt was dismissed
    | Saved(filename: string, mime: string, content: string)

  /** `download`: blank content is refused; otherwise the name prompt's answer decides.
      Only a confirmed answer produces a file, holding the whole buffer. */
  function Download(text: string, answer: ModalManager.ModalResult): (r: DownloadOutcome)
    ensures r.RefusedEmpty? <==> IsBlank(text)
    ensures r.Saved? <==> !IsBlank(text) && answer.confirmed
    ensures r.Saved? ==> r.content == text && r.mime == MarkdownMime
    ensures r.Saved? ==> r.filename == NormaliseFilename(answer.value) && EndsWithMd(r.filename)
  {
    if IsBlank(text) then RefusedEmpty
    else if answer.confirmed then Saved(NormaliseFilename(answer.value), MarkdownMime, text)
    else NotSaved
  }

  /** The name prompt, opened as the dialog is written, shows `document.md`: accepting it
      at once saves under that name, and dismissing it with Escape saves nothing. */
  lemma PromptDefaultsToDocumentMd(text: string, previous: Option<string>, shift: bool)
    requires !IsBlank(text)
    ensures ModalManager.Step(ModalManager.OpenAsWritten(true, true, DefaultFilename, previous), ModalManager.ClickOk).Resolved?
    ensures Download(text, ModalManager.Step(ModalManager.OpenAsWritten(true, true, DefaultFilename, previous), ModalManager.ClickOk).closed.result)
         == Saved(DefaultFilename, MarkdownMime, text)
    ensures ModalManager.Step(ModalManager.OpenAsWritten(true, true, DefaultFilename, previous), ModalManager.KeyDown("Escape", shift)).Resolved?
    ensures Download(text, ModalManager.Step(ModalManager.OpenAsWritten(true, true, DefaultFilename, previous), ModalManager.KeyDown("Escape", shift)).closed.result)
         == NotSaved
  {
    var m := ModalManager.OpenAsWritten(true, true, DefaultFilename, previous);
    var ok := ModalManager.Step(m, ModalManager.ClickOk);
    assert ok.Resolved? && ok.closed.result == ModalManager.ModalResult(true, DefaultFilename);
    ConfirmedDefaultSaves(text);
    var esc := ModalManager.Step(m, ModalManager.KeyDown("Escape", shift));
    assert esc.Resolved? && !esc.closed.result.confirmed;
  }

  /** Confirming the default name saves the content under it. */
  lemma ConfirmedDefaultSaves(text: string)
    requires !IsBlank(text)
    ensures Download(text, ModalManager.ModalResult(true, DefaultFilename)) == Saved(DefaultFilename, MarkdownMime, text)
  {
    DefaultFilenameIsNormal();
  }

  /** `document.md` is already a normalised name. */
  lemma DefaultFilenameIsNormal()
    ensures NormaliseFilename(DefaultFilename) == DefaultFilename
  {
    assert Trim(DefaultFilename) == DefaultFilename by {
      TrimOfTrimmed(DefaultFilename);
    }
    assert AsciiLower(DefaultFilename)[8..] == ".md";
  }

  // ----- Upload -----

  /** `10 * 1024 * 1024` bytes. */
  const MaxUploadBytes: nat := 10 * 1024 * 1024

  /** A picked file: its size, and its text once the reader has loaded it (`None` when
      the read never completes). */
  datatype PickedFile = PickedFile(size: nat, contents: Option<string>)

  datatype UploadOutcome = UploadOutcome(editor: Editor, sizeNotice: bool)

  /** `upload`: no file does nothing; a file over the limit is refused with a notice; a
      file within it replaces the buffer and runs the update callback once read. */
  function Upload(editor: Editor, file: Option<PickedFile>): (r: UploadOutcome)
    ensures r.sizeNotice <==> file.Some? && file.value.size > MaxUploadBytes
    ensures r.editor != editor <==>
      (file.Some? && file.value.size <= MaxUploadBytes && file.value.contents.Some?)
    ensures r.editor != editor ==>
      r.editor == Editor(file.value.contents.value, editor.updates + 1)
  {
    match file
    case None => UploadOutcome(editor, false)
    case Some(f) =>
      if f.size > MaxUploadBytes then UploadOutcome(editor, true)
      else match f.contents
        case None => UploadOutcome(editor, false)
        case Some(text) => UploadOutcome(Editor(text, editor.updates + 1), false)
  }

  /** The limit is inclusive: exactly 10 MiB loads, one byte more is refused. */
  lemma UploadLimitInclusive(editor: Editor, text: string)
    ensures MaxUploadBytes == 10485760
    ensures Upload(editor, Some(PickedFile(10485760, Some(text)))).editor.buffer == text
    ensures Upload(editor, Some(PickedFile(10485761, Some(text)))).sizeNotice
    ensures Upload(editor, Some(PickedFile(10485761, Some(text)))).editor == editor
  {
  }

  // ----- Export to PDF -----

  const BothClass: string := "view-mode-both"

  /** The three mode classes are different strings. */
  lemma ModeClassesDistinct()
    ensures EditorOnlyClass != PreviewOnlyClass && EditorOnlyClass != BothClass && PreviewOnlyClass != BothClass
  {
    assert EditorOnlyClass[10] == 'e' && PreviewOnlyClass[10] == 'p' && BothClass[10] == 'b';
  }

  /** The classes other than the three mode classes. */
  function OtherClasses(classes: set<string>): set<string> {
    classes - {EditorOnlyClass, PreviewOnlyClass, BothClass}
  }

  /** The layout during printing: preview only, editor collapsed, preview filling. */
  function PrintLayout(l: Layout): (p: Layout)
    ensures ModeOf(p.containerClasses) == PreviewOnly && EditorOnlyClass !in p.containerClasses
    ensures p.editorFlex == "0" && p.previewFlex == "1"
    ensures OtherClasses(p.containerClasses) == OtherClasses(l.containerClasses)
    ensures BothClass in p.containerClasses <==> BothClass in l.containerClasses
    ensures p.activeButtons == l.activeButtons && p.sidebarVisible == l.sidebarVisible
  {
    ModeClassesDistinct();
    var classes := l.containerClasses - {EditorOnlyClass, PreviewOnlyClass} + {PreviewOnlyClass};
    assert OtherClasses(classes) == OtherClasses(l.containerClasses);
    l.(containerClasses := classes, editorFlex := "0", previewFlex := "1")
  }

  /** The layout after printing, for the saved mode and the saved widths. Only the
      both-panels mode gets its widths back (and a `view-mode-both` class). */
  function RestoreLayout(p: Layout, saved: ViewMode, editorFlex: string, previewFlex: string): (a: Layout)
    ensures ModeOf(a.containerClasses) == saved
    ensures saved == Both ==> BothClass in a.containerClasses && a.editorFlex == editorFlex && a.previewFlex == previewFlex
    ensures saved != Both ==> a.editorFlex == p.editorFlex && a.previewFlex == p.previewFlex
    ensures saved != Both ==> (BothClass in a.containerClasses <==> BothClass in p.containerClasses)
    ensures OtherClasses(a.containerClasses) == OtherClasses(p.containerClasses)
    ensures a.activeButtons == p.activeButtons && a.sidebarVisible == p.sidebarVisible
  {
    ModeClassesDistinct();
    var base := p.containerClasses - {EditorOnlyClass, PreviewOnlyClass};
    match saved
    case EditorOnly =>
      assert OtherClasses(base + {EditorOnlyClass}) == OtherClasses(p.containerClasses);
      p.(containerClasses := base + {EditorOnlyClass})
    case Both =>
      assert OtherClasses(base + {BothClass}) == OtherClasses(p.containerClasses);
      p.(containerClasses := base + {BothClass}, editorFlex := editorFlex, previewFlex := previewFlex)
    case PreviewOnly =>
      assert OtherClasses(base + {PreviewOnlyClass}) == OtherClasses(p.containerClasses);
      p.(containerClasses := base + {PreviewOnlyClass})
  }

  datatype ExportOutcome = EmptyRefused | Printed(during: Layout, after: Layout)

  /** `exportPDF`: blank content is refused. Otherwise the view mode and the panel widths
      are saved, the preview is shown alone for printing, and afterwards the saved mode
      comes back; the widths come back only in the both-panels mode, the other modes
      keep the print widths. Buttons, sidebar and unrelated classes are untouched. */
  function ExportPdf(text: string, l: Layout): (r: ExportOutcome)
    ensures r.EmptyRefused? <==> IsBlank(text)
    ensures r.Printed? ==> r.during == PrintLayout(l)
    ensures r.Printed? ==> ModeOf(r.after.containerClasses) == ModeOf(l.containerClasses)
    ensures r.Printed? && ModeOf(l.containerClasses) == Both ==>
      BothClass in r.after.containerClasses
      && r.after.editorFlex == l.editorFlex && r.after.previewFlex == l.previewFlex
    ensures r.Printed? && ModeOf(l.containerClasses) != Both ==>
      r.after.editorFlex == "0" && r.after.previewFlex == "1"
    ensures r.Printed? && ModeOf(l.containerClasses) != Both ==>
      (BothClass in r.after.containerClasses <==> BothClass in l.containerClasses)
    ensures r.Printed? ==> OtherClasses(r.after.containerClasses) == OtherClasses(l.containerClasses)
    ensures r.Printed? ==> r.after.activeButtons == l.activeButtons && r.after.sidebarVisible == l.sidebarVisible
  {
    if IsBlank(text) then EmptyRefused
    else
      var saved := ModeOf(l.containerClasses);
      var p := PrintLayout(l);
      Printed(p, RestoreLayout(p, saved, l.editorFlex, l.previewFlex))
  }

  /** Exporting from a layout set by `setViewMode` gives back that layout, except that
      the both-panels mode also carries `view-mode-both` and the single-panel modes keep
      the print widths. */
  lemma ExportAfterSetViewMode(text: string, l: Layout, mode: string)
    requires !IsBlank(text)
    ensures ModeNamed(mode) == Both ==>
      ExportPdf(text, SetViewMode(l, mode)).after
      == SetViewMode(l, mode).(containerClasses := SetViewMode(l, mode).containerClasses + {BothClass})
    ensures ModeNamed(mode) != Both ==>
      ExportPdf(text, SetViewMode(l, mode)).after == SetViewMode(l, mode).(editorFlex := "0", previewFlex := "1")
  {
    var v := SetViewMode(l, mode);
    var a := ExportPdf(text, v).after;
    assert a.containerClasses == (if ModeNamed(mode) == Both then v.containerClasses + {BothClass} else v.containerClasses);
  }

  // ----- Clear -----

  /** `confirmClear`: a confirmed answer empties the buffer and runs the update
      callback; any other answer leaves the editor alone. */
  function ConfirmClear(editor: Editor, answer: ModalManager.ModalResult): (r: Editor)
    ensures answer.confirmed ==> r.buffer == [] && r.updates == editor.updates + 1
    ensures !answer.confirmed ==> r == editor
  {
    if answer.confirmed then Editor([], editor.updates + 1) else editor
  }

  /** The clear dialog asks for confirmation without an input: OK clears, Cancel and the
      close button keep the buffer. */
  lemma ClearDialogDecides(editor: Editor, previous: Option<string>)
    ensures ModalManager.Step(ModalManager.Open(true, false, "", previous), ModalManager.ClickOk).Resolved?
    ensures ConfirmClear(editor, ModalManager.Step(ModalManager.Open(true, false, "", previous), ModalManager.ClickOk).closed.result).buffer == []
    ensures ModalManager.Step(ModalManager.Open(true, false, "", previous), ModalManager.ClickCancel).Resolved?
    ensures ConfirmClear(editor, ModalManager.Step(ModalManager.Open(true, false, "", previous), ModalManager.ClickCancel).closed.result) == editor
  {
  }

  // ----- Demo content -----

  /** What `fetch('./demo.md')` produced: a network failure, or a reply with its status
      and its body text (`None` when reading the body fails). */
  datatype FetchReply = NetworkFailure | Reply(status: int, body: Option<string>)

  /** `response.ok`. */
  predicate StatusOk(status: int) {
    200 <= status <= 299
  }

  datatype DemoOutcome = DemoOutcome(editor: Editor, failureNotice: bool)

  /** A reply the loader can use: it arrived, its status is 2xx and its body was read. */
  predicate Usable(reply: FetchReply) {
    reply.Reply? && StatusOk(reply.status) && reply.body.Some?
  }

  /** The demo loader for a given body transformation; `updateThrows` says whether the
      update callback throws. On a usable reply the buffer gets the transformed body and
      the callback runs. Every failure shows one notice: a failed fetch, an HTTP error
      or an unreadable body leaves the editor alone, while a throwing callback, being
      inside the same `try`, is reported after the editor already holds the body. */
  function LoadDemo(editor: Editor, reply: FetchReply, transform: string -> string, updateThrows: bool): (r: DemoOutcome)
    ensures r.failureNotice <==> !Usable(reply) || updateThrows
    ensures !Usable(reply) ==> r.editor == editor
    ensures Usable(reply) ==> r.editor == Editor(transform(reply.body.value), editor.updates + 1)
  {
    if Usable(reply) then
      DemoOutcome(Editor(transform(reply.body.value), editor.updates + 1), updateThrows)
    else DemoOutcome(editor, true)
  }

  /** The line as written: every backslash is replaced by the one-character string
      `'\\'`, a single backslash. */
  function DemoContentAsWritten(body: string): string {
    ReplaceEachChar(body, '\\', "\\")
  }

  /** `insertDemoContent` as written. */
  function InsertDemoContentAsWritten(editor: Editor, reply: FetchReply, updateThrows: bool): DemoOutcome {
    LoadDemo(editor, reply, DemoContentAsWritten, updateThrows)
  }

  /** The replacement as written is the identity: the demo text is loaded untouched and
      no backslash is doubled. */
  lemma AsWrittenDoublesNothing(editor: Editor, status: int, body: string, updateThrows: bool)
    requires StatusOk(status)
    ensures InsertDemoContentAsWritten(editor, Reply(status, Some(body)), updateThrows).editor.buffer == body
    ensures Count(body, '\\') > 0 ==>
      Count(InsertDemoContentAsWritten(editor, Reply(status, Some(body)), updateThrows).editor.buffer, '\\')
        != 2 * Count(body, '\\')
  {
    ReplaceCharByItself(body, '\\');
  }

  /** Every backslash doubled, as the comment on the line intends. */
  function DoubleBackslashes(body: string): (r: string)
    ensures |r| == |body| + Count(body, '\\')
  {
    ReplaceEachChar(body, '\\', "\\\\")
  }

  /** The inverse of doubling: each pair of backslashes becomes one; a lone backslash
      means the text was not produced by doubling. */
  function UndoubleBackslashes(s: string): Option<string>
    decreases |s|
  {
    if s == [] then Some([])
    else if s[0] == '\\' then
      if |s| >= 2 && s[1] == '\\' then
        match UndoubleBackslashes(s[2..])
        case None => None
        case Some(rest) => Some("\\" + rest)
      else None
    else
      match UndoubleBackslashes(s[1..])
      case None => None
      case Some(rest) => Some([s[0]] + rest)
  }

  /** Doubling loses nothing: undoubling gives the original text back. */
  lemma {:induction false} DoubleRoundTrip(body: string)
    ensures UndoubleBackslashes(DoubleBackslashes(body)) == Some(body)
  {
    if body != [] {
      DoubleRoundTrip(body[1..]);
      var rest := DoubleBackslashes(body[1..]);
      if body[0] == '\\' {
        var d := "\\\\" + rest;
        assert DoubleBackslashes(body) == d;
        assert d[2..] == rest;
        assert body == "\\" + body[1..];
      } else {
        var d := [body[0]] + rest;
        assert DoubleBackslashes(body) == d;
        assert d[1..] == rest;
        assert body == [body[0]] + body[1..];
      }
    }
  }

  /** `insertDemoContent` with the doubling it intends. */
  function InsertDemoContent(editor: Editor, reply: FetchReply, updateThrows: bool): (r: DemoOutcome)
    ensures r.failureNotice <==> !Usable(reply) || updateThrows
    ensures Usable(reply) ==> UndoubleBackslashes(r.editor.buffer) == Some(reply.body.value)
    ensures Usable(reply) ==> |r.editor.buffer| == |reply.body.value| + Count(reply.body.value, '\\')
    ensures Usable(reply) ==> r.editor.updates == editor.updates + 1
    ensures !Usable(reply) ==> r.editor == editor
  {
    var r := LoadDemo(editor, reply, DoubleBackslashes, updateThrows);
    if !Usable(reply) then r
    else DoubleRoundTrip(reply.body.value); r
  }

  /** A text with one backslash shows the difference: the code as written keeps one,
      the intended doubling gives two. */
  lemma OneBackslashExample(editor: Editor)
    ensures InsertDemoContentAsWritten(editor, Reply(200, Some("a\\b")), false).editor.buffer == "a\\b"
    ensures InsertDemoContent(editor, Reply(200, Some("a\\b")), false).editor.buffer == "a\\\\b"
  {
    AsWrittenDoublesNothing(editor, 200, "a\\b", false);
    assert DoubleBackslashes("a\\b") == "a" + DoubleBackslashes("\\b");
    assert DoubleBackslashes("\\b") == "\\\\" + DoubleBackslashes("b");
    assert DoubleBackslashes("b") == "b" + DoubleBackslashes("");
  }
}

=== FILE: heading_id.dfy ===
/** The heading-anchor id of the custom heading transform: the heading text lower-cased,
    then every maximal run of characters outside JavaScript's `\w` (ASCII letters,
    digits and `_`) replaced by one `-`. Hyphens at either end are kept and equal
    texts give equal ids: nothing is stripped or de-duplicated. */
module HeadingId {
  import opened Text

  /** JavaScript's regular-expression class `\w` without the `u` flag: `[A-Za-z0-9_]`. */
  predicate IsWordChar(c: char) {
    ('a' <= c <= 'z') || ('A' <= c <= 'Z') || ('0' <= c <= '9') || c == '_'
  }

  /** A character that can appear in an id: a lower-case word character or `-`. */
  predicate IsIdChar(c: char) {
    ('a' <= c <= 'z') || ('0' <= c <= '9') || c == '_' || c == '-'
  }

  /** No two hyphens stand next to each other. */
  predicate NoDoubleHyphen(s: string) {
    forall i :: 0 <= i < |s| - 1 ==> !(s[i] == '-' && s[i + 1] == '-')
  }

  /** Every character is a word character. */
  predicate AllWord(w: string) {
    forall i :: 0 <= i < |w| ==> IsWordChar(w[i])
  }

  /** No character is a word character. */
  predicate NoneWord(n: string) {
    forall i :: 0 <= i < |n| ==> !IsWordChar(n[i])
  }

  /** The word characters of `s`, in order. */
  function WordChars(s: string): string {
    if s == [] then [] else (if IsWordChar(s[0]) then [s[0]] else []) + WordChars(s[1..])
  }

  /** Drops the maximal run of non-word characters at the front of `s`. */
  function SkipNonWord(s: string): (r: string)
    ensures |r| <= |s| && r == s[|s| - |r|..]
    ensures forall i :: 0 <= i < |s| - |r| ==> !IsWordChar(s[i])
    ensures r == [] || IsWordChar(r[0])
    decreases |s|
  {
    if |s| > 0 && !IsWordChar(s[0]) then
      var t := s[1..];
      var r := SkipNonWord(t);
      assert forall i :: 1 <= i < |s| - |r| ==> s[i] == t[i - 1];
      assert s[|s| - |r|..] == t[|t| - |r|..];
      r
    else s
  }

  /** `s.replace(/[^\w]+/g, '-')`: each maximal run of non-word characters becomes one `-`. */
  function CollapseNonWordRuns(s: string): (r: string)
    ensures |r| <= |s|
    ensures r == [] <==> s == []
    decreases |s|
  {
    if s == [] then []
    else if IsWordChar(s[0]) then [s[0]] + CollapseNonWordRuns(s[1..])
    else "-" + CollapseNonWordRuns(SkipNonWord(s))
  }

  /** The collapse emits only hyphens and word characters, never two hyphens in a row,
      and starts with `-` exactly when the input starts with a non-word character. */
  lemma {:induction false} CollapseShape(s: string)
    ensures var r := CollapseNonWordRuns(s);
      && (r != [] ==> (r[0] == '-' <==> !IsWordChar(s[0])))
      && IsIdShape(r)
    decreases |s|
  {
    if s != [] {
      if IsWordChar(s[0]) {
        CollapseShape(s[1..]);
        ConsShape(s[0], CollapseNonWordRuns(s[1..]));
      } else {
        var t := SkipNonWord(s);
        assert t == SkipNonWord(s[1..]);
        CollapseShape(t);
        ConsShape('-', CollapseNonWordRuns(t));
      }
    }
  }

  /** Only hyphens and word characters, and never two hyphens in a row. */
  predicate IsIdShape(r: string) {
    (forall i :: 0 <= i < |r| ==> r[i] == '-' || IsWordChar(r[i])) && NoDoubleHyphen(r)
  }

  /** Putting a hyphen or word character in front keeps the shape, provided a hyphen is
      not put in front of a hyphen. */
  lemma ConsShape(x: char, c: string)
    requires x == '-' || IsWordChar(x)
    requires IsIdShape(c)
    requires x == '-' ==> c == [] || c[0] != '-'
    ensures IsIdShape([x] + c)
  {
    var r := [x] + c;
    assert forall i :: 1 <= i < |r| ==> r[i] == c[i - 1];
  }

  /** The collapse keeps every word character, in order, and adds none. */
  lemma {:induction false} CollapseKeepsWordChars(s: string)
    ensures WordChars(CollapseNonWordRuns(s)) == WordChars(s)
    decreases |s|
  {
    if s != [] {
      var r := CollapseNonWordRuns(s);
      if IsWordChar(s[0]) {
        CollapseKeepsWordChars(s[1..]);
        assert r[1..] == CollapseNonWordRuns(s[1..]);
      } else {
        CollapseKeepsWordChars(SkipNonWord(s));
        SkippedRunHasNoWordChars(s);
        assert r[1..] == CollapseNonWordRuns(SkipNonWord(s));
      }
    }
  }

  /** Skipping a leading run of non-word characters loses no word character. */
  lemma {:induction false} SkippedRunHasNoWordChars(s: string)
    ensures WordChars(SkipNonWord(s)) == WordChars(s)
    decreases |s|
  {
    if |s| > 0 && !IsWordChar(s[0]) {
      SkippedRunHasNoWordChars(s[1..]);
    }
  }

  /** No ASCII upper-case letter. */
  predicate NoUpper(s: string) {
    forall i :: 0 <= i < |s| ==> !('A' <= s[i] <= 'Z')
  }

  /** The collapse introduces no upper-case letter. */
  lemma {:induction false} CollapseKeepsLowerCase(s: string)
    requires NoUpper(s)
    ensures NoUpper(CollapseNonWordRuns(s))
    decreases |s|
  {
    if s != [] {
      if IsWordChar(s[0]) {
        NoUpperSuffix(s, 1);
        CollapseKeepsLowerCase(s[1..]);
        NoUpperCons(s[0], CollapseNonWordRuns(s[1..]));
      } else {
        var t := SkipNonWord(s);
        assert t == SkipNonWord(s[1..]);
        NoUpperSuffix(s, |s| - |t|);
        CollapseKeepsLowerCase(t);
        NoUpperCons('-', CollapseNonWordRuns(t));
      }
    }
  }

  /** A suffix of a string without upper-case letters has none. */
  lemma NoUpperSuffix(s: string, k: nat)
    requires NoUpper(s) && k <= |s|
    ensures NoUpper(s[k..])
  {
    assert forall i :: 0 <= i < |s| - k ==> s[k..][i] == s[k + i];
  }

  /** A character that is not upper-case can go in front. */
  lemma NoUpperCons(c: char, t: string)
    requires !('A' <= c <= 'Z') && NoUpper(t)
    ensures NoUpper([c] + t)
  {
    var u := [c] + t;
    assert forall i :: 1 <= i < |u| ==> u[i] == t[i - 1];
  }

  /** The anchor id the heading transform gives a heading with text `text`: lower-case
      word characters and single hyphens only, keeping every word character of the
      lower-cased text in order. */
  function Slug(text: string): (r: string)
    ensures |r| <= |text|
    ensures r == [] <==> text == []
    ensures forall i :: 0 <= i < |r| ==> IsIdChar(r[i])
    ensures NoDoubleHyphen(r)
    ensures WordChars(r) == WordChars(AsciiLower(text))
  {
    var lower := AsciiLower(text);
    CollapseKeepsLowerCase(lower);
    CollapseKeepsWordChars(lower);
    CollapseShape(lower);
    CollapseNonWordRuns(lower)
  }

  /** A string already in id form is left unchanged by the run collapse. */
  lemma {:induction false} CollapseFixesIdForm(s: string)
    requires forall i :: 0 <= i < |s| ==> IsIdChar(s[i])
    requires NoDoubleHyphen(s)
    ensures CollapseNonWordRuns(s) == s
    decreases |s|
  {
    if s != [] {
      assert forall i :: 0 <= i < |s[1..]| ==> s[1..][i] == s[i + 1];
      CollapseFixesIdForm(s[1..]);
      if !IsWordChar(s[0]) {
        assert s[0] == '-';
        assert SkipNonWord(s) == s[1..] by {
          assert |s| == 1 || IsWordChar(s[1]);
          assert SkipNonWord(s) == SkipNonWord(s[1..]);
        }
      }
    }
  }

  /** Ids are stable: deriving an id from an id gives the same id. */
  lemma SlugIdempotent(text: string)
    ensures Slug(Slug(text)) == Slug(text)
  {
    var s := Slug(text);
    assert AsciiLower(s) == s;
    CollapseFixesIdForm(s);
  }

  /** The reference reading of the collapse: map each non-word character to `-`, then
      squeeze every run of hyphens to one. */
  function DashNonWord(s: string): (r: string)
    ensures |r| == |s|
  {
    if s == [] then [] else [if IsWordChar(s[0]) then s[0] else '-'] + DashNonWord(s[1..])
  }

  /** Removes every hyphen that directly follows a hyphen. */
  function SqueezeHyphens(s: string): string
    decreases |s|
  {
    if |s| <= 1 then s
    else if s[0] == '-' && s[1] == '-' then SqueezeHyphens(s[1..])
    else [s[0]] + SqueezeHyphens(s[1..])
  }

  /** The collapse agrees with the reference reading on every string. */
  lemma {:induction false} CollapseIsSqueezedDashes(s: string)
    ensures CollapseNonWordRuns(s) == SqueezeHyphens(DashNonWord(s))
    decreases |s|
  {
    if s == [] {
    } else if IsWordChar(s[0]) {
      CollapseIsSqueezedDashes(s[1..]);
      var d := DashNonWord(s);
      assert d == [s[0]] + DashNonWord(s[1..]);
      assert d[1..] == DashNonWord(s[1..]);
    } else if |s| > 1 && !IsWordChar(s[1]) {
      CollapseIsSqueezedDashes(s[1..]);
      assert SkipNonWord(s) == SkipNonWord(s[1..]);
      var d := DashNonWord(s);
      assert d == "-" + DashNonWord(s[1..]);
      assert DashNonWord(s[1..]) == "-" + DashNonWord(s[2..]);
      assert d[1..] == DashNonWord(s[1..]);
    } else {
      CollapseIsSqueezedDashes(s[1..]);
      assert SkipNonWord(s) == s[1..];
      var d := DashNonWord(s);
      assert d == "-" + DashNonWord(s[1..]);
      assert d[1..] == DashNonWord(s[1..]);
      if |s| > 1 {
        assert DashNonWord(s[1..]) == [s[1]] + DashNonWord(s[2..]);
      }
    }
  }

  /** A prefix of word characters passes through the collapse unchanged. */
  lemma {:induction false} CollapseWordPrefix(w: string, s: string)
    requires AllWord(w)
    ensures CollapseNonWordRuns(w + s) == w + CollapseNonWordRuns(s)
    decreases |w|
  {
    if w == [] {
      assert w + s == s;
    } else {
      var rest := w[1..];
      assert IsWordChar(w[0]);
      assert forall i :: 0 <= i < |rest| ==> IsWordChar(rest[i]) by {
        forall i | 0 <= i < |rest| ensures IsWordChar(rest[i]) { assert rest[i] == w[i + 1]; }
      }
      CollapseWordPrefix(rest, s);
      SplitFirst(w, s);
      SplitFirst(w, CollapseNonWordRuns(s));
      CollapseWordStep(w[0], rest + s);
    }
  }

  /** Concatenation seen from its first character. */
  lemma SplitFirst(w: string, s: string)
    requires w != []
    ensures w + s == [w[0]] + (w[1..] + s)
  {
  }

  /** One word character in front passes through the collapse unchanged. */
  lemma CollapseWordStep(c: char, t: string)
    requires IsWordChar(c)
    ensures CollapseNonWordRuns([c] + t) == [c] + CollapseNonWordRuns(t)
  {
    var u := [c] + t;
    assert u[0] == c && u[1..] == t;
  }

  /** A run of non-word characters followed by a word character (or the end) becomes
      one hyphen. */
  lemma {:induction false} CollapseNonWordPrefix(n: string, s: string)
    requires n != []
    requires NoneWord(n)
    requires s == [] || IsWordChar(s[0])
    ensures CollapseNonWordRuns(n + s) == "-" + CollapseNonWordRuns(s)
  {
    SkipNonWordPrefix(n, s);
  }

  /** Skipping a non-word prefix lands on what follows it. */
  lemma {:induction false} SkipNonWordPrefix(n: string, s: string)
    requires NoneWord(n)
    requires s == [] || IsWordChar(s[0])
    ensures SkipNonWord(n + s) == s
    decreases |n|
  {
    if n != [] {
      assert (n + s)[1..] == n[1..] + s;
      SkipNonWordPrefix(n[1..], s);
    } else {
      assert n + s == s;
    }
  }

  /** A word followed by a non-word run ends in one hyphen. */
  lemma CollapseWordThenRun(w: string, n: string)
    requires AllWord(w)
    requires NoneWord(n) && n != []
    ensures CollapseNonWordRuns(w + n) == w + "-"
  {
    CollapseNonWordPrefix(n, "");
    assert n + "" == n;
    CollapseWordPrefix(w, n);
  }

  /** Word, run, word, run: both runs become hyphens and nothing is trimmed. */
  lemma CollapseTwoWords(a: string, p: string, b: string, q: string)
    requires AllWord(a) && AllWord(b) && b != []
    requires NoneWord(p) && p != [] && NoneWord(q) && q != []
    ensures CollapseNonWordRuns(a + (p + (b + q))) == a + ("-" + (b + "-"))
  {
    CollapseWordThenRun(b, q);
    CollapseNonWordPrefix(p, b + q);
    CollapseWordPrefix(a, p + (b + q));
  }

  /** Ends are not stripped: `Hello, World!` keeps its trailing hyphen. */
  lemma HelloWorldSlug()
    ensures Slug("Hello, World!") == "hello-world-"
  {
    HelloWorldPieces();
    CollapseTwoWords("hello", ", ", "world", "!");
  }

  /** The example text, lower-cased and cut into its runs. */
  lemma HelloWorldPieces()
    ensures AsciiLower("Hello, World!") == "hello" + (", " + ("world" + "!"))
    ensures "hello" + ("-" + ("world" + "-")) == "hello-world-"
  {
  }

  /** Non-ASCII letters are not word characters and collapse into a hyphen. */
  lemma NonAsciiLettersCollapse()
    ensures Slug("Caf\U{00E9}") == "caf-"
  {
    NonAsciiPieces();
    CollapseWordThenRun("caf", "\U{00E9}");
  }

  /** The second example, lower-cased and cut into its runs. */
  lemma NonAsciiPieces()
    ensures AsciiLower("Caf\U{00E9}") == "caf" + "\U{00E9}"
    ensures "caf" + "-" == "caf-"
  {
  }
}

=== FILE: logger.dfy ===
/** Log-level gating. The stored setting `log:level`, lower-cased and defaulting to
    `info`, selects a rank; each method emits when the configured rank is at least its
    own. The lookup of the rank in the source reads an ordinary object literal, which
    also answers for names inherited from `Object.prototype`; `LevelRankAsWritten`
    models that lookup and `ConstructorSilencesErrors` shows its effect, while
    `CurrentLevel` is the intended lookup, restricted to the table's own four keys. */
module Logger {
  import opened Wrappers
  import opened Text

  datatype Level = Error | Warn | Info | Debug

  /** The rank table. */
  function Rank(l: Level): (r: nat)
    ensures r <= 3
  {
    match l
    case Error => 0
    case Warn => 1
    case Info => 2
    case Debug => 3
  }

  /** The ranks are strictly ordered error < warn < info < debug, so the table is
      injective. */
  lemma RanksStrictlyOrdered()
    ensures Rank(Error) < Rank(Warn) < Rank(Info) < Rank(Debug)
    ensures forall a: Level, b: Level :: Rank(a) == Rank(b) ==> a == b
  {
  }

  /** The level named by a key of the table. */
  function LevelNamed(key: string): (r: Option<Level>)
    ensures r.Some? ==> key == NameOf(r.value)
  {
    if key == "error" then Some(Error)
    else if key == "warn" then Some(Warn)
    else if key == "info" then Some(Info)
    else if key == "debug" then Some(Debug)
    else None
  }

  /** The table key of a level. */
  function NameOf(l: Level): string {
    match l
    case Error => "error"
    case Warn => "warn"
    case Info => "info"
    case Debug => "debug"
  }

  lemma LevelNamesRoundTrip(l: Level)
    ensures LevelNamed(NameOf(l)) == Some(l)
  {
  }

  /** The configured key: the stored value, or `info` when nothing (or the empty
      string) is stored, lower-cased. */
  function ConfiguredKey(stored: Option<string>): (r: string)
    ensures forall i :: 0 <= i < |r| ==> !('A' <= r[i] <= 'Z')
    ensures stored.None? || stored.value == "" ==> r == "info"
    ensures stored.Some? && stored.value != "" ==> r == AsciiLower(stored.value)
  {
    var key := if stored.Some? && stored.value != "" then stored.value else "info";
    assert AsciiLower("info") == "info";
    AsciiLower(key)
  }

  /** The configured rank, with the table read through its own four keys only: a
      recognised key gives its rank, any other key gives 2. */
  function CurrentLevel(stored: Option<string>): (r: nat)
    ensures r <= 3
    ensures LevelNamed(ConfiguredKey(stored)).Some? ==> r == Rank(LevelNamed(ConfiguredKey(stored)).value)
    ensures LevelNamed(ConfiguredKey(stored)).None? ==> r == 2
  {
    match LevelNamed(ConfiguredKey(stored))
    case Some(l) => Rank(l)
    case None => 2
  }

  /** A method for level `l` writes to the console. */
  predicate Emits(stored: Option<string>, l: Level) {
    CurrentLevel(stored) >= Rank(l)
  }

  /** Errors are written under every configuration. */
  lemma ErrorAlwaysEmitted(stored: Option<string>)
    ensures Emits(stored, Error)
  {
  }

  /** Gating is monotone: when a level is written, so is every lower-ranked level. */
  lemma GatingMonotone(stored: Option<string>, l: Level, lower: Level)
    requires Rank(lower) <= Rank(l)
    ensures Emits(stored, l) ==> Emits(stored, lower)
  {
  }

  /** The levels written are exactly those up to the configured one. */
  lemma EmitsExactlyUpTo(stored: Option<string>, configured: Level, l: Level)
    requires LevelNamed(ConfiguredKey(stored)) == Some(configured)
    ensures Emits(stored, l) <==> Rank(l) <= Rank(configured)
  {
  }

  /** With nothing stored, error, warn and info are written and debug is not. */
  lemma DefaultConfiguration()
    ensures Emits(None, Error) && Emits(None, Warn) && Emits(None, Info)
    ensures !Emits(None, Debug)
  {
    assert ConfiguredKey(None) == "info";
  }

  /** Case does not matter: `DEBUG` enables every level. */
  lemma UpperCaseKeyAccepted()
    ensures forall l: Level :: Emits(Some("DEBUG"), l)
  {
    assert AsciiLower("DEBUG") == "debug";
  }

  // ----- The lookup as written -----

  /** The names every object literal answers for through `Object.prototype`. */
  const InheritedNames: set<string> := {
    "constructor", "__defineGetter__", "__defineSetter__", "hasOwnProperty",
    "__lookupGetter__", "__lookupSetter__", "isPrototypeOf", "propertyIsEnumerable",
    "toString", "valueOf", "__proto__", "toLocaleString"
  }

  /** What `levelRank[key]` yields: a rank, `undefined`, or an inherited object or
      function, which no comparison with a number holds for (it converts to NaN). */
  datatype Lookup = Number(n: nat) | Undefined | NotANumber

  function LevelRankAsWritten(key: string): (r: Lookup)
    ensures LevelNamed(key).Some? ==> r == Number(Rank(LevelNamed(key).value))
    ensures LevelNamed(key).None? && key !in InheritedNames ==> r == Undefined
    ensures key in InheritedNames ==> r == NotANumber
  {
    match LevelNamed(key)
    case Some(l) => Number(Rank(l))
    case None => if key in InheritedNames then NotANumber else Undefined
  }

  /** `levelRank[key] ?? 2`: only `undefined` (or `null`) falls back to 2. */
  function CurrentLevelAsWritten(stored: Option<string>): Lookup {
    match LevelRankAsWritten(ConfiguredKey(stored))
    case Undefined => Number(2)
    case other => other
  }

  /** `currentLevel >= levelRank[l]` as the source evaluates it. */
  predicate EmitsAsWritten(stored: Option<string>, l: Level) {
    match CurrentLevelAsWritten(stored)
    case Number(n) => n >= Rank(l)
    case _ => false
  }

  /** A stored level of `constructor` survives lower-casing, finds the inherited
      `Object` constructor instead of falling back to 2, and silences even errors. */
  lemma ConstructorSilencesErrors()
    ensures !EmitsAsWritten(Some("constructor"), Error)
  {
    assert AsciiLower("constructor") == "constructor";
  }

  /** `__proto__` is the other inherited name a lower-cased key can reach; it too
      silences every level. */
  lemma ProtoSilencesEveryLevel(l: Level)
    ensures !EmitsAsWritten(Some("__proto__"), l)
  {
    assert AsciiLower("__proto__") == "__proto__";
  }

  /** Away from the inherited names the source's lookup and the intended one agree. */
  lemma AsWrittenAgreesOffPrototype(stored: Option<string>, l: Level)
    requires ConfiguredKey(stored) !in InheritedNames
    ensures EmitsAsWritten(stored, l) <==> Emits(stored, l)
  {
  }
}

=== FILE: modal_manager.dfy ===
/** The modal dialog as a state machine. Opening it builds the list of focusable
    controls from its two flags and focuses the input or the OK button; Tab and
    Shift+Tab cycle a trap index through that list; OK, Cancel, the close button,
    Escape and Enter in the input resolve it with a `{confirmed, value}` result after
    hiding it, detaching its listeners and giving focus back. */
module ModalManager {
  import opened Wrappers

  /** The dialog's controls. */
  datatype Control = OkButton | CancelButton | CloseButton | InputBox

  /** `[OK] ++ [Cancel if confirmation] ++ [Close] ++ [Input if input shown]`. */
  function Focusables(isConfirmation: bool, showInput: bool): (f: seq<Control>)
    ensures 2 <= |f| <= 4
    ensures f[0] == OkButton
    ensures CloseButton in f
    ensures CancelButton in f <==> isConfirmation
    ensures InputBox in f <==> showInput
    ensures showInput ==> f[|f| - 1] == InputBox
    ensures forall i, j :: 0 <= i < j < |f| ==> f[i] != f[j]
  {
    [OkButton] + (if isConfirmation then [CancelButton] else []) + [CloseButton]
      + (if showInput then [InputBox] else [])
  }

  /** What the promise resolves with. */
  datatype ModalResult = ModalResult(confirmed: bool, value: string)

  /** An open dialog. `previous` is the element that had focus before it opened. */
  datatype Modal = Modal(
    isConfirmation: bool,
    showInput: bool,
    inputValue: string,
    trapIndex: nat,
    focus: Control,
    previous: Option<string>)

  function FocusablesOf(m: Modal): seq<Control> {
    Focusables(m.isConfirmation, m.showInput)
  }

  /** The trap index is in range and focus is on one of the dialog's controls. */
  predicate Valid(m: Modal) {
    m.trapIndex < |FocusablesOf(m)| && m.focus in FocusablesOf(m)
  }

  /** The trap index names the focused control. */
  predicate Aligned(m: Modal) {
    m.trapIndex < |FocusablesOf(m)| && FocusablesOf(m)[m.trapIndex] == m.focus
  }

  /** What cleanup leaves behind: the dialog hidden, its listeners detached and focus
      handed back to the element focused before it opened. */
  datatype Closed = Closed(result: ModalResult, shown: bool, listening: bool, focusReturnedTo: Option<string>)

  datatype Outcome = Pending(modal: Modal) | Resolved(closed: Closed)

  /** What the user does while the dialog is open. */
  datatype Event =
    | ClickOk
    | ClickCancel
    | ClickClose
    | KeyDown(key: string, shift: bool)   // delivered to the focused control, then the document
    | Typed(value: string)                // edits the input while it has focus

  /** Tab's index step: `(i + (shift ? -1 : 1) + n) % n`. */
  function NextIndex(i: nat, n: nat, shift: bool): (j: nat)
    requires i < n
    ensures j < n
    ensures !shift ==> j == (if i == n - 1 then 0 else i + 1)
    ensures shift ==> j == (if i == 0 then n - 1 else i - 1)
  {
    (i + (if shift then -1 else 1) + n) % n
  }

  /** Tab followed by Shift+Tab, or the other way round, restores the index. */
  lemma TabThenShiftTab(i: nat, n: nat)
    requires i < n
    ensures NextIndex(NextIndex(i, n, false), n, true) == i
    ensures NextIndex(NextIndex(i, n, true), n, false) == i
  {
  }

  /** `k` forward Tabs from index `i`. */
  function TabTimes(i: nat, n: nat, k: nat): (j: nat)
    requires i < n
    ensures j < n
  {
    if k == 0 then i else NextIndex(TabTimes(i, n, k - 1), n, false)
  }

  /** Up to `n` Tabs advance the index by their number, wrapping past the end once. */
  lemma {:induction false} TabTimesAdvances(i: nat, n: nat, k: nat)
    requires i < n && k <= n
    ensures TabTimes(i, n, k) == if i + k < n then i + k else i + k - n
  {
    if k > 0 {
      TabTimesAdvances(i, n, k - 1);
    }
  }

  /** `n` Tabs go once round the list and back to the start. */
  lemma TabRoundTrip(i: nat, n: nat)
    requires i < n
    ensures TabTimes(i, n, n) == i
  {
    TabTimesAdvances(i, n, n);
  }

  /** `finish(confirmed, value)`: cleanup, then resolve. */
  function Finish(m: Modal, confirmed: bool, value: string): (o: Outcome)
    ensures o.Resolved? && !o.closed.shown && !o.closed.listening
    ensures o.closed.focusReturnedTo == m.previous
    ensures o.closed.result == ModalResult(confirmed, value)
  {
    Resolved(Closed(ModalResult(confirmed, value), false, false, m.previous))
  }

  /** One event on an open dialog. OK resolves with the input's value; Cancel, close
      and Escape resolve unconfirmed with an empty value; Enter resolves like OK only
      when the input is the key's target; Tab moves the trap index and focuses the
      control it names. */
  function Step(m: Modal, e: Event): (o: Outcome)
    requires Valid(m)
    ensures e == ClickOk ==> o.Resolved? && o.closed.result == ModalResult(true, m.inputValue)
    ensures e in {ClickCancel, ClickClose} ==> o.Resolved? && o.closed.result == ModalResult(false, "")
    ensures e.KeyDown? && e.key == "Escape" ==> o.Resolved? && o.closed.result == ModalResult(false, "")
    ensures o.Resolved? ==> !o.closed.shown && !o.closed.listening && o.closed.focusReturnedTo == m.previous
    ensures o.Resolved? ==> o.closed.result.confirmed ==> o.closed.result.value == m.inputValue
    ensures o.Resolved? ==> !o.closed.result.confirmed ==> o.closed.result.value == ""
    ensures o.Pending? ==> Valid(o.modal)
    ensures o.Pending? ==>
      (o.modal.previous == m.previous && o.modal.isConfirmation == m.isConfirmation
       && o.modal.showInput == m.showInput)
    ensures e.KeyDown? && e.key == "Tab" ==>
      (o.Pending? && o.modal.trapIndex == NextIndex(m.trapIndex, |FocusablesOf(m)|, e.shift)
       && o.modal.focus == FocusablesOf(m)[o.modal.trapIndex])
    ensures e.KeyDown? && e.key == "Enter" ==> (o.Resolved? <==> m.focus == InputBox)
    ensures e.Typed? ==> o.Pending? && o.modal.focus == m.focus && o.modal.trapIndex == m.trapIndex
    ensures e.Typed? ==> o.modal.inputValue == (if m.focus == InputBox then e.value else m.inputValue)
  {
    match e
    case ClickOk => Finish(m, true, m.inputValue)
    case ClickCancel => Finish(m, false, "")
    case ClickClose => Finish(m, false, "")
    case KeyDown(key, shift) =>
      if key == "Tab" then
        var f := FocusablesOf(m);
        var i := NextIndex(m.trapIndex, |f|, shift);
        Pending(m.(trapIndex := i, focus := f[i]))
      else if key == "Enter" && m.focus == InputBox then Finish(m, true, m.inputValue)
      else if key == "Escape" then Finish(m, false, "")
      else Pending(m)
    case Typed(value) =>
      if m.focus == InputBox then Pending(m.(inputValue := value)) else Pending(m)
  }

  /** Enter with the input focused behaves exactly like clicking OK. */
  lemma EnterInInputIsOk(m: Modal, shift: bool)
    requires Valid(m) && m.focus == InputBox
    ensures Step(m, KeyDown("Enter", shift)) == Step(m, ClickOk)
  {
  }

  /** Cancel, the close button and Escape are indistinguishable. */
  lemma DismissalsAgree(m: Modal, shift: bool)
    requires Valid(m)
    ensures Step(m, ClickCancel) == Step(m, ClickClose) == Step(m, KeyDown("Escape", shift))
  {
  }

  /** Tab keeps the trap index naming the focused control. */
  lemma TabKeepsAlignment(m: Modal, shift: bool)
    requires Valid(m) && Aligned(m)
    ensures Step(m, KeyDown("Tab", shift)).Pending?
    ensures Aligned(Step(m, KeyDown("Tab", shift)).modal)
  {
  }

  /** From an aligned state every Tab or Shift+Tab moves focus to another control. */
  lemma AlignedTabMovesFocus(m: Modal, shift: bool)
    requires Valid(m) && Aligned(m)
    ensures Step(m, KeyDown("Tab", shift)).modal.focus != m.focus
  {
    var f := FocusablesOf(m);
    var i := NextIndex(m.trapIndex, |f|, shift);
    assert i != m.trapIndex;
  }

  /** No event breaks the alignment of an aligned state. */
  lemma StepKeepsAlignment(m: Modal, e: Event)
    requires Valid(m) && Aligned(m)
    ensures Step(m, e).Pending? ==> Aligned(Step(m, e).modal)
  {
  }

  /** A sequence of events; once the dialog has resolved later events are ignored. */
  function Run(m: Modal, events: seq<Event>): (o: Outcome)
    requires Valid(m)
    ensures o.Pending? ==> Valid(o.modal) && o.modal.previous == m.previous
    ensures o.Resolved? ==> o.closed.focusReturnedTo == m.previous && !o.closed.shown
    decreases |events|
  {
    if events == [] then Pending(m)
    else
      match Step(m, events[0])
      case Resolved(c) => Resolved(c)
      case Pending(m2) => Run(m2, events[1..])
  }

  /** Events after the resolution change nothing: the promise settles once. */
  lemma {:induction false} RunSettlesOnce(m: Modal, events: seq<Event>, more: seq<Event>)
    requires Valid(m)
    requires Run(m, events).Resolved?
    ensures Run(m, events + more) == Run(m, events)
    decreases |events|
  {
    assert events != [];
    assert (events + more)[0] == events[0];
    assert (events + more)[1..] == events[1..] + more;
    match Step(m, events[0])
    case Resolved(c) =>
    case Pending(m2) => RunSettlesOnce(m2, events[1..], more);
  }

  /** The control focused when the dialog opens: the input when shown, else OK. */
  function InitialFocus(showInput: bool): Control {
    if showInput then InputBox else OkButton
  }

  /** `show` as written: the trap index starts at 0 whatever has focus. */
  function OpenAsWritten(isConfirmation: bool, showInput: bool, inputValue: string,
                         previous: Option<string>): (m: Modal)
    ensures Valid(m)
    ensures m.trapIndex == 0 && m.focus == InitialFocus(showInput)
  {
    Modal(isConfirmation, showInput, inputValue, 0, InitialFocus(showInput), previous)
  }

  /** With the input shown, the first Shift+Tab of the dialog as written lands on the
      control already focused (the input), because the trap index starts at OK while
      focus starts on the input. */
  lemma FirstShiftTabStaysOnInput(isConfirmation: bool, inputValue: string, previous: Option<string>)
    ensures !Aligned(OpenAsWritten(isConfirmation, true, inputValue, previous))
    ensures Step(OpenAsWritten(isConfirmation, true, inputValue, previous), KeyDown("Tab", true))
         == Pending(OpenAsWritten(isConfirmation, true, inputValue, previous).(trapIndex := |Focusables(isConfirmation, true)| - 1))
  {
  }

  /** `show` with the trap index starting at the initially focused control. */
  function Open(isConfirmation: bool, showInput: bool, inputValue: string,
                previous: Option<string>): (m: Modal)
    ensures Valid(m) && Aligned(m)
    ensures m.focus == InitialFocus(showInput) && m.inputValue == inputValue
    ensures m.isConfirmation == isConfirmation && m.showInput == showInput && m.previous == previous
  {
    var f := Focusables(isConfirmation, showInput);
    Modal(isConfirmation, showInput, inputValue, if showInput then |f| - 1 else 0,
          InitialFocus(showInput), previous)
  }

  /** In the corrected dialog, every Tab and Shift+Tab moves focus, from the first one
      on, and the trap index keeps naming the focused control along any run. */
  lemma {:induction false} OpenStaysAligned(m: Modal, events: seq<Event>)
    requires Valid(m) && Aligned(m)
    ensures Run(m, events).Pending? ==> Aligned(Run(m, events).modal)
    decreases |events|
  {
    if events != [] {
      StepKeepsAlignment(m, events[0]);
      match Step(m, events[0])
      case Resolved(_) =>
      case Pending(m2) => OpenStaysAligned(m2, events[1..]);
    }
  }

  /** The two openings differ only when the input is shown. */
  lemma OpeningsAgreeWithoutInput(isConfirmation: bool, inputValue: string, previous: Option<string>)
    ensures Open(isConfirmation, false, inputValue, previous) == OpenAsWritten(isConfirmation, false, inputValue, previous)
  {
  }
}

=== FILE: preview.dfy ===
/** The preview pipeline of the Markdown renderer: convert the editor text to a tree,
    then highlight code, draw diagrams, engrave ABC notation, start math typesetting,
    and rebuild the document outline. The rendered tree is a sequence of abstract
    nodes in document order; the Markdown engine and the four rendering libraries are
    function parameters that may fail. */
module Preview {
  import opened Wrappers
  import opened Text
  import CustomRenderer

  type HeadingLevel = CustomRenderer.HeadingLevel

  /** The outcome of a call into a rendering library: it returns, or it throws. */
  datatype Attempt = Done | Threw(message: string)

  /** What an `abc-notation` container holds: the engraved score, or only the error
      panel carrying the message of the exception. */
  datatype Score = Engraved(source: string) | ErrorPanel(message: string)

  /** A node of the rendered tree that some stage looks at. */
  datatype Node =
    | CodeBlock(className: string, text: string, highlighted: bool)  // `pre > code`
    | MermaidBox(source: string, drawn: bool)                        // `div.mermaid`
    | AbcBox(score: Score)                                           // `div.abc-notation`
    | Heading(level: HeadingLevel, id: string, text: string)         // `h1` ... `h6`
    | Markup(html: string)                                           // anything else

  /** How a block produced by the code-fence transform appears in the tree (its text
      content is taken to be the code, which holds when the code contains no markup). */
  function NodeOf(shape: CustomRenderer.CodeShape): Node {
    match shape
    case DiagramSource(code) => MermaidBox(code, false)
    case CodeShell(lang, code) => CodeBlock("language-" + lang, code, false)
  }

  // ----- Syntax highlighting -----

  /** The highlight filter: a `pre code` block goes to the highlighter unless its class,
      with the first `language-` removed, is exactly `abc`. */
  predicate ReachesHighlighter(n: Node) {
    n.CodeBlock? && ReplaceFirst(n.className, "language-", "") != "abc"
  }

  /** After the pass a node is as it was, or it is a reaching block now highlighted. */
  predicate KeptOrHighlighted(before: Node, after: Node) {
    after == before || (ReachesHighlighter(before) && after == before.(highlighted := true))
  }

  /** Where an exception from the highlighter stopped the pass. */
  datatype Stop = Stop(index: nat, message: string)

  datatype HighlightPass = HighlightPass(nodes: seq<Node>, stopped: Option<Stop>)

  /** The highlighting stage. One `try` surrounds the whole loop, so the first block
      whose highlighting throws ends the pass: the blocks before it are highlighted,
      it and every later block are left as they were. */
  function HighlightCodeBlocks(nodes: seq<Node>, highlight: (string, string) -> Attempt): (r: HighlightPass)
    ensures |r.nodes| == |nodes|
    ensures forall i {:trigger r.nodes[i]} :: 0 <= i < |nodes| ==> KeptOrHighlighted(nodes[i], r.nodes[i])
  {
    if nodes == [] then HighlightPass([], None)
    else
      var n := nodes[0];
      if ReachesHighlighter(n) && highlight(n.className, n.text).Threw? then
        HighlightPass(nodes, Some(Stop(0, highlight(n.className, n.text).message)))
      else
        var rest := HighlightCodeBlocks(nodes[1..], highlight);
        assert forall i :: 1 <= i < |nodes| ==> nodes[i] == nodes[1..][i - 1];
        var head := if ReachesHighlighter(n) then n.(highlighted := true) else n;
        var stopped := match rest.stopped
          case None => None
          case Some(s) => Some(Stop(s.index + 1, s.message));
        var r := HighlightPass([head] + rest.nodes, stopped);
        assert forall i :: 1 <= i <= |rest.nodes| ==> r.nodes[i] == rest.nodes[i - 1];
        r
  }

  /** A pass that does not stop highlighted every reaching block, and each of those
      calls returned. */
  lemma {:induction false} HighlightCompletes(nodes: seq<Node>, highlight: (string, string) -> Attempt)
    ensures var r := HighlightCodeBlocks(nodes, highlight);
      r.stopped.None? ==>
        forall i :: 0 <= i < |nodes| && ReachesHighlighter(nodes[i]) ==>
          r.nodes[i].highlighted && highlight(nodes[i].className, nodes[i].text) == Done
    decreases |nodes|
  {
    if nodes != [] {
      var n := nodes[0];
      if !(ReachesHighlighter(n) && highlight(n.className, n.text).Threw?) {
        HighlightCompletes(nodes[1..], highlight);
        var rest := HighlightCodeBlocks(nodes[1..], highlight);
        var r := HighlightCodeBlocks(nodes, highlight);
        assert forall i :: 1 <= i < |nodes| ==> nodes[i] == nodes[1..][i - 1];
        assert forall i :: 1 <= i < |nodes| ==> r.nodes[i] == rest.nodes[i - 1];
      }
    }
  }

  /** A pass that stops does so at a reaching block whose call threw that message;
      every reaching block before it is highlighted, and it and every later block are
      unchanged. */
  lemma HighlightStops(nodes: seq<Node>, highlight: (string, string) -> Attempt)
    ensures var r := HighlightCodeBlocks(nodes, highlight);
      r.stopped.Some? ==>
        && r.stopped.value.index < |nodes|
        && ReachesHighlighter(nodes[r.stopped.value.index])
        && highlight(nodes[r.stopped.value.index].className, nodes[r.stopped.value.index].text)
           == Threw(r.stopped.value.message)
        && (forall i :: 0 <= i < r.stopped.value.index && ReachesHighlighter(nodes[i]) ==> r.nodes[i].highlighted)
        && (forall i :: r.stopped.value.index <= i < |nodes| ==> r.nodes[i] == nodes[i])
  {
    HighlightStopsAt(nodes, highlight);
    HighlightStopsAround(nodes, highlight);
  }

  /** The block a pass stops at is a reaching one whose call threw that message. */
  lemma {:induction false} HighlightStopsAt(nodes: seq<Node>, highlight: (string, string) -> Attempt)
    ensures var r := HighlightCodeBlocks(nodes, highlight);
      r.stopped.Some? ==>
        && r.stopped.value.index < |nodes|
        && ReachesHighlighter(nodes[r.stopped.value.index])
        && highlight(nodes[r.stopped.value.index].className, nodes[r.stopped.value.index].text)
           == Threw(r.stopped.value.message)
    decreases |nodes|
  {
    if nodes != [] {
      var n := nodes[0];
      if !(ReachesHighlighter(n) && highlight(n.className, n.text).Threw?) {
        HighlightStopsAt(nodes[1..], highlight);
        assert forall i :: 1 <= i < |nodes| ==> nodes[i] == nodes[1..][i - 1];
      }
    }
  }

  /** The reaching blocks before the stop are highlighted; the rest are unchanged. */
  lemma {:induction false} HighlightStopsAround(nodes: seq<Node>, highlight: (string, string) -> Attempt)
    ensures var r := HighlightCodeBlocks(nodes, highlight);
      r.stopped.Some? ==>
        && r.stopped.value.index <= |nodes|
        && (forall i :: 0 <= i < r.stopped.value.index && ReachesHighlighter(nodes[i]) ==> r.nodes[i].highlighted)
        && (forall i :: r.stopped.value.index <= i < |nodes| ==> r.nodes[i] == nodes[i])
    decreases |nodes|
  {
    if nodes != [] {
      var n := nodes[0];
      if !(ReachesHighlighter(n) && highlight(n.className, n.text).Threw?) {
        HighlightStopsAround(nodes[1..], highlight);
        var rest := HighlightCodeBlocks(nodes[1..], highlight);
        var r := HighlightCodeBlocks(nodes, highlight);
        assert forall i :: 1 <= i < |nodes| ==> nodes[i] == nodes[1..][i - 1];
        assert forall i :: 1 <= i < |nodes| ==> r.nodes[i] == rest.nodes[i - 1];
      }
    }
  }

  /** The calls on the reaching blocks before the stop returned. */
  lemma {:induction false} HighlightStopsFirst(nodes: seq<Node>, highlight: (string, string) -> Attempt)
    ensures var r := HighlightCodeBlocks(nodes, highlight);
      r.stopped.Some? ==>
        forall i :: 0 <= i < r.stopped.value.index && i < |nodes| && ReachesHighlighter(nodes[i]) ==>
          highlight(nodes[i].className, nodes[i].text) == Done
    decreases |nodes|
  {
    if nodes != [] {
      var n := nodes[0];
      if !(ReachesHighlighter(n) && highlight(n.className, n.text).Threw?) {
        HighlightStopsFirst(nodes[1..], highlight);
        assert forall i :: 1 <= i < |nodes| ==> nodes[i] == nodes[1..][i - 1];
      }
    }
  }

  /** Block `k` is the first block reaching the highlighter whose call throws: the
      calls on the reaching blocks before it returned. */
  predicate FirstHighlightThrow(nodes: seq<Node>, highlight: (string, string) -> Attempt, k: int) {
    && 0 <= k < |nodes|
    && ReachesHighlighter(nodes[k])
    && highlight(nodes[k].className, nodes[k].text).Threw?
    && forall i :: 0 <= i < k && ReachesHighlighter(nodes[i]) ==> highlight(nodes[i].className, nodes[i].text) == Done
  }

  /** How a tree `shown` shows the code blocks of `nodes` when highlighting stopped at
      block `k`: the reaching blocks before it are highlighted, and it and every later
      code block are as converted. Notation blocks are left to the notation stage. */
  predicate ShownStopped(nodes: seq<Node>, shown: seq<Node>, k: int) {
    && |shown| == |nodes|
    && (forall i :: 0 <= i < k && i < |nodes| && ReachesHighlighter(nodes[i]) && !IsAbcBlock(nodes[i]) ==>
          shown[i] == nodes[i].(highlighted := true))
    && (forall i :: 0 <= k <= i < |nodes| && nodes[i].CodeBlock? && !IsAbcBlock(nodes[i]) ==> shown[i] == nodes[i])
  }

  /** A pass stops exactly at the first block whose highlighter call throws. */
  lemma HighlightStopIsFirst(nodes: seq<Node>, highlight: (string, string) -> Attempt)
    ensures var r := HighlightCodeBlocks(nodes, highlight);
      r.stopped.Some? ==> FirstHighlightThrow(nodes, highlight, r.stopped.value.index)
  {
    HighlightStopsAt(nodes, highlight);
    HighlightStopsFirst(nodes, highlight);
  }

  /** There is at most one first throwing block. */
  lemma FirstHighlightThrowUnique(nodes: seq<Node>, highlight: (string, string) -> Attempt, j: int, k: int)
    requires FirstHighlightThrow(nodes, highlight, j) && FirstHighlightThrow(nodes, highlight, k)
    ensures j == k
  {
  }

  // ----- Diagrams -----

  /** The sources of the diagram containers, in document order. */
  function DiagramSources(nodes: seq<Node>): seq<string> {
    if nodes == [] then []
    else (if nodes[0].MermaidBox? then [nodes[0].source] else []) + DiagramSources(nodes[1..])
  }

  /** Every diagram container drawn, every other node untouched. */
  function DrawAll(nodes: seq<Node>): (r: seq<Node>)
    ensures |r| == |nodes|
    ensures forall i :: 0 <= i < |nodes| ==>
      r[i] == (if nodes[i].MermaidBox? then nodes[i].(drawn := true) else nodes[i])
  {
    if nodes == [] then []
    else [if nodes[0].MermaidBox? then nodes[0].(drawn := true) else nodes[0]] + DrawAll(nodes[1..])
  }

  datatype StagePass = StagePass(nodes: seq<Node>, failure: Option<string>)

  /** The diagram stage: one initialisation call over every diagram container. When it
      throws, the tree is left as it was and the message is reported. */
  function RenderMermaidCharts(nodes: seq<Node>, init: seq<string> -> Attempt): (r: StagePass)
    ensures |r.nodes| == |nodes|
    ensures forall i :: 0 <= i < |nodes| && !nodes[i].MermaidBox? ==> r.nodes[i] == nodes[i]
    ensures r.failure.None? <==> init(DiagramSources(nodes)) == Done
    ensures r.failure.None? ==> forall i :: 0 <= i < |nodes| && nodes[i].MermaidBox? ==> r.nodes[i] == nodes[i].(drawn := true)
    ensures r.failure.Some? ==> r.nodes == nodes
  {
    match init(DiagramSources(nodes))
    case Done => StagePass(DrawAll(nodes), None)
    case Threw(m) => StagePass(nodes, Some(m))
  }

  // ----- ABC notation -----

  /** The notation selector `pre code.language-abc`: the class lists the token
      `language-abc`. */
  predicate IsAbcBlock(n: Node) {
    n.CodeBlock? && HasClassToken(n.className, "language-abc")
  }

  /** The `abc-notation` container that replaces a notation block with source `source`. */
  function AbcBoxFor(source: string, render: string -> Attempt): (r: Node)
    ensures r.AbcBox?
    ensures r.score.Engraved? <==> render(source) == Done
    ensures r.score.Engraved? ==> r.score.source == source
    ensures r.score.ErrorPanel? ==> render(source) == Threw(r.score.message)
  {
    match render(source)
    case Done => AbcBox(Engraved(source))
    case Threw(m) => AbcBox(ErrorPanel(m))
  }

  datatype AbcPass = AbcPass(nodes: seq<Node>, failures: seq<string>)

  /** The messages of the notation blocks whose engraving throws, one per block, in
      block order. */
  function NotationFailures(nodes: seq<Node>, render: string -> Attempt): seq<string> {
    if nodes == [] then []
    else
      (if IsAbcBlock(nodes[0]) && render(nodes[0].text).Threw? then [render(nodes[0].text).message] else [])
      + NotationFailures(nodes[1..], render)
  }

  /** A message is among the notation failures exactly when some notation block's
      engraving throws with it. */
  lemma {:induction false} NotationFailuresMembers(nodes: seq<Node>, render: string -> Attempt)
    ensures forall m :: m in NotationFailures(nodes, render) <==>
      exists i :: 0 <= i < |nodes| && IsAbcBlock(nodes[i]) && render(nodes[i].text) == Threw(m)
    decreases |nodes|
  {
    if nodes != [] {
      NotationFailuresMembers(nodes[1..], render);
      forall m ensures m in NotationFailures(nodes, render) <==>
        exists i :: 0 <= i < |nodes| && IsAbcBlock(nodes[i]) && render(nodes[i].text) == Threw(m)
      {
        if exists i :: 0 <= i < |nodes| && IsAbcBlock(nodes[i]) && render(nodes[i].text) == Threw(m) {
          var i :| 0 <= i < |nodes| && IsAbcBlock(nodes[i]) && render(nodes[i].text) == Threw(m);
          if i > 0 { assert nodes[1..][i - 1] == nodes[i]; }
        }
        if m in NotationFailures(nodes[1..], render) {
          var i :| 0 <= i < |nodes| - 1 && IsAbcBlock(nodes[1..][i]) && render(nodes[1..][i].text) == Threw(m);
          assert nodes[i + 1] == nodes[1..][i];
        }
      }
    }
  }

  /** Two trees with the same notation blocks at the same places, holding the same texts,
      have the same notation failures. */
  lemma {:induction false} NotationFailuresKept(ps: seq<Node>, ms: seq<Node>, render: string -> Attempt)
    requires |ms| == |ps|
    requires forall i :: 0 <= i < |ps| ==>
      (IsAbcBlock(ms[i]) <==> IsAbcBlock(ps[i])) && (IsAbcBlock(ps[i]) ==> ms[i].text == ps[i].text)
    ensures NotationFailures(ms, render) == NotationFailures(ps, render)
    decreases |ps|
  {
    if ps != [] {
      assert forall i :: 0 <= i < |ps| - 1 ==> ps[1..][i] == ps[i + 1] && ms[1..][i] == ms[i + 1];
      NotationFailuresKept(ps[1..], ms[1..], render);
      assert IsAbcBlock(ms[0]) <==> IsAbcBlock(ps[0]);
    }
  }

  /** The notation stage. Every notation block is replaced, in place, by one container;
      a block whose engraving throws ends up holding only its error panel, and the
      blocks after it are still engraved. */
  function RenderAbcBlocks(nodes: seq<Node>, render: string -> Attempt): (r: AbcPass)
    ensures |r.nodes| == |nodes|
    ensures forall i :: 0 <= i < |nodes| && !IsAbcBlock(nodes[i]) ==> r.nodes[i] == nodes[i]
    ensures forall i :: 0 <= i < |nodes| && IsAbcBlock(nodes[i]) ==> r.nodes[i] == AbcBoxFor(nodes[i].text, render)
    ensures r.failures == [] <==>
      forall i :: 0 <= i < |nodes| && IsAbcBlock(nodes[i]) ==> render(nodes[i].text) == Done
    ensures |r.failures| <= |nodes|
    ensures r.failures == NotationFailures(nodes, render)
  {
    if nodes == [] then AbcPass([], [])
    else
      var n := nodes[0];
      var rest := RenderAbcBlocks(nodes[1..], render);
      var head := if IsAbcBlock(n) then AbcBoxFor(n.text, render) else n;
      var failed := if IsAbcBlock(n) && render(n.text).Threw? then [render(n.text).message] else [];
      var r := AbcPass([head] + rest.nodes, failed + rest.failures);
      assert forall i :: 1 <= i <= |rest.nodes| ==> r.nodes[i] == rest.nodes[i - 1];
      assert forall i :: 1 <= i < |nodes| ==> nodes[i] == nodes[1..][i - 1];
      r
  }

  // ----- Math -----

  /** The math stage: when the typesetter is loaded, start it over the whole tree and do
      not wait for it. Only an exception thrown while starting it is seen, and only as a
      diagnostic; the tree is not changed within the run. */
  function RenderMathFormulas(nodes: seq<Node>, loaded: bool, typeset: seq<Node> -> Attempt): (r: Option<string>)
    ensures r.Some? <==> loaded && typeset(nodes).Threw?
    ensures r.Some? ==> typeset(nodes) == Threw(r.value)
  {
    if loaded && typeset(nodes).Threw? then Some(typeset(nodes).message) else None
  }

  // ----- Outline -----

  /** The headings of the tree, in document order. */
  function HeadingsOf(nodes: seq<Node>): (r: seq<Node>)
    ensures |r| <= |nodes|
    ensures forall i :: 0 <= i < |r| ==> r[i].Heading?
  {
    if nodes == [] then []
    else (if nodes[0].Heading? then [nodes[0]] else []) + HeadingsOf(nodes[1..])
  }

  /** No heading of the tree is missing from the list. */
  lemma {:induction false} HeadingsOfComplete(nodes: seq<Node>)
    ensures forall i :: 0 <= i < |nodes| && nodes[i].Heading? ==> nodes[i] in HeadingsOf(nodes)
  {
    if nodes != [] {
      HeadingsOfComplete(nodes[1..]);
      forall i | 1 <= i < |nodes| && nodes[i].Heading? ensures nodes[i] in HeadingsOf(nodes) {
        assert nodes[1..][i - 1] == nodes[i];
      }
    }
  }

  /** One item of the outline list. */
  datatype OutlineEntry = OutlineEntry(level: HeadingLevel, href: string, text: string, color: string, indentPx: int)

  /** The outline link colour, by theme. */
  function OutlineColor(lightMode: bool): string {
    if lightMode then "#343a40" else "#abb2bf"
  }

  /** The entry describes the heading: same level and text, a link to its id, the
      theme's link colour, and 15 px of indent per level below the first. */
  predicate Describes(e: OutlineEntry, h: Node, lightMode: bool) {
    && h.Heading?
    && e.level == h.level
    && e.href == "#" + h.id
    && e.text == h.text
    && e.color == OutlineColor(lightMode)
    && e.indentPx == (h.level - 1) * 15
  }

  /** The outline builder. The list is cleared and then receives exactly one entry per
      heading, in document order; indents lie between 0 and 75 px. */
  function UpdateSidebar(nodes: seq<Node>, lightMode: bool): (r: seq<OutlineEntry>)
    ensures |r| == |HeadingsOf(nodes)|
    ensures forall i :: 0 <= i < |r| ==> Describes(r[i], HeadingsOf(nodes)[i], lightMode)
    ensures forall i :: 0 <= i < |r| ==> 0 <= r[i].indentPx <= 75
  {
    if nodes == [] then []
    else
      var rest := UpdateSidebar(nodes[1..], lightMode);
      var n := nodes[0];
      if n.Heading? then
        var e := OutlineEntry(n.level, "#" + n.id, n.text, OutlineColor(lightMode), (n.level - 1) * 15);
        assert HeadingsOf(nodes) == [n] + HeadingsOf(nodes[1..]);
        DescribesCons(e, rest, n, HeadingsOf(nodes[1..]), lightMode);
        [e] + rest
      else
        assert HeadingsOf(nodes) == HeadingsOf(nodes[1..]);
        rest
  }

  /** An outline that describes a heading list, extended at the front by an entry that
      describes one more heading, describes the extended list. */
  lemma DescribesCons(e: OutlineEntry, rest: seq<OutlineEntry>, h: Node, hs: seq<Node>, lightMode: bool)
    requires Describes(e, h, lightMode) && 0 <= e.indentPx <= 75
    requires |rest| == |hs|
    requires forall i :: 0 <= i < |rest| ==> Describes(rest[i], hs[i], lightMode)
    requires forall i :: 0 <= i < |rest| ==> 0 <= rest[i].indentPx <= 75
    ensures forall i :: 0 <= i < |rest| + 1 ==> Describes(([e] + rest)[i], ([h] + hs)[i], lightMode)
    ensures forall i :: 0 <= i < |rest| + 1 ==> 0 <= ([e] + rest)[i].indentPx <= 75
  {
    forall i | 0 <= i < |rest| + 1
      ensures Describes(([e] + rest)[i], ([h] + hs)[i], lightMode)
      ensures 0 <= ([e] + rest)[i].indentPx <= 75
    {
      if i > 0 {
        assert ([e] + rest)[i] == rest[i - 1] && ([h] + hs)[i] == hs[i - 1];
      }
    }
  }

  /** Two trees that agree on every position holding a heading have the same headings. */
  predicate SameHeadings(a: seq<Node>, b: seq<Node>) {
    |a| == |b| && forall i :: 0 <= i < |a| ==> (a[i].Heading? || b[i].Heading?) ==> a[i] == b[i]
  }

  lemma {:induction false} SameHeadingsSameList(a: seq<Node>, b: seq<Node>)
    requires SameHeadings(a, b)
    ensures HeadingsOf(a) == HeadingsOf(b)
    decreases |a|
  {
    if a != [] {
      assert SameHeadings(a[1..], b[1..]) by {
        forall i | 0 <= i < |a[1..]| && (a[1..][i].Heading? || b[1..][i].Heading?)
          ensures a[1..][i] == b[1..][i]
        {
          assert a[1..][i] == a[i + 1] && b[1..][i] == b[i + 1];
        }
      }
      SameHeadingsSameList(a[1..], b[1..]);
    }
  }

  // ----- The whole run -----

  /** The Markdown engine and the rendering libraries a run calls. */
  datatype Engines = Engines(
    parse: string -> Result<seq<Node>, string>,
    highlight: (string, string) -> Attempt,
    mermaidInit: seq<string> -> Attempt,
    renderAbc: string -> Attempt,
    mathLoaded: bool,
    typeset: seq<Node> -> Attempt)

  /** What the user sees: the preview tree and the outline list. */
  datatype Screen = Screen(preview: seq<Node>, outline: seq<OutlineEntry>)

  /** Dialogs a run opens. */
  datatype Notice = DiagramNotice(message: string) | NotationNotice(message: string)

  /** Errors a run writes to the console. */
  datatype Diagnostic =
    | HighlightFailed(message: string)
    | DiagramsFailed(message: string)
    | NotationFailed(message: string)
    | MathFailed(message: string)

  datatype RunResult =
    | Rendered(screen: Screen, notices: seq<Notice>, diagnostics: seq<Diagnostic>)
    | ConversionThrew(message: string, screen: Screen)

  /** The console errors of a run, in stage order: the highlighting stop, the diagram
      failure, one per failed notation block, and the math failure. */
  function Diagnose(hl: HighlightPass, mm: StagePass, abc: AbcPass, math: Option<string>): (r: seq<Diagnostic>)
    ensures |r| == StageErrors(hl, mm) + |abc.failures| + (if math.Some? then 1 else 0)
    ensures forall k :: StageErrors(hl, mm) <= k < StageErrors(hl, mm) + |abc.failures| ==>
      r[k] == NotationFailed(abc.failures[k - StageErrors(hl, mm)])
  {
    var pre := StageDiagnostics(hl, mm);
    var n := NotationDiagnostics(abc.failures);
    var t := if math.Some? then [MathFailed(math.value)] else [];
    NotationErrorsPlaced(hl, mm, abc, pre, n, t);
    pre + (n + t)
  }

  /** Which console errors `Diagnose` reports, kind by kind: the highlighting stop's
      message, the diagram failure, exactly the notation failures, and the math failure. */
  lemma DiagnoseKinds(hl: HighlightPass, mm: StagePass, abc: AbcPass, math: Option<string>)
    ensures var r := Diagnose(hl, mm, abc, math);
      && (forall m :: HighlightFailed(m) in r <==> hl.stopped.Some? && hl.stopped.value.message == m)
      && (forall m :: DiagramsFailed(m) in r <==> mm.failure == Some(m))
      && (forall m :: NotationFailed(m) in r <==> m in abc.failures)
      && (forall m :: MathFailed(m) in r <==> math == Some(m))
  {
    var pre := StageDiagnostics(hl, mm);
    var n := NotationDiagnostics(abc.failures);
    var t := if math.Some? then [MathFailed(math.value)] else [];
    DiagnosticKinds(hl, mm, abc, math, pre, n, t);
  }

  /** In `Diagnose`, the notation errors sit right after the stage errors. */
  lemma NotationErrorsPlaced(hl: HighlightPass, mm: StagePass, abc: AbcPass,
                             pre: seq<Diagnostic>, n: seq<Diagnostic>, t: seq<Diagnostic>)
    requires pre == StageDiagnostics(hl, mm) && n == NotationDiagnostics(abc.failures)
    ensures forall k :: StageErrors(hl, mm) <= k < StageErrors(hl, mm) + |abc.failures| ==>
      (pre + (n + t))[k] == NotationFailed(abc.failures[k - StageErrors(hl, mm)])
  {
    forall k | StageErrors(hl, mm) <= k < StageErrors(hl, mm) + |abc.failures|
      ensures (pre + (n + t))[k] == NotationFailed(abc.failures[k - StageErrors(hl, mm)])
    {
      var j := k - |pre|;
      assert (pre + (n + t))[k] == (n + t)[j] == n[j];
    }
  }

  /** How many console errors the highlighting and diagram stages log: one each at most. */
  function StageErrors(hl: HighlightPass, mm: StagePass): nat {
    (if hl.stopped.Some? then 1 else 0) + (if mm.failure.Some? then 1 else 0)
  }

  /** Which console errors the three parts of `Diagnose` contribute, kind by kind. */
  lemma DiagnosticKinds(hl: HighlightPass, mm: StagePass, abc: AbcPass, math: Option<string>,
                        pre: seq<Diagnostic>, n: seq<Diagnostic>, t: seq<Diagnostic>)
    requires pre == StageDiagnostics(hl, mm) && n == NotationDiagnostics(abc.failures)
    requires t == if math.Some? then [MathFailed(math.value)] else []
    ensures forall m :: HighlightFailed(m) in pre + (n + t) <==> hl.stopped.Some? && hl.stopped.value.message == m
    ensures forall m :: DiagramsFailed(m) in pre + (n + t) <==> mm.failure == Some(m)
    ensures forall m :: NotationFailed(m) in pre + (n + t) <==> m in abc.failures
    ensures forall m :: MathFailed(m) in pre + (n + t) <==> math == Some(m)
  {
    forall m ensures HighlightFailed(m) !in n + t && DiagramsFailed(m) !in n + t {
      assert HighlightFailed(m) !in n && DiagramsFailed(m) !in n;
    }
    forall m ensures NotationFailed(m) !in pre && MathFailed(m) !in pre && MathFailed(m) !in n {
      assert !NotationFailed(m).HighlightFailed? && !NotationFailed(m).DiagramsFailed?;
      assert !MathFailed(m).NotationFailed?;
    }
  }

  /** The console errors of the highlighting and diagram stages. */
  function StageDiagnostics(hl: HighlightPass, mm: StagePass): (r: seq<Diagnostic>)
    ensures |r| == StageErrors(hl, mm)
    ensures forall m :: HighlightFailed(m) in r <==> hl.stopped.Some? && hl.stopped.value.message == m
    ensures forall m :: DiagramsFailed(m) in r <==> mm.failure == Some(m)
    ensures forall x :: x in r ==> x.HighlightFailed? || x.DiagramsFailed?
  {
    (if hl.stopped.Some? then [HighlightFailed(hl.stopped.value.message)] else [])
    + (if mm.failure.Some? then [DiagramsFailed(mm.failure.value)] else [])
  }

  /** One console error per notation failure, in order. */
  function NotationDiagnostics(fs: seq<string>): (r: seq<Diagnostic>)
    ensures |r| == |fs|
    ensures forall k :: 0 <= k < |fs| ==> r[k] == NotationFailed(fs[k])
    ensures forall m :: NotationFailed(m) in r <==> m in fs
    ensures forall x :: x in r ==> x.NotationFailed?
  {
    var r := seq(|fs|, i requires 0 <= i < |fs| => NotationFailed(fs[i]));
    forall m | m in fs ensures NotationFailed(m) in r {
      var k :| 0 <= k < |fs| && fs[k] == m;
      assert r[k] == NotationFailed(m);
    }
    r
  }

  /** The dialogs of a run: the diagram failure, then one per failed notation block. */
  function Notify(mm: StagePass, abc: AbcPass): (r: seq<Notice>)
    ensures |r| == (if mm.failure.Some? then 1 else 0) + |abc.failures|
    ensures forall k :: |r| - |abc.failures| <= k < |r| ==> r[k] == NotationNotice(abc.failures[k - (|r| - |abc.failures|)])
  {
    var d := if mm.failure.Some? then [DiagramNotice(mm.failure.value)] else [];
    var n := NotationNotices(abc.failures);
    var r := d + n;
    forall k | |d| <= k < |r| ensures r[k] == NotationNotice(abc.failures[k - |d|]) {
      assert r[k] == n[k - |d|];
    }
    r
  }

  /** Which dialogs `Notify` opens, kind by kind: the diagram failure and exactly the
      notation failures. */
  lemma NotifyKinds(mm: StagePass, abc: AbcPass)
    ensures var r := Notify(mm, abc);
      && (forall m :: DiagramNotice(m) in r <==> mm.failure == Some(m))
      && (forall m :: NotationNotice(m) in r <==> m in abc.failures)
  {
    var d := if mm.failure.Some? then [DiagramNotice(mm.failure.value)] else [];
    var n := NotationNotices(abc.failures);
    assert Notify(mm, abc) == d + n;
    forall m ensures DiagramNotice(m) !in n && NotationNotice(m) !in d {
      assert !DiagramNotice(m).NotationNotice?;
    }
  }

  /** One dialog per notation failure, in order. */
  function NotationNotices(fs: seq<string>): (r: seq<Notice>)
    ensures |r| == |fs|
    ensures forall k :: 0 <= k < |fs| ==> r[k] == NotationNotice(fs[k])
    ensures forall m :: NotationNotice(m) in r <==> m in fs
    ensures forall x :: x in r ==> x.NotationNotice?
  {
    var r := seq(|fs|, i requires 0 <= i < |fs| => NotationNotice(fs[i]));
    forall m | m in fs ensures NotationNotice(m) in r {
      var k :| 0 <= k < |fs| && fs[k] == m;
      assert r[k] == NotationNotice(m);
    }
    r
  }

  /** Some highlighter call on a block that reaches it throws. */
  predicate SomeHighlightThrows(nodes: seq<Node>, highlight: (string, string) -> Attempt) {
    exists i :: 0 <= i < |nodes| && ReachesHighlighter(nodes[i]) && highlight(nodes[i].className, nodes[i].text).Threw?
  }

  /** Some notation block's engraving throws. */
  predicate SomeEngravingThrows(nodes: seq<Node>, render: string -> Attempt) {
    exists i :: 0 <= i < |nodes| && IsAbcBlock(nodes[i]) && render(nodes[i].text).Threw?
  }

  /** The tree and outline of a rendered run: every node keeps its place, notation
      blocks become their containers, headings are untouched and the outline describes
      them. */
  ghost predicate LaidOut(P: seq<Node>, e: Engines, lightMode: bool, r: RunResult) {
    && r.Rendered?
    && |r.screen.preview| == |P|
    && HeadingsOf(r.screen.preview) == HeadingsOf(P)
    && |r.screen.outline| == |HeadingsOf(P)|
    && (forall i :: 0 <= i < |r.screen.outline| ==> Describes(r.screen.outline[i], HeadingsOf(P)[i], lightMode))
    && (forall i :: 0 <= i < |r.screen.preview| ==> !IsAbcBlock(r.screen.preview[i]))
    && (forall i :: 0 <= i < |P| && IsAbcBlock(P[i]) ==> r.screen.preview[i] == AbcBoxFor(P[i].text, e.renderAbc))
    && (forall i :: 0 <= i < |P| && P[i].Heading? ==> r.screen.preview[i] == P[i])
    && (forall i :: 0 <= i < |P| && Untouched(P[i]) ==> r.screen.preview[i] == P[i])
  }

  /** A node no stage looks at: no reaching code block, no diagram container and no
      notation block. */
  predicate Untouched(n: Node) {
    !ReachesHighlighter(n) && !n.MermaidBox? && !IsAbcBlock(n)
  }

  /** Highlighting in a rendered run: with no throwing call every reaching code block
      that is no notation block is shown highlighted and no highlighting error is logged.
      When some call throws, the reaching blocks before the first throwing one are shown
      highlighted, it and every later code block are shown as converted, and the first
      console error carries that call's message (`ErrorsCounted` makes it the only
      highlighting error). */
  ghost predicate HighlightingShown(P: seq<Node>, e: Engines, r: RunResult) {
    && r.Rendered?
    && |r.screen.preview| == |P|
    && (!SomeHighlightThrows(P, e.highlight) ==>
          && (forall i :: 0 <= i < |P| && ReachesHighlighter(P[i]) && !IsAbcBlock(P[i]) ==>
                r.screen.preview[i] == P[i].(highlighted := true))
          && (forall m :: HighlightFailed(m) !in r.diagnostics))
    && (SomeHighlightThrows(P, e.highlight) ==>
          exists k :: && FirstHighlightThrow(P, e.highlight, k)
                      && ShownStopped(P, r.screen.preview, k)
                      && |r.diagnostics| > 0
                      && r.diagnostics[0] == HighlightFailed(e.highlight(P[k].className, P[k].text).message))
  }

  /** Diagrams in a rendered run: the library is initialised over the document's
      diagram sources; when that returns every container is drawn, when it throws none
      is and its message is both logged and shown. */
  ghost predicate DiagramsShown(P: seq<Node>, e: Engines, r: RunResult) {
    && r.Rendered?
    && |r.screen.preview| == |P|
    && (forall i :: 0 <= i < |P| && P[i].MermaidBox? ==>
          r.screen.preview[i] == (if e.mermaidInit(DiagramSources(P)) == Done then P[i].(drawn := true) else P[i]))
    && (forall m :: DiagramNotice(m) in r.notices <==> e.mermaidInit(DiagramSources(P)) == Threw(m))
    && (forall m :: DiagramsFailed(m) in r.diagnostics <==> e.mermaidInit(DiagramSources(P)) == Threw(m))
  }

  /** Notation failures in a rendered run: a dialog and a console error carry a message
      exactly when some notation block's engraving throws with it. */
  ghost predicate NotationReported(P: seq<Node>, e: Engines, r: RunResult) {
    && r.Rendered?
    && ((exists m :: NotationNotice(m) in r.notices) <==> SomeEngravingThrows(P, e.renderAbc))
    && (forall m :: NotationNotice(m) in r.notices <==>
          exists i :: 0 <= i < |P| && IsAbcBlock(P[i]) && e.renderAbc(P[i].text) == Threw(m))
    && (forall m :: NotationFailed(m) in r.diagnostics <==>
          exists i :: 0 <= i < |P| && IsAbcBlock(P[i]) && e.renderAbc(P[i].text) == Threw(m))
  }

  /** The notation reports of a rendered run come one per failing block, in block order:
      the dialogs after the diagram one, the console errors after the highlighting and
      diagram ones. */
  ghost predicate NotationInOrder(P: seq<Node>, e: Engines, r: RunResult) {
    && r.Rendered?
    && var d := if e.mermaidInit(DiagramSources(P)).Threw? then 1 else 0;
       var h := if SomeHighlightThrows(P, e.highlight) then 1 else 0;
       ReportedInOrder(NotationFailures(P, e.renderAbc), d, h + d, r.notices, r.diagnostics)
  }

  /** The notation failures `F` are the last notices, after the `d` diagram ones, and
      the console errors right after the first `s`. */
  predicate ReportedInOrder(F: seq<string>, d: nat, s: nat, notices: seq<Notice>, diagnostics: seq<Diagnostic>) {
    && |notices| == d + |F|
    && s + |F| <= |diagnostics|
    && (forall k :: |notices| - |F| <= k < |notices| ==> notices[k] == NotationNotice(F[k - (|notices| - |F|)]))
    && (forall k :: s <= k < s + |F| ==> diagnostics[k] == NotationFailed(F[k - s]))
  }

  /** Math in a rendered run: the typesetter starts on the final tree, and a math error
      is logged exactly when it is loaded and throws on that tree, with its message. */
  ghost predicate MathStarted(e: Engines, r: RunResult) {
    && r.Rendered?
    && ((exists m :: MathFailed(m) in r.diagnostics) <==> e.mathLoaded && e.typeset(r.screen.preview).Threw?)
    && (forall m :: MathFailed(m) in r.diagnostics <==> e.mathLoaded && e.typeset(r.screen.preview) == Threw(m))
  }

  /** The console errors of a rendered run, slot by slot and nothing more: the
      highlighting error first, then the diagram error, one per notation failure, and
      the math error last. */
  ghost predicate ErrorsCounted(P: seq<Node>, e: Engines, r: RunResult) {
    && r.Rendered?
    && var h := if SomeHighlightThrows(P, e.highlight) then 1 else 0;
       var d := if e.mermaidInit(DiagramSources(P)).Threw? then 1 else 0;
       var t := if e.mathLoaded && e.typeset(r.screen.preview).Threw? then 1 else 0;
       ErrorSlots(r.diagnostics, h, d, NotationFailures(P, e.renderAbc), t)
  }

  /** `ds` holds `h` highlighting errors, `d` diagram errors, one error per entry of `F`
      and `t` math errors, in that order; the notation slots are those of
      `ReportedInOrder`. */
  predicate ErrorSlots(ds: seq<Diagnostic>, h: nat, d: nat, F: seq<string>, t: nat) {
    && |ds| == h + d + |F| + t
    && (h == 1 ==> ds[0].HighlightFailed?)
    && (d == 1 ==> ds[h].DiagramsFailed?)
    && (t == 1 ==> ds[h + d + |F|].MathFailed?)
  }

  /** When block `k` is the first throwing one and the first console error carries its
      message, the slot layout leaves room for no other highlighting error. */
  lemma OneHighlightError(P: seq<Node>, e: Engines, r: RunResult, k: int)
    requires FirstHighlightThrow(P, e.highlight, k)
    requires NotationInOrder(P, e, r) && ErrorsCounted(P, e, r)
    requires |r.diagnostics| > 0 && r.diagnostics[0] == HighlightFailed(e.highlight(P[k].className, P[k].text).message)
    ensures forall m :: HighlightFailed(m) in r.diagnostics <==> m == e.highlight(P[k].className, P[k].text).message
  {
    assert ReachesHighlighter(P[k]) && e.highlight(P[k].className, P[k].text).Threw?;
    var h := if SomeHighlightThrows(P, e.highlight) then 1 else 0;
    var d := if e.mermaidInit(DiagramSources(P)).Threw? then 1 else 0;
    var t := if e.mathLoaded && e.typeset(r.screen.preview).Threw? then 1 else 0;
    var F := NotationFailures(P, e.renderAbc);
    OnlyFirstSlotHighlights(r.diagnostics, r.notices, h, d, F, t, e.highlight(P[k].className, P[k].text).message);
  }

  /** The run predicates leave room for one highlighting error only: when block `k` is
      the first throwing one, a highlighting error carries a message exactly when it is
      `k`'s. */
  lemma OneHighlightErrorShown(P: seq<Node>, e: Engines, r: RunResult, k: int)
    requires FirstHighlightThrow(P, e.highlight, k)
    requires HighlightingShown(P, e, r) && NotationInOrder(P, e, r) && ErrorsCounted(P, e, r)
    ensures forall m :: HighlightFailed(m) in r.diagnostics <==> m == e.highlight(P[k].className, P[k].text).message
  {
    FirstErrorOfStop(P, e, r, k);
    OneHighlightError(P, e, r, k);
  }

  /** When block `k` is the first throwing one, the first console error carries its
      message. */
  lemma FirstErrorOfStop(P: seq<Node>, e: Engines, r: RunResult, k: int)
    requires FirstHighlightThrow(P, e.highlight, k) && HighlightingShown(P, e, r)
    ensures |r.diagnostics| > 0 && r.diagnostics[0] == HighlightFailed(e.highlight(P[k].className, P[k].text).message)
  {
    assert SomeHighlightThrows(P, e.highlight);
    var k' :| && FirstHighlightThrow(P, e.highlight, k')
              && ShownStopped(P, r.screen.preview, k')
              && |r.diagnostics| > 0
              && r.diagnostics[0] == HighlightFailed(e.highlight(P[k'].className, P[k'].text).message);
    FirstHighlightThrowUnique(P, e.highlight, k, k');
  }

  /** A console error list laid out as highlighting error, optional diagram error,
      notation errors and optional math error holds just the one highlighting error. */
  lemma OnlyFirstSlotHighlights(ds: seq<Diagnostic>, notices: seq<Notice>, h: nat, d: nat, F: seq<string>, t: nat,
                                msg: string)
    requires h == 1 && d <= 1 && t <= 1 && ErrorSlots(ds, h, d, F, t)
    requires ds[0] == HighlightFailed(msg)
    requires ReportedInOrder(F, d, h + d, notices, ds)
    ensures forall m :: HighlightFailed(m) in ds <==> m == msg
  {
    forall j | 0 < j < |ds| ensures !ds[j].HighlightFailed? {
      if h + d <= j < h + d + |F| {
        assert ds[j] == NotationFailed(F[j - (h + d)]);
      }
    }
  }

  /** One preview update. An exception from the Markdown engine escapes the run and
      leaves the screen as it was. Otherwise every stage runs, in order, whatever the
      others did, since each stage catches its own errors; what the run then shows and
      reports is stated stage by stage by the predicates above. */
  function UpdatePreview(current: Screen, text: string, e: Engines, lightMode: bool): (r: RunResult)
    ensures r.ConversionThrew? <==> e.parse(text).Err?
    ensures r.ConversionThrew? ==> r.screen == current && r.message == e.parse(text).error
    ensures r.Rendered? ==> LaidOut(e.parse(text).value, e, lightMode, r)
    ensures r.Rendered? ==> HighlightingShown(e.parse(text).value, e, r)
    ensures r.Rendered? ==> DiagramsShown(e.parse(text).value, e, r)
    ensures r.Rendered? ==> NotationReported(e.parse(text).value, e, r)
    ensures r.Rendered? ==> NotationInOrder(e.parse(text).value, e, r)
    ensures r.Rendered? ==> MathStarted(e, r)
    ensures r.Rendered? ==> ErrorsCounted(e.parse(text).value, e, r)
  {
    match e.parse(text)
    case Err(msg) => ConversionThrew(msg, current)
    case Ok(parsed) =>
      RenderedLayout(parsed, e, lightMode);
      RenderedHighlighting(parsed, e, lightMode);
      RenderedDiagrams(parsed, e, lightMode);
      RenderedNotation(parsed, e, lightMode);
      RenderedNotationOrder(parsed, e, lightMode);
      RenderedMath(parsed, e, lightMode);
      RenderedErrors(parsed, e, lightMode);
      Render(parsed, e, lightMode)
  }

  /** The stages after a successful conversion, in the source's order. */
  function Render(parsed: seq<Node>, e: Engines, lightMode: bool): RunResult {
    var hl := HighlightCodeBlocks(parsed, e.highlight);
    var mm := RenderMermaidCharts(hl.nodes, e.mermaidInit);
    var abc := RenderAbcBlocks(mm.nodes, e.renderAbc);
    var math := RenderMathFormulas(abc.nodes, e.mathLoaded, e.typeset);
    var outline := UpdateSidebar(abc.nodes, lightMode);
    Rendered(Screen(abc.nodes, outline), Notify(mm, abc), Diagnose(hl, mm, abc, math))
  }

  /** The per-node effect of the three tree-changing stages of a run. */
  lemma RunSteps(parsed: seq<Node>, e: Engines)
    ensures var hl := HighlightCodeBlocks(parsed, e.highlight);
      var mm := RenderMermaidCharts(hl.nodes, e.mermaidInit);
      var abc := RenderAbcBlocks(mm.nodes, e.renderAbc);
      && |hl.nodes| == |parsed| && |mm.nodes| == |parsed| && |abc.nodes| == |parsed|
      && (forall i :: 0 <= i < |parsed| ==> HighlightStep(parsed[i], hl.nodes[i]))
      && (forall i :: 0 <= i < |parsed| ==> DiagramStep(hl.nodes[i], mm.nodes[i]))
      && (forall i :: 0 <= i < |parsed| ==> NotationStep(mm.nodes[i], abc.nodes[i], e.renderAbc))
  {
    var hl := HighlightCodeBlocks(parsed, e.highlight);
    var mm := RenderMermaidCharts(hl.nodes, e.mermaidInit);
    assert forall i :: 0 <= i < |parsed| ==> DiagramStep(hl.nodes[i], mm.nodes[i]) by {
      if mm.failure.Some? {
        assert mm.nodes == hl.nodes;
      }
    }
  }

  lemma RenderedLayout(parsed: seq<Node>, e: Engines, lightMode: bool)
    ensures LaidOut(parsed, e, lightMode, Render(parsed, e, lightMode))
  {
    var hl := HighlightCodeBlocks(parsed, e.highlight);
    var mm := RenderMermaidCharts(hl.nodes, e.mermaidInit);
    var abc := RenderAbcBlocks(mm.nodes, e.renderAbc);
    RunSteps(parsed, e);
    StagesPlaceNodes(parsed, hl.nodes, mm.nodes, abc.nodes, e.renderAbc);
  }

  lemma RenderedHighlighting(parsed: seq<Node>, e: Engines, lightMode: bool)
    ensures HighlightingShown(parsed, e, Render(parsed, e, lightMode))
  {
    RenderedHighlightAll(parsed, e, lightMode);
    RenderedHighlightStop(parsed, e, lightMode);
  }

  /** With no throwing highlighter call, a run shows every reaching code block that is
      no notation block highlighted, and logs no highlighting error. */
  lemma RenderedHighlightAll(parsed: seq<Node>, e: Engines, lightMode: bool)
    ensures var r := Render(parsed, e, lightMode);
      && |r.screen.preview| == |parsed|
      && (!SomeHighlightThrows(parsed, e.highlight) ==>
            && (forall i :: 0 <= i < |parsed| && ReachesHighlighter(parsed[i]) && !IsAbcBlock(parsed[i]) ==>
                  r.screen.preview[i] == parsed[i].(highlighted := true))
            && (forall m :: HighlightFailed(m) !in r.diagnostics))
  {
    var hl := HighlightCodeBlocks(parsed, e.highlight);
    var mm := RenderMermaidCharts(hl.nodes, e.mermaidInit);
    var abc := RenderAbcBlocks(mm.nodes, e.renderAbc);
    assert Render(parsed, e, lightMode).screen.preview == abc.nodes;
    RunSteps(parsed, e);
    HighlightOutcome(parsed, e.highlight);
    if hl.stopped.None? {
      StagesKeepCodeAndDiagrams(parsed, hl.nodes, mm.nodes, abc.nodes, e.renderAbc);
      HighlightCompletes(parsed, e.highlight);
      ShownAfterPass(parsed, hl.nodes, abc.nodes, |parsed|);
      DiagnoseKinds(hl, mm, abc, RenderMathFormulas(abc.nodes, e.mathLoaded, e.typeset));
    }
  }

  /** When some highlighter call throws, a run shows the reaching blocks before the first
      throwing one highlighted and it and every later code block as converted, and logs
      one highlighting error, with that call's message. */
  lemma RenderedHighlightStop(parsed: seq<Node>, e: Engines, lightMode: bool)
    ensures var r := Render(parsed, e, lightMode);
      SomeHighlightThrows(parsed, e.highlight) ==>
        exists k :: && FirstHighlightThrow(parsed, e.highlight, k)
                    && ShownStopped(parsed, r.screen.preview, k)
                    && |r.diagnostics| > 0
                    && r.diagnostics[0] == HighlightFailed(e.highlight(parsed[k].className, parsed[k].text).message)
  {
    var hl := HighlightCodeBlocks(parsed, e.highlight);
    HighlightOutcome(parsed, e.highlight);
    if hl.stopped.Some? {
      HighlightStopIsFirst(parsed, e.highlight);
      StopShownInRun(parsed, e, lightMode);
      StopLoggedInRun(parsed, e, lightMode);
      var s := hl.stopped.value.index;
      assert FirstHighlightThrow(parsed, e.highlight, s);
    }
  }

  /** After a stop at block `s`, the run's tree is shown as stopped there. */
  lemma StopShownInRun(parsed: seq<Node>, e: Engines, lightMode: bool)
    requires HighlightCodeBlocks(parsed, e.highlight).stopped.Some?
    ensures ShownStopped(parsed, Render(parsed, e, lightMode).screen.preview,
                         HighlightCodeBlocks(parsed, e.highlight).stopped.value.index)
  {
    var hl := HighlightCodeBlocks(parsed, e.highlight);
    var mm := RenderMermaidCharts(hl.nodes, e.mermaidInit);
    var abc := RenderAbcBlocks(mm.nodes, e.renderAbc);
    assert Render(parsed, e, lightMode).screen.preview == abc.nodes;
    RunSteps(parsed, e);
    StagesKeepCodeAndDiagrams(parsed, hl.nodes, mm.nodes, abc.nodes, e.renderAbc);
    HighlightStopsAround(parsed, e.highlight);
    ShownAfterPass(parsed, hl.nodes, abc.nodes, hl.stopped.value.index);
  }

  /** After a stop at block `s`, the run's only highlighting error carries the message
      block `s`'s call threw. */
  lemma StopLoggedInRun(parsed: seq<Node>, e: Engines, lightMode: bool)
    requires HighlightCodeBlocks(parsed, e.highlight).stopped.Some?
    ensures var s := HighlightCodeBlocks(parsed, e.highlight).stopped.value.index;
      && s < |parsed| && parsed[s].CodeBlock?
      && e.highlight(parsed[s].className, parsed[s].text).Threw?
      && |Render(parsed, e, lightMode).diagnostics| > 0
      && Render(parsed, e, lightMode).diagnostics[0] == HighlightFailed(e.highlight(parsed[s].className, parsed[s].text).message)
  {
    var hl := HighlightCodeBlocks(parsed, e.highlight);
    var mm := RenderMermaidCharts(hl.nodes, e.mermaidInit);
    var abc := RenderAbcBlocks(mm.nodes, e.renderAbc);
    var math := RenderMathFormulas(abc.nodes, e.mathLoaded, e.typeset);
    HighlightStopsAt(parsed, e.highlight);
    DiagnoseSlots(hl, mm, abc, math);
    assert Render(parsed, e, lightMode).diagnostics == Diagnose(hl, mm, abc, math);
  }

  /** How the final tree shows the code blocks when the highlighting pass highlighted
      the reaching blocks before `k` and left the blocks from `k` on as they were, and
      the later stages keep highlighted and untouched code blocks. */
  lemma ShownAfterPass(parsed: seq<Node>, hs: seq<Node>, shown: seq<Node>, k: nat)
    requires |hs| == |parsed| && |shown| == |parsed|
    requires forall i :: 0 <= i < |parsed| ==> HighlightStep(parsed[i], hs[i])
    requires forall i :: 0 <= i < |parsed| && HighlightedCode(parsed[i], hs[i]) ==>
      shown[i] == parsed[i].(highlighted := true)
    requires forall i :: 0 <= i < |parsed| && parsed[i].CodeBlock? && !IsAbcBlock(parsed[i]) && hs[i] == parsed[i] ==>
      shown[i] == parsed[i]
    requires forall i :: 0 <= i < k && i < |parsed| && ReachesHighlighter(parsed[i]) ==> hs[i].CodeBlock? && hs[i].highlighted
    requires forall i :: k <= i < |parsed| ==> hs[i] == parsed[i]
    ensures ShownStopped(parsed, shown, k)
  {
    forall i | 0 <= i < k && i < |parsed| && ReachesHighlighter(parsed[i]) && !IsAbcBlock(parsed[i])
      ensures shown[i] == parsed[i].(highlighted := true)
    {
      assert HighlightedCode(parsed[i], hs[i]);
    }
  }

  lemma RenderedDiagrams(parsed: seq<Node>, e: Engines, lightMode: bool)
    ensures DiagramsShown(parsed, e, Render(parsed, e, lightMode))
  {
    var hl := HighlightCodeBlocks(parsed, e.highlight);
    var mm := RenderMermaidCharts(hl.nodes, e.mermaidInit);
    var abc := RenderAbcBlocks(mm.nodes, e.renderAbc);
    RunSteps(parsed, e);
    DiagramSourcesKept(parsed, hl.nodes);
    StagesKeepCodeAndDiagrams(parsed, hl.nodes, mm.nodes, abc.nodes, e.renderAbc);
    NotifyKinds(mm, abc);
    DiagnoseKinds(hl, mm, abc, RenderMathFormulas(abc.nodes, e.mathLoaded, e.typeset));
  }

  /** The notation stage of a run sees the converted document's notation blocks, so its
      failures are theirs. */
  lemma RunNotationFailures(parsed: seq<Node>, e: Engines)
    ensures var mm := RenderMermaidCharts(HighlightCodeBlocks(parsed, e.highlight).nodes, e.mermaidInit);
      RenderAbcBlocks(mm.nodes, e.renderAbc).failures == NotationFailures(parsed, e.renderAbc)
  {
    var hl := HighlightCodeBlocks(parsed, e.highlight);
    var mm := RenderMermaidCharts(hl.nodes, e.mermaidInit);
    RunSteps(parsed, e);
    forall i | 0 <= i < |parsed|
      ensures IsAbcBlock(mm.nodes[i]) <==> IsAbcBlock(parsed[i])
      ensures IsAbcBlock(parsed[i]) ==> mm.nodes[i].text == parsed[i].text
    {
      NotationBlockKept(parsed[i], hl.nodes[i], mm.nodes[i]);
    }
    NotationFailuresKept(parsed, mm.nodes, e.renderAbc);
  }

  lemma RenderedNotation(parsed: seq<Node>, e: Engines, lightMode: bool)
    ensures NotationReported(parsed, e, Render(parsed, e, lightMode))
  {
    var hl := HighlightCodeBlocks(parsed, e.highlight);
    var mm := RenderMermaidCharts(hl.nodes, e.mermaidInit);
    var abc := RenderAbcBlocks(mm.nodes, e.renderAbc);
    var r := Render(parsed, e, lightMode);
    RunSteps(parsed, e);
    NotationOutcome(parsed, hl.nodes, mm.nodes, e.renderAbc);
    RunNotationFailures(parsed, e);
    NotationFailuresMembers(parsed, e.renderAbc);
    NotifyKinds(mm, abc);
    DiagnoseKinds(hl, mm, abc, RenderMathFormulas(abc.nodes, e.mathLoaded, e.typeset));
    if abc.failures != [] {
      assert NotationNotice(abc.failures[0]) in r.notices;
    }
  }

  lemma RenderedNotationOrder(parsed: seq<Node>, e: Engines, lightMode: bool)
    ensures NotationInOrder(parsed, e, Render(parsed, e, lightMode))
  {
    var hl := HighlightCodeBlocks(parsed, e.highlight);
    var mm := RenderMermaidCharts(hl.nodes, e.mermaidInit);
    var abc := RenderAbcBlocks(mm.nodes, e.renderAbc);
    var math := RenderMathFormulas(abc.nodes, e.mathLoaded, e.typeset);
    var r := Render(parsed, e, lightMode);
    RunSteps(parsed, e);
    HighlightOutcome(parsed, e.highlight);
    DiagramSourcesKept(parsed, hl.nodes);
    RunNotationFailures(parsed, e);
    var d := if e.mermaidInit(DiagramSources(parsed)).Threw? then 1 else 0;
    var h := if SomeHighlightThrows(parsed, e.highlight) then 1 else 0;
    assert d == (if mm.failure.Some? then 1 else 0);
    assert h + d == StageErrors(hl, mm);
    assert r.notices == Notify(mm, abc);
    assert r.diagnostics == Diagnose(hl, mm, abc, math);
    ReportsInOrder(hl, mm, abc, math);
  }

  /** The notation notices are the last ones, after the diagram notice, and the
      notation errors follow the highlighting and diagram errors, each in block order. */
  lemma ReportsInOrder(hl: HighlightPass, mm: StagePass, abc: AbcPass, math: Option<string>)
    ensures ReportedInOrder(abc.failures, if mm.failure.Some? then 1 else 0, StageErrors(hl, mm),
                            Notify(mm, abc), Diagnose(hl, mm, abc, math))
  {
  }

  lemma RenderedMath(parsed: seq<Node>, e: Engines, lightMode: bool)
    ensures MathStarted(e, Render(parsed, e, lightMode))
  {
    var hl := HighlightCodeBlocks(parsed, e.highlight);
    var mm := RenderMermaidCharts(hl.nodes, e.mermaidInit);
    var abc := RenderAbcBlocks(mm.nodes, e.renderAbc);
    var math := RenderMathFormulas(abc.nodes, e.mathLoaded, e.typeset);
    DiagnoseKinds(hl, mm, abc, math);
  }

  /** The console errors of a run fill exactly their slots. */
  lemma RenderedErrors(parsed: seq<Node>, e: Engines, lightMode: bool)
    ensures ErrorsCounted(parsed, e, Render(parsed, e, lightMode))
  {
    var hl := HighlightCodeBlocks(parsed, e.highlight);
    var mm := RenderMermaidCharts(hl.nodes, e.mermaidInit);
    var abc := RenderAbcBlocks(mm.nodes, e.renderAbc);
    var math := RenderMathFormulas(abc.nodes, e.mathLoaded, e.typeset);
    RunSteps(parsed, e);
    HighlightOutcome(parsed, e.highlight);
    DiagramSourcesKept(parsed, hl.nodes);
    RunNotationFailures(parsed, e);
    DiagnoseSlots(hl, mm, abc, math);
  }

  /** `Diagnose` puts the highlighting error first, the diagram error next and the math
      error last. */
  lemma DiagnoseSlots(hl: HighlightPass, mm: StagePass, abc: AbcPass, math: Option<string>)
    ensures var r := Diagnose(hl, mm, abc, math);
      && (hl.stopped.Some? ==> r[0] == HighlightFailed(hl.stopped.value.message))
      && (mm.failure.Some? ==> r[if hl.stopped.Some? then 1 else 0].DiagramsFailed?)
      && (math.Some? ==> r[StageErrors(hl, mm) + |abc.failures|].MathFailed?)
  {
    var pre := StageDiagnostics(hl, mm);
    var n := NotationDiagnostics(abc.failures);
    var t := if math.Some? then [MathFailed(math.value)] else [];
    assert Diagnose(hl, mm, abc, math) == pre + (n + t);
  }

  /** A highlighting pass stops exactly when some call on a reaching block throws. */
  lemma HighlightOutcome(nodes: seq<Node>, highlight: (string, string) -> Attempt)
    ensures HighlightCodeBlocks(nodes, highlight).stopped.Some? <==> SomeHighlightThrows(nodes, highlight)
  {
    HighlightCompletes(nodes, highlight);
    HighlightStops(nodes, highlight);
    var r := HighlightCodeBlocks(nodes, highlight);
    if r.stopped.Some? {
      var k := r.stopped.value.index;
      assert ReachesHighlighter(nodes[k]) && highlight(nodes[k].className, nodes[k].text).Threw?;
    }
  }

  /** Highlighting leaves the diagram sources as they were. */
  lemma {:induction false} DiagramSourcesKept(ps: seq<Node>, hs: seq<Node>)
    requires |hs| == |ps|
    requires forall i :: 0 <= i < |ps| ==> HighlightStep(ps[i], hs[i])
    ensures DiagramSources(hs) == DiagramSources(ps)
    decreases |ps|
  {
    if ps != [] {
      assert forall i :: 0 <= i < |ps| - 1 ==> ps[1..][i] == ps[i + 1] && hs[1..][i] == hs[i + 1];
      DiagramSourcesKept(ps[1..], hs[1..]);
      assert HighlightStep(ps[0], hs[0]);
      assert hs[0].MermaidBox? <==> ps[0].MermaidBox?;
      assert ps[0].MermaidBox? ==> hs[0] == ps[0];
    }
  }

  /** Through highlighting and diagrams the notation blocks stay where they are with
      their text, so the notation stage sees exactly the converted document's ones. */
  lemma NotationOutcome(ps: seq<Node>, hs: seq<Node>, ms: seq<Node>, render: string -> Attempt)
    requires |hs| == |ps| && |ms| == |ps|
    requires forall i :: 0 <= i < |ps| ==> HighlightStep(ps[i], hs[i])
    requires forall i :: 0 <= i < |ps| ==> DiagramStep(hs[i], ms[i])
    ensures RenderAbcBlocks(ms, render).failures != [] <==> SomeEngravingThrows(ps, render)
  {
    forall i | 0 <= i < |ps|
      ensures IsAbcBlock(ms[i]) <==> IsAbcBlock(ps[i])
      ensures IsAbcBlock(ps[i]) ==> ms[i].text == ps[i].text
    {
      NotationBlockKept(ps[i], hs[i], ms[i]);
    }
    if SomeEngravingThrows(ps, render) {
      var k :| 0 <= k < |ps| && IsAbcBlock(ps[k]) && render(ps[k].text).Threw?;
      assert IsAbcBlock(ms[k]) && render(ms[k].text) != Done;
    }
  }

  /** One node through highlighting and diagrams keeps being a notation block, or not,
      and keeps its text. */
  lemma NotationBlockKept(p: Node, h: Node, m: Node)
    requires HighlightStep(p, h) && DiagramStep(h, m)
    ensures IsAbcBlock(m) <==> IsAbcBlock(p)
    ensures IsAbcBlock(p) ==> m.text == p.text
  {
    if p.CodeBlock? {
      assert m == h && h.className == p.className && h.text == p.text;
    } else {
      assert h == p && !m.CodeBlock?;
    }
  }

  /** What the highlighting stage may do to one node. */
  predicate HighlightStep(p: Node, h: Node) {
    h == p || (ReachesHighlighter(p) && h == p.(highlighted := true))
  }

  /** What the diagram stage may do to one node. */
  predicate DiagramStep(h: Node, m: Node) {
    m == h || (h.MermaidBox? && m.MermaidBox?)
  }

  /** What the notation stage does to one node. */
  predicate NotationStep(m: Node, a: Node, render: string -> Attempt) {
    (!IsAbcBlock(m) ==> a == m) && (IsAbcBlock(m) ==> a == AbcBoxFor(m.text, render))
  }

  /** Through highlighting, diagrams and notation every node keeps its place: notation
      blocks become their containers, no notation block is left, and headings are
      untouched. */
  lemma StagesPlaceNodes(parsed: seq<Node>, hs: seq<Node>, ms: seq<Node>, abcs: seq<Node>, render: string -> Attempt)
    requires |hs| == |parsed| && |ms| == |parsed| && |abcs| == |parsed|
    requires forall i :: 0 <= i < |parsed| ==> HighlightStep(parsed[i], hs[i])
    requires forall i :: 0 <= i < |parsed| ==> DiagramStep(hs[i], ms[i])
    requires forall i :: 0 <= i < |parsed| ==> NotationStep(ms[i], abcs[i], render)
    ensures forall i :: 0 <= i < |parsed| && IsAbcBlock(parsed[i]) ==> abcs[i] == AbcBoxFor(parsed[i].text, render)
    ensures forall i :: 0 <= i < |parsed| && parsed[i].Heading? ==> abcs[i] == parsed[i]
    ensures forall i :: 0 <= i < |abcs| ==> !IsAbcBlock(abcs[i])
    ensures forall i :: 0 <= i < |parsed| && Untouched(parsed[i]) ==> abcs[i] == parsed[i]
    ensures HeadingsOf(abcs) == HeadingsOf(parsed)
  {
    forall i | 0 <= i < |parsed|
      ensures IsAbcBlock(parsed[i]) ==> abcs[i] == AbcBoxFor(parsed[i].text, render)
      ensures parsed[i].Heading? ==> abcs[i] == parsed[i]
      ensures abcs[i].Heading? ==> parsed[i].Heading?
      ensures !IsAbcBlock(abcs[i])
      ensures Untouched(parsed[i]) ==> abcs[i] == parsed[i]
    {
      NodeThroughStages(parsed[i], hs[i], ms[i], abcs[i], render);
    }
    assert SameHeadings(parsed, abcs);
    SameHeadingsSameList(parsed, abcs);
  }

  /** One node through the three tree-changing stages. */
  lemma NodeThroughStages(p: Node, h: Node, m: Node, a: Node, render: string -> Attempt)
    requires HighlightStep(p, h) && DiagramStep(h, m) && NotationStep(m, a, render)
    ensures IsAbcBlock(p) ==> a == AbcBoxFor(p.text, render)
    ensures p.Heading? ==> a == p
    ensures a.Heading? ==> p.Heading?
    ensures !IsAbcBlock(a)
    ensures Untouched(p) ==> a == p
  {
    if p.CodeBlock? {
      assert m == h && h.className == p.className && h.text == p.text;
    } else {
      assert h == p && !m.CodeBlock?;
    }
  }

  /** Through the three stages a highlighted code block that is no notation block stays
      as highlighted, and a diagram container is left to the diagram stage alone. */
  lemma StagesKeepCodeAndDiagrams(parsed: seq<Node>, hs: seq<Node>, ms: seq<Node>, abcs: seq<Node>,
                                  render: string -> Attempt)
    requires |hs| == |parsed| && |ms| == |parsed| && |abcs| == |parsed|
    requires forall i :: 0 <= i < |parsed| ==> HighlightStep(parsed[i], hs[i])
    requires forall i :: 0 <= i < |parsed| ==> DiagramStep(hs[i], ms[i])
    requires forall i :: 0 <= i < |parsed| ==> NotationStep(ms[i], abcs[i], render)
    ensures forall i :: 0 <= i < |parsed| && HighlightedCode(parsed[i], hs[i]) ==> abcs[i] == parsed[i].(highlighted := true)
    ensures forall i :: 0 <= i < |parsed| && parsed[i].MermaidBox? ==> hs[i] == parsed[i] && abcs[i] == ms[i]
    ensures forall i :: 0 <= i < |parsed| && parsed[i].CodeBlock? && !IsAbcBlock(parsed[i]) && hs[i] == parsed[i] ==>
      abcs[i] == parsed[i]
  {
    forall i | 0 <= i < |parsed|
      ensures HighlightedCode(parsed[i], hs[i]) ==> abcs[i] == parsed[i].(highlighted := true)
      ensures parsed[i].MermaidBox? ==> hs[i] == parsed[i] && abcs[i] == ms[i]
      ensures parsed[i].CodeBlock? && !IsAbcBlock(parsed[i]) && hs[i] == parsed[i] ==> abcs[i] == parsed[i]
    {
      CodeAndDiagramThroughStages(parsed[i], hs[i], ms[i], abcs[i], render);
    }
  }

  /** A block that reaches the highlighter, is no notation block, and came out of the
      highlighting stage highlighted. */
  predicate HighlightedCode(p: Node, h: Node) {
    ReachesHighlighter(p) && !IsAbcBlock(p) && h.CodeBlock? && h.highlighted
  }

  /** One code block or diagram container through the three stages. */
  lemma CodeAndDiagramThroughStages(p: Node, h: Node, m: Node, a: Node, render: string -> Attempt)
    requires HighlightStep(p, h) && DiagramStep(h, m) && NotationStep(m, a, render)
    ensures HighlightedCode(p, h) ==> a == p.(highlighted := true)
    ensures p.MermaidBox? ==> h == p && a == m
    ensures p.CodeBlock? && !IsAbcBlock(p) && h == p ==> a == p
  {
    if p.CodeBlock? {
      assert m == h && h.className == p.className;
    }
  }

  // ----- How fenced blocks are routed -----

  /** Each fenced block reaches exactly one consumer, chosen by its tag alone: `mermaid`
      the diagram stage, `abc` the notation stage, every other tag the highlighter, for
      tags that are one class token (no whitespace) and hold no double quote. */
  lemma FenceRouting(code: string, lang: string)
    requires forall i :: 0 <= i < |lang| ==> lang[i] != '"' && !IsHtmlSpace(lang[i])
    ensures CustomRenderer.ReadCodeHtml(CustomRenderer.CodeHtml(code, lang)).Some?
    ensures var n := NodeOf(CustomRenderer.ReadCodeHtml(CustomRenderer.CodeHtml(code, lang)).value);
      && (n.MermaidBox? <==> lang == "mermaid")
      && (IsAbcBlock(n) <==> lang == "abc")
      && (ReachesHighlighter(n) <==> lang != "mermaid" && lang != "abc")
  {
    CustomRenderer.CodeHtmlRoundTrip(code, lang);
    if lang != "mermaid" {
      ShellRouting(code, lang);
    }
  }

  /** A generic shell classed `language-<lang>` with a one-token tag goes to the notation
      stage exactly when the tag is `abc`, and to the highlighter otherwise. */
  lemma ShellRouting(code: string, lang: string)
    requires forall i :: 0 <= i < |lang| ==> !IsHtmlSpace(lang[i])
    ensures IsAbcBlock(CodeBlock("language-" + lang, code, false)) <==> lang == "abc"
    ensures ReachesHighlighter(CodeBlock("language-" + lang, code, false)) <==> lang != "abc"
  {
    var cls := "language-" + lang;
    assert forall i :: 0 <= i < |cls| ==> !IsHtmlSpace(cls[i]) by {
      forall i | 0 <= i < |cls| ensures !IsHtmlSpace(cls[i]) {
        if i >= 9 { assert cls[i] == lang[i - 9]; }
      }
    }
    SingleTokenClass(cls, "language-abc");
    assert cls == "language-abc" <==> lang == "abc" by {
      if cls == "language-abc" { assert lang == cls[9..]; }
    }
    StripLanguagePrefix(lang);
  }

  /** Removing the first `language-` from `language-<lang>` gives back `<lang>`. */
  lemma StripLanguagePrefix(lang: string)
    ensures ReplaceFirst("language-" + lang, "language-", "") == lang
  {
    var s := "language-" + lang;
    assert OccursAt(s, "language-", 0) by {
      assert s[0..9] == "language-";
    }
    assert s[9..] == lang;
    ReplaceFirstSpec(s, "language-", "");
  }

  /** A tag of two words gives a block that both the highlighter and the notation stage
      take: the routing above needs single-token tags. */
  lemma TwoWordAbcTagReachesBoth()
    ensures ReachesHighlighter(CodeBlock("language-abc x", "X:1", false))
    ensures IsAbcBlock(CodeBlock("language-abc x", "X:1", false))
  {
    TwoWordTagStrips();
    TwoWordTagHasAbcToken();
  }

  lemma TwoWordTagStrips()
    ensures ReplaceFirst("language-abc x", "language-", "") == "abc x"
  {
    assert "language-abc x" == "language-" + "abc x";
    StripLanguagePrefix("abc x");
  }

  lemma TwoWordTagHasAbcToken()
    ensures HasClassToken("language-abc x", "language-abc")
  {
    var s := "language-abc x";
    assert s[0..12] == "language-abc";
    assert IsHtmlSpace(s[12]);
    assert TokenAt(s, "language-abc", 0);
  }
}

=== FILE: settings_manager.dfy ===
/** The heading-colour settings panel. Each of the three heading levels has a colour
    key, stored under `h<n>ColorKey` or defaulting to blue, blue and green; the key is
    looked up in a six-entry palette by the current theme and the result becomes the
    level's CSS colour. Saving persists the selected keys, resetting removes them. */
module SettingsManager {
  import opened Wrappers
  import opened Text

  datatype Theme = Dark | Light

  /** The three heading levels that carry a configurable colour. */
  datatype Slot = H1 | H2 | H3

  /** One string per heading level: colour keys or colour values. */
  datatype PerHeading = PerHeading(h1: string, h2: string, h3: string) {
    function At(s: Slot): string {
      match s
      case H1 => h1
      case H2 => h2
      case H3 => h3
    }
  }

  /** The palette's keys, in table order. */
  const ColorKeyList: seq<string> := ["default-text", "blue", "red", "orange", "green", "purple"]

  predicate IsColorKey(key: string) {
    key in ColorKeyList
  }

  /** A lower-case hexadecimal digit. */
  predicate IsHexDigit(ch: char) {
    '0' <= ch <= '9' || 'a' <= ch <= 'f'
  }

  /** `colorMap[key][theme]`: a CSS colour `#rrggbb`. */
  function ColorFor(key: string, theme: Theme): (c: string)
    requires IsColorKey(key)
    ensures |c| == 7 && c[0] == '#'
    ensures forall i :: 1 <= i < 7 ==> IsHexDigit(c[i])
  {
    match theme
    case Dark =>
      if key == "default-text" then "#abb2bf"
      else if key == "blue" then "#61afef"
      else if key == "red" then "#e06c75"
      else if key == "orange" then "#d19a66"
      else if key == "green" then "#98c379"
      else "#c678dd"
    case Light =>
      if key == "default-text" then "#343a40"
      else if key == "blue" then "#0056b3"
      else if key == "red" then "#c82333"
      else if key == "orange" then "#e08e0b"
      else if key == "green" then "#218838"
      else "#563d7c"
  }

  /** The first palette key in `keys` whose colour in `theme` is `color`. */
  function KeyOfColorIn(keys: seq<string>, color: string, theme: Theme): (r: Option<string>)
    requires forall i :: 0 <= i < |keys| ==> IsColorKey(keys[i])
    ensures r.Some? ==> r.value in keys && ColorFor(r.value, theme) == color
    ensures r.None? ==> forall i :: 0 <= i < |keys| ==> ColorFor(keys[i], theme) != color
  {
    if keys == [] then None
    else if ColorFor(keys[0], theme) == color then Some(keys[0])
    else KeyOfColorIn(keys[1..], color, theme)
  }

  /** Which palette key a colour value stands for in `theme`. */
  function KeyOfColor(color: string, theme: Theme): Option<string> {
    KeyOfColorIn(ColorKeyList, color, theme)
  }

  /** No palette key is empty, so a stored key always wins over the default. */
  lemma PaletteKeysNonEmpty(key: string)
    requires IsColorKey(key)
    ensures key != ""
  {
  }

  /** Within one theme the six colours are pairwise distinct, so a colour value names
      its key: decoding the colour of a key gives the key back. */
  lemma ColorDecodeRoundTrip(key: string, theme: Theme)
    requires IsColorKey(key)
    ensures KeyOfColor(ColorFor(key, theme), theme) == Some(key)
  {
    var r := KeyOfColor(ColorFor(key, theme), theme);
    assert r.Some?;
    assert ColorFor(r.value, theme) == ColorFor(key, theme);
  }

  /** Switching theme changes the colour of every key. */
  lemma ThemesDisagreeOnEveryKey(key: string)
    requires IsColorKey(key)
    ensures ColorFor(key, Light) != ColorFor(key, Dark)
  {
  }

  /** The default keys: blue, blue, green. */
  const DefaultKeys: PerHeading := PerHeading("blue", "blue", "green")

  /** The storage entry holding a level's key. */
  function StorageName(s: Slot): string {
    match s
    case H1 => "h1ColorKey"
    case H2 => "h2ColorKey"
    case H3 => "h3ColorKey"
  }

  lemma StorageNamesDistinct(s: Slot, t: Slot)
    ensures StorageName(s) == StorageName(t) ==> s == t
  {
    assert StorageName(s)[1] != StorageName(t)[1] || s == t;
  }

  /** `localStorage.getItem(name) || default`: a stored non-empty key wins, a missing
      or empty entry falls back to the level's default. */
  function ResolvedKey(store: map<string, string>, s: Slot): (k: string)
    ensures StorageName(s) in store && store[StorageName(s)] != "" ==> k == store[StorageName(s)]
    ensures StorageName(s) !in store || store[StorageName(s)] == "" ==> k == DefaultKeys.At(s)
    ensures k != ""
  {
    var name := StorageName(s);
    if name in store && store[name] != "" then store[name] else DefaultKeys.At(s)
  }

  /** What the model needs of the store: every resolved key is in the palette. Any
      other key either makes the lookup throw, or, for a name inherited from
      `Object.prototype` such as `toString` or `__proto__`, sets the colour property to
      `undefined`; neither case is modelled. */
  predicate KeysValid(store: map<string, string>) {
    IsColorKey(ResolvedKey(store, H1)) && IsColorKey(ResolvedKey(store, H2))
      && IsColorKey(ResolvedKey(store, H3))
  }

  /** The body's theme: light exactly when its class list holds `light-mode`. */
  function ThemeOf(bodyClass: string): Theme {
    if HasClassToken(bodyClass, "light-mode") then Light else Dark
  }

  /** The colours of three palette keys in one theme; each colour decodes back to
      its key. */
  function ColorsFor(keys: PerHeading, theme: Theme): (c: PerHeading)
    requires forall s: Slot :: IsColorKey(keys.At(s))
    ensures forall s: Slot :: KeyOfColor(c.At(s), theme) == Some(keys.At(s))
  {
    assert IsColorKey(keys.At(H1)) && IsColorKey(keys.At(H2)) && IsColorKey(keys.At(H3));
    var c := PerHeading(ColorFor(keys.h1, theme), ColorFor(keys.h2, theme), ColorFor(keys.h3, theme));
    assert forall s: Slot :: KeyOfColor(c.At(s), theme) == Some(keys.At(s)) by {
      forall s: Slot ensures KeyOfColor(c.At(s), theme) == Some(keys.At(s)) {
        ColorDecodeRoundTrip(keys.At(s), theme);
      }
    }
    c
  }

  /** The three resolved keys. */
  function ResolvedKeys(store: map<string, string>): (k: PerHeading)
    ensures forall s: Slot :: k.At(s) == ResolvedKey(store, s)
  {
    PerHeading(ResolvedKey(store, H1), ResolvedKey(store, H2), ResolvedKey(store, H3))
  }

  /** `applyHeadingColors`: the three CSS heading colours. Each one is the colour, in
      the body's theme, of that level's resolved key. */
  function ApplyHeadingColors(store: map<string, string>, bodyClass: string): (c: PerHeading)
    requires KeysValid(store)
    ensures forall s: Slot :: KeyOfColor(c.At(s), ThemeOf(bodyClass)) == Some(ResolvedKey(store, s))
  {
    ColorsFor(ResolvedKeys(store), ThemeOf(bodyClass))
  }

  /** Toggling the theme and re-applying changes every heading colour. */
  lemma ThemeChangeRecolours(store: map<string, string>, bodyClass: string, otherClass: string, s: Slot)
    requires KeysValid(store)
    requires ThemeOf(bodyClass) != ThemeOf(otherClass)
    ensures ApplyHeadingColors(store, bodyClass).At(s) != ApplyHeadingColors(store, otherClass).At(s)
  {
    var k := ResolvedKey(store, s);
    var a := ApplyHeadingColors(store, bodyClass);
    var b := ApplyHeadingColors(store, otherClass);
    assert KeyOfColor(a.At(s), ThemeOf(bodyClass)) == Some(k);
    assert a.At(s) == ColorFor(k, ThemeOf(bodyClass));
    assert b.At(s) == ColorFor(k, ThemeOf(otherClass));
    ThemesDisagreeOnEveryKey(k);
  }

  /** The page as far as the panel is concerned. `renders` records, for every call of
      the update callback, the heading colours in force when it ran. */
  datatype Page = Page(
    store: map<string, string>,
    bodyClass: string,
    colors: PerHeading,
    selectors: PerHeading,
    panelShown: bool,
    renders: seq<PerHeading>)

  /** `loadSettings`: apply the colours and show, in each selector, the same resolved
      key the colours were taken from. */
  function LoadSettings(page: Page): (r: Page)
    requires KeysValid(page.store)
    ensures forall s: Slot :: r.selectors.At(s) == ResolvedKey(page.store, s)
    ensures forall s: Slot :: KeyOfColor(r.colors.At(s), ThemeOf(page.bodyClass)) == Some(r.selectors.At(s))
    ensures r.store == page.store && r.bodyClass == page.bodyClass
    ensures r.panelShown == page.panelShown && r.renders == page.renders
  {
    page.(colors := ApplyHeadingColors(page.store, page.bodyClass), selectors := ResolvedKeys(page.store))
  }

  /** The settings button opens the panel. */
  function OpenPanel(page: Page): (r: Page)
    ensures r.panelShown
    ensures r == page.(panelShown := true)
  {
    page.(panelShown := true)
  }

  /** Choosing a key in one level's selector. */
  function Select(page: Page, s: Slot, key: string): (r: Page)
    ensures r.selectors.At(s) == key
    ensures forall t: Slot :: t != s ==> r.selectors.At(t) == page.selectors.At(t)
    ensures r == page.(selectors := r.selectors)
  {
    match s
    case H1 => page.(selectors := page.selectors.(h1 := key))
    case H2 => page.(selectors := page.selectors.(h2 := key))
    case H3 => page.(selectors := page.selectors.(h3 := key))
  }

  /** `store` with the three level entries set to `keys`. */
  function StoreKeys(store: map<string, string>, keys: PerHeading): map<string, string> {
    store[StorageName(H1) := keys.h1][StorageName(H2) := keys.h2][StorageName(H3) := keys.h3]
  }

  /** The store with the three level entries removed. */
  function RemoveKeys(store: map<string, string>): map<string, string> {
    store - {StorageName(H1), StorageName(H2), StorageName(H3)}
  }

  /** Palette keys written to the store are what the store then resolves to, and no
      other entry is touched. */
  lemma StoredKeysReadBack(store: map<string, string>, keys: PerHeading)
    requires forall s: Slot :: IsColorKey(keys.At(s))
    ensures forall s: Slot :: ResolvedKey(StoreKeys(store, keys), s) == keys.At(s)
    ensures OthersUnchanged(store, StoreKeys(store, keys))
  {
    var t := StoreKeys(store, keys);
    forall s: Slot ensures ResolvedKey(t, s) == keys.At(s) {
      assert StorageName(s) in t && t[StorageName(s)] == keys.At(s);
      PaletteKeysNonEmpty(keys.At(s));
    }
  }

  /** Removing the level entries leaves every level on its default key, and no other
      entry is touched. */
  lemma RemovedKeysFallBack(store: map<string, string>)
    ensures forall s: Slot :: StorageName(s) !in RemoveKeys(store)
    ensures ResolvedKeys(RemoveKeys(store)) == DefaultKeys
    ensures OthersUnchanged(store, RemoveKeys(store))
  {
    var t := RemoveKeys(store);
    assert ResolvedKey(t, H1) == "blue" && ResolvedKey(t, H2) == "blue" && ResolvedKey(t, H3) == "green";
  }

  /** Writing the same keys twice stores what writing them once does. */
  lemma StoreKeysTwice(store: map<string, string>, keys: PerHeading)
    ensures StoreKeys(StoreKeys(store, keys), keys) == StoreKeys(store, keys)
  {
  }

  /** Entries other than the three level keys agree. */
  ghost predicate OthersUnchanged(before: map<string, string>, after: map<string, string>) {
    forall k :: k != StorageName(H1) && k != StorageName(H2) && k != StorageName(H3) ==>
      (k in after <==> k in before) && (k in after ==> after[k] == before[k])
  }

  /** The save handler. The selectors offer only palette keys. The chosen keys are
      persisted and read back as the resolved keys; the colours are applied before
      the update callback runs, so the re-render sees the new colours; then the panel
      is hidden. No other stored entry changes. */
  function Save(page: Page): (r: Page)
    requires forall s: Slot :: IsColorKey(page.selectors.At(s))
    ensures forall s: Slot :: ResolvedKey(r.store, s) == page.selectors.At(s)
    ensures OthersUnchanged(page.store, r.store)
    ensures KeysValid(r.store)
    ensures forall s: Slot :: KeyOfColor(r.colors.At(s), ThemeOf(page.bodyClass)) == Some(page.selectors.At(s))
    ensures r.renders == page.renders + [r.colors]
    ensures !r.panelShown
    ensures r.selectors == page.selectors && r.bodyClass == page.bodyClass
  {
    var store := StoreKeys(page.store, page.selectors);
    StoredKeysReadBack(page.store, page.selectors);
    var colors := ApplyHeadingColors(store, page.bodyClass);
    page.(store := store, colors := colors, renders := page.renders + [colors], panelShown := false)
  }

  /** The reset handler: the three entries are removed, so selectors and colours return
      to the defaults; the callback runs with the default colours, then the panel is
      hidden. */
  function Reset(page: Page): (r: Page)
    ensures forall s: Slot :: StorageName(s) !in r.store
    ensures OthersUnchanged(page.store, r.store)
    ensures r.selectors == DefaultKeys
    ensures forall s: Slot :: KeyOfColor(r.colors.At(s), ThemeOf(page.bodyClass)) == Some(DefaultKeys.At(s))
    ensures r.renders == page.renders + [r.colors]
    ensures !r.panelShown
    ensures r.bodyClass == page.bodyClass
  {
    var store := RemoveKeys(page.store);
    RemovedKeysFallBack(page.store);
    var loaded := LoadSettings(page.(store := store));
    assert loaded.selectors == DefaultKeys;
    loaded.(renders := loaded.renders + [loaded.colors], panelShown := false)
  }

  /** After a reset the colours are those of a page with nothing stored. */
  lemma ResetMatchesFreshStart(page: Page)
    ensures Reset(page).colors == ApplyHeadingColors(map[], page.bodyClass)
  {
    RemovedKeysFallBack(page.store);
    assert ResolvedKeys(map[]) == DefaultKeys;
  }

  /** Saving twice without touching the selectors stores and shows the same thing. */
  lemma SaveTwiceSameState(page: Page)
    requires forall s: Slot :: IsColorKey(page.selectors.At(s))
    ensures Save(Save(page)).store == Save(page).store
    ensures Save(Save(page)).colors == Save(page).colors
  {
    StoreKeysTwice(page.store, page.selectors);
  }
}

=== FILE: text.dfy ===
/** The few JavaScript string primitives the editor's scripts rely on, on `seq<char>`:
    `trim`, ASCII `toLowerCase`, `endsWith`, `replace` of the first occurrence of a
    literal, per-character global replace, and CSS class-token membership. */
module Text {
  import opened Wrappers

  /** The characters `String.prototype.trim` removes: the WhiteSpace and
      LineTerminator code points of ECMAScript (section 12.2 and 12.3 of ECMA-262). */
  predicate IsJsWhitespace(c: char) {
    || c == '\t' || c == '\n' || c == '\U{000B}' || c == '\U{000C}' || c == '\r' || c == ' '
    || c == '\U{00A0}' || c == '\U{1680}' || ('\U{2000}' <= c <= '\U{200A}')
    || c == '\U{2028}' || c == '\U{2029}' || c == '\U{202F}' || c == '\U{205F}'
    || c == '\U{3000}' || c == '\U{FEFF}'
  }

  /** A string with no removable whitespace at either end. */
  predicate IsTrimmed(s: string) {
    s == [] || (!IsJsWhitespace(s[0]) && !IsJsWhitespace(s[|s| - 1]))
  }

  /** Drops leading whitespace (`trimStart`). */
  function TrimStart(s: string): (r: string)
    ensures |r| <= |s| && r == s[|s| - |r|..]
    ensures forall i :: 0 <= i < |s| - |r| ==> IsJsWhitespace(s[i])
    ensures r == [] || !IsJsWhitespace(r[0])
  {
    if |s| > 0 && IsJsWhitespace(s[0]) then TrimStart(s[1..]) else s
  }

  /** Drops trailing whitespace (`trimEnd`). */
  function TrimEnd(s: string): (r: string)
    ensures |r| <= |s| && r == s[..|r|]
    ensures forall i :: |r| <= i < |s| ==> IsJsWhitespace(s[i])
    ensures r == [] || !IsJsWhitespace(r[|r| - 1])
  {
    if |s| > 0 && IsJsWhitespace(s[|s| - 1]) then TrimEnd(s[..|s| - 1]) else s
  }

  /** `r` sits at `i` in `s`, and everything of `s` before and after it is whitespace. */
  predicate InWhitespace(s: string, r: string, i: nat) {
    && OccursAt(s, r, i)
    && (forall j :: 0 <= j < i ==> IsJsWhitespace(s[j]))
    && (forall j :: i + |r| <= j < |s| ==> IsJsWhitespace(s[j]))
  }

  /** `s.trim()`: the longest infix of `s` that neither starts nor ends with whitespace,
      obtained by removing only whitespace. */
  function Trim(s: string): (r: string)
    ensures IsTrimmed(r)
    ensures exists i :: InWhitespace(s, r, i)
    ensures r == [] <==> forall i :: 0 <= i < |s| ==> IsJsWhitespace(s[i])
  {
    var t := TrimStart(s);
    var r := TrimEnd(t);
    TrimPlaced(s, t, r);
    r
  }

  /** Where `Trim` finds its result: a trimmed string after the leading whitespace, with
      only whitespace behind it, and empty exactly when `s` is all whitespace. */
  lemma TrimPlaced(s: string, t: string, r: string)
    requires t == TrimStart(s) && r == TrimEnd(t)
    ensures IsTrimmed(r)
    ensures InWhitespace(s, r, |s| - |t|)
    ensures r == [] <==> forall i :: 0 <= i < |s| ==> IsJsWhitespace(s[i])
  {
    PrefixOfSuffix(s, t, r);
    if r == [] {
      assert t == [];
    } else {
      assert r[0] == t[0];
      assert !IsJsWhitespace(s[|s| - |t|]);
    }
  }

  /** A prefix `r` of a suffix `t` of `s` sits in `s` where `t` starts. */
  lemma PrefixOfSuffix(s: string, t: string, r: string)
    requires |t| <= |s| && t == s[|s| - |t|..]
    requires |r| <= |t| && r == t[..|r|]
    ensures OccursAt(s, r, |s| - |t|)
    ensures forall j :: |s| - |t| + |r| <= j < |s| ==> s[j] == t[j - (|s| - |t|)]
  {
    assert r == s[|s| - |t|..|s| - |t| + |r|];
  }

  /** Trimming a string that is already trimmed changes nothing. */
  lemma TrimOfTrimmed(s: string)
    requires IsTrimmed(s)
    ensures Trim(s) == s
  {
    assert TrimStart(s) == s;
    assert TrimEnd(s) == s;
  }

  /** `Trim` is idempotent. */
  lemma TrimIdempotent(s: string)
    ensures Trim(Trim(s)) == Trim(s)
  {
    TrimOfTrimmed(Trim(s));
  }

  /** JavaScript's `!s.trim()`: the string is empty once trimmed. */
  predicate IsBlank(s: string) {
    Trim(s) == []
  }

  /** `toLowerCase` on one character, restricted to ASCII case folding. */
  function LowerChar(c: char): (r: char)
    ensures 'A' <= c <= 'Z' ==> r as int == c as int + 32
    ensures !('A' <= c <= 'Z') ==> r == c
    ensures !('A' <= r <= 'Z')
  {
    if 'A' <= c <= 'Z' then (c as int + 32) as char else c
  }

  /** `toLowerCase` on a string, restricted to ASCII case folding. */
  function AsciiLower(s: string): (r: string)
    ensures |r| == |s|
    ensures forall i :: 0 <= i < |s| ==> r[i] == LowerChar(s[i])
  {
    seq(|s|, i requires 0 <= i < |s| => LowerChar(s[i]))
  }

  /** `s.startsWith(prefix)`. */
  predicate StartsWith(s: string, prefix: string) {
    |prefix| <= |s| && s[..|prefix|] == prefix
  }

  /** `s.endsWith(suffix)`. */
  predicate EndsWith(s: string, suffix: string) {
    |suffix| <= |s| && s[|s| - |suffix|..] == suffix
  }

  /** What lies after a prefix is read back by dropping the prefix. */
  lemma PrefixSplit(a: string, x: string)
    ensures StartsWith(a + x, a) && (a + x)[|a|..] == x
  {
    assert (a + x)[..|a|] == a;
  }

  /** A middle part framed by an opening and a closing part is read back between them. */
  lemma Framed(a: string, m: string, b: string)
    ensures StartsWith(a + m + b, a) && EndsWith(a + m + b, b)
    ensures |a + m + b| >= |a| + |b|
    ensures (a + m + b)[|a|..|a + m + b| - |b|] == m
  {
    var h := a + m + b;
    assert h[..|a|] == a;
    assert h[|h| - |b|..] == b;
    assert h[|a|..|h| - |b|] == m;
  }

  /** `pat` occurs in `s` starting at index `k`. */
  predicate OccursAt(s: string, pat: string, k: int) {
    0 <= k && k + |pat| <= |s| && s[k..k + |pat|] == pat
  }

  /** The first index at or after `from` where `pat` occurs in `s`. */
  function IndexOfFrom(s: string, pat: string, from: nat): Option<nat>
    requires from <= |s|
    decreases |s| - from
  {
    if from + |pat| > |s| then None
    else if s[from..from + |pat|] == pat then Some(from)
    else IndexOfFrom(s, pat, from + 1)
  }

  /** The search finds the first occurrence at or after `from`, or reports that there
      is none. */
  lemma {:induction false} IndexOfFromSpec(s: string, pat: string, from: nat)
    requires from <= |s|
    ensures var r := IndexOfFrom(s, pat, from);
      && (r.Some? ==> from <= r.value && OccursAt(s, pat, r.value))
      && (r.Some? ==> forall k :: from <= k < r.value ==> !OccursAt(s, pat, k))
      && (r.None? ==> forall k :: from <= k ==> !OccursAt(s, pat, k))
    decreases |s| - from
  {
    if from + |pat| <= |s| && s[from..from + |pat|] != pat {
      IndexOfFromSpec(s, pat, from + 1);
    }
  }

  /** `s.replace(pat, rep)` with a string pattern: only the first occurrence is replaced. */
  function ReplaceFirst(s: string, pat: string, rep: string): string {
    IndexOfFromSpec(s, pat, 0);
    match IndexOfFrom(s, pat, 0)
    case None => s
    case Some(i) => s[..i] + rep + s[i + |pat|..]
  }

  /** `ReplaceFirst` leaves a string without the pattern alone and otherwise rewrites
      exactly the first occurrence. */
  lemma ReplaceFirstSpec(s: string, pat: string, rep: string)
    ensures (forall k :: !OccursAt(s, pat, k)) ==> ReplaceFirst(s, pat, rep) == s
    ensures forall k ::
      (OccursAt(s, pat, k) && forall j :: 0 <= j < k ==> !OccursAt(s, pat, j))
      ==> ReplaceFirst(s, pat, rep) == s[..k] + rep + s[k + |pat|..]
  {
    IndexOfFromSpec(s, pat, 0);
    match IndexOfFrom(s, pat, 0)
    case None =>
    case Some(i) =>
      forall k | OccursAt(s, pat, k) && (forall j :: 0 <= j < k ==> !OccursAt(s, pat, j))
        ensures ReplaceFirst(s, pat, rep) == s[..k] + rep + s[k + |pat|..]
      {
        assert k < i ==> !OccursAt(s, pat, k);
        assert i < k ==> !OccursAt(s, pat, i);
      }
  }

  /** `s.replace(/c/g, rep)` for a single-character pattern: every occurrence of `c`
      becomes `rep`, every other character is kept. */
  function ReplaceEachChar(s: string, c: char, rep: string): (r: string)
    ensures |r| == |s| + Count(s, c) * (|rep| - 1)
  {
    if s == [] then []
    else (if s[0] == c then rep else [s[0]]) + ReplaceEachChar(s[1..], c, rep)
  }

  /** Replacing a character by itself changes nothing. */
  lemma {:induction false} ReplaceCharByItself(s: string, c: char)
    ensures ReplaceEachChar(s, c, [c]) == s
  {
    if s != [] {
      ReplaceCharByItself(s[1..], c);
      assert s == [s[0]] + s[1..];
    }
  }

  /** Number of occurrences of `c` in `s`. */
  function Count(s: string, c: char): nat {
    if s == [] then 0 else (if s[0] == c then 1 else 0) + Count(s[1..], c)
  }

  /** The ASCII whitespace that separates tokens of an HTML `class` attribute. */
  predicate IsHtmlSpace(c: char) {
    c == ' ' || c == '\t' || c == '\n' || c == '\U{000C}' || c == '\r'
  }

  /** The `class` attribute `className` lists `token` as one of its whitespace-separated
      tokens (what a `.token` selector tests). */
  predicate HasClassToken(className: string, token: string) {
    exists i | 0 <= i <= |className| - |token| :: TokenAt(className, token, i)
  }

  /** `token` occurs at index `i` of `className`, delimited by separators or the ends. */
  predicate TokenAt(className: string, token: string, i: int) {
    && OccursAt(className, token, i)
    && (i == 0 || IsHtmlSpace(className[i - 1]))
    && (i + |token| == |className| || IsHtmlSpace(className[i + |token|]))
  }

  /** A class attribute without separators is a single token: it lists `token`
      exactly when it is `token`. */
  lemma SingleTokenClass(className: string, token: string)
    requires |token| > 0
    requires forall i :: 0 <= i < |className| ==> !IsHtmlSpace(className[i])
    ensures HasClassToken(className, token) <==> className == token
  {
    if HasClassToken(className, token) {
      var i :| 0 <= i <= |className| - |token| && TokenAt(className, token, i);
      assert i == 0;
      assert i + |token| == |className|;
    }
    if className == token {
      assert TokenAt(className, token, 0);
    }
  }
}

=== FILE: ui_manager.dfy ===
/** Theme toggling and view-mode switching. The theme is a two-state flip of the body's
    `light-mode` class that also sets the stored theme, the highlighter stylesheet, the
    editor theme and the toggle button. The view mode sets the split container's mode
    class, the one active view button and the outline sidebar's visibility. */
module UiManager {
  import opened Wrappers

  // ----- Theme -----

  const LightSheet: string := "https://cdnjs.cloudflare.com/ajax/libs/highlight.js/11.6.0/styles/github.min.css"
  const DarkSheet: string := "https://cdnjs.cloudflare.com/ajax/libs/highlight.js/11.6.0/styles/atom-one-dark.min.css"

  /** The toggle button's icon and caption: in light mode it offers dark mode. */
  datatype ThemeButton = ThemeButton(icon: string, caption: string)

  /** Everything the theme toggle touches. */
  datatype ThemeState = ThemeState(
    bodyClasses: set<string>,
    storedTheme: Option<string>,
    stylesheet: string,
    editorTheme: string,
    button: ThemeButton)

  predicate IsLight(t: ThemeState) {
    "light-mode" in t.bodyClasses
  }

  /** Stored theme, stylesheet, editor theme and button all agree with the body class. */
  predicate ThemeConsistent(t: ThemeState) {
    if IsLight(t) then
      t.storedTheme == Some("light") && t.stylesheet == LightSheet && t.editorTheme == "eclipse"
      && t.button == ThemeButton("fas fa-moon", "深色模式")
    else
      t.storedTheme == Some("dark") && t.stylesheet == DarkSheet && t.editorTheme == "material-darker"
      && t.button == ThemeButton("fas fa-sun", "淺色模式")
  }

  /** `toggleTheme`: flips `light-mode` and sets the rest from the new state. */
  function ToggleTheme(t: ThemeState): (r: ThemeState)
    ensures IsLight(r) <==> !IsLight(t)
    ensures r.storedTheme == Some("light") <==> IsLight(r)
    ensures ThemeConsistent(r)
    ensures r.bodyClasses - {"light-mode"} == t.bodyClasses - {"light-mode"}
  {
    var light := "light-mode" !in t.bodyClasses;
    if light then
      ThemeState(t.bodyClasses + {"light-mode"}, Some("light"), LightSheet, "eclipse",
                 ThemeButton("fas fa-moon", "深色模式"))
    else
      ThemeState(t.bodyClasses - {"light-mode"}, Some("dark"), DarkSheet, "material-darker",
                 ThemeButton("fas fa-sun", "淺色模式"))
  }

  /** Toggling twice restores a consistent state entirely. */
  lemma ToggleThemeInvolutive(t: ThemeState)
    requires ThemeConsistent(t)
    ensures ToggleTheme(ToggleTheme(t)) == t
  {
    if IsLight(t) {
      assert ToggleTheme(ToggleTheme(t)).bodyClasses == t.bodyClasses - {"light-mode"} + {"light-mode"};
      assert t.bodyClasses - {"light-mode"} + {"light-mode"} == t.bodyClasses;
    } else {
      assert t.bodyClasses + {"light-mode"} - {"light-mode"} == t.bodyClasses;
    }
  }

  // ----- View mode -----

  datatype ViewMode = EditorOnly | PreviewOnly | Both

  /** The buttons of the view-mode bar. */
  datatype ViewButton = ViewEditor | ViewPreview | ViewBoth

  const EditorOnlyClass: string := "view-mode-editor-only"
  const PreviewOnlyClass: string := "view-mode-preview-only"

  /** The split container's classes, the active buttons, the sidebar and the two
      panels' inline `flex` values. */
  datatype Layout = Layout(
    containerClasses: set<string>,
    activeButtons: set<ViewButton>,
    sidebarVisible: bool,
    editorFlex: string,
    previewFlex: string)

  /** The mode a `setViewMode` argument selects: anything unrecognised means both. */
  function ModeNamed(mode: string): ViewMode {
    if mode == "editor-only" then EditorOnly
    else if mode == "preview-only" then PreviewOnly
    else Both
  }

  /** The mode a set of container classes shows, editor-only taking precedence. */
  function ModeOf(classes: set<string>): ViewMode {
    if EditorOnlyClass in classes then EditorOnly
    else if PreviewOnlyClass in classes then PreviewOnly
    else Both
  }

  function ButtonFor(m: ViewMode): ViewButton {
    match m
    case EditorOnly => ViewEditor
    case PreviewOnly => ViewPreview
    case Both => ViewBoth
  }

  /** `setViewMode`: clears both mode classes, every active button and the sidebar,
      then sets the class, button and sidebar of the selected mode. */
  function SetViewMode(l: Layout, mode: string): (r: Layout)
    ensures |r.activeButtons| == 1
    ensures ModeNamed(mode) == EditorOnly ==>
      EditorOnlyClass in r.containerClasses && PreviewOnlyClass !in r.containerClasses
      && r.activeButtons == {ViewEditor} && !r.sidebarVisible
    ensures ModeNamed(mode) == PreviewOnly ==>
      PreviewOnlyClass in r.containerClasses && EditorOnlyClass !in r.containerClasses
      && r.activeButtons == {ViewPreview} && r.sidebarVisible
    ensures ModeNamed(mode) == Both ==>
      EditorOnlyClass !in r.containerClasses && PreviewOnlyClass !in r.containerClasses
      && r.activeButtons == {ViewBoth} && !r.sidebarVisible
    ensures ModeOf(r.containerClasses) == ModeNamed(mode)
    ensures r.containerClasses - {EditorOnlyClass, PreviewOnlyClass}
         == l.containerClasses - {EditorOnlyClass, PreviewOnlyClass}
    ensures r.editorFlex == l.editorFlex && r.previewFlex == l.previewFlex
  {
    var base := l.containerClasses - {EditorOnlyClass, PreviewOnlyClass};
    var m := ModeNamed(mode);
    var classes := match m
      case EditorOnly => base + {EditorOnlyClass}
      case PreviewOnly => base + {PreviewOnlyClass}
      case Both => base;
    l.(containerClasses := classes, activeButtons := {ButtonFor(m)}, sidebarVisible := m == PreviewOnly)
  }

  /** Applying the same mode twice is applying it once. */
  lemma SetViewModeIdempotent(l: Layout, mode: string)
    ensures SetViewMode(SetViewMode(l, mode), mode) == SetViewMode(l, mode)
  {
    var once := SetViewMode(l, mode);
    var twice := SetViewMode(once, mode);
    assert twice.containerClasses == once.containerClasses;
  }

  /** The last call wins: switching mode twice is switching once to the second mode. */
  lemma SetViewModeLastWins(l: Layout, first: string, second: string)
    ensures SetViewMode(SetViewMode(l, first), second) == SetViewMode(l, second)
  {
    var a := SetViewMode(SetViewMode(l, first), second);
    var b := SetViewMode(l, second);
    assert a.containerClasses == b.containerClasses;
  }
}

=== FILE: wrappers.dfy ===
/** Optional values and results with an error, used wherever the editor's scripts
    return "nothing", `null`, or throw. */
module Wrappers {

  /** A value that may be absent (`null` / `undefined` in the scripts). */
  datatype Option<+T> = None | Some(value: T)

  /** The outcome of a call that either returns a value or throws an error message. */
  datatype Result<+T, +E> = Ok(value: T) | Err(error: E)
}
